=== FILE: README.md ===
# Healthcare appointment backend — a Dafny model

This project models the request handlers of an Express/Mongoose backend for a small clinic.
Patients register and book appointments, and doctors accept, complete and reschedule them.
Accepting an appointment opens a chat between doctor and patient. Patients rate doctors, and
each booking, acceptance and reschedule sends the patient or doctor a notification. An admin
dashboard summarises appointments and patient risk.

The repository holds two generations of the backend side by side:

- the **healthcare tree** (`healthcare/controllers/*`, `healthcare/models/*`): users have a
  required, unique ten-digit mobile number; a chat is unique per doctor–patient pair; messages
  are their own collection with a sender role and a read flag;
- the **legacy tree** (`routes/*`, `models/*`): login by email only; a chat belongs to one
  appointment and embeds its messages; unread counts are computed from per-role read times.

Both trees share one data model (`Records`): the store `Db`, with its users, patients, doctors,
appointments, ratings and notifications in insertion order. The chat stores differ, so each
tree has its own (`HcChats.Store`, `LegacyChats.LStore`). A handler is a pure function from a
store and a request to a `Reply(store, result)`. The store is the one the handler leaves
behind, and the result is the JSON answer or a `Failure`. The handlers are not transactional: a
request that fails half way keeps its earlier writes, and the replies say so.

Mongoose behaviour is modelled where the handlers depend on it:

- `save` runs schema validation (required fields, enums, `min`/`max`) and the unique indexes;
  `findByIdAndUpdate` runs neither;
- the appointment pre-save hook assigns a code once;
- `trim` and `lowercase` setters are applied to the appointment name and email;
- `findOne` answers the first match in natural order.

Where a handler is the same in both trees (`Lifecycle`, `Dashboard`, `Ratings`,
`Notifications`, `Analytics`, `Profile`), one function models both. The citation names one of
the two, and any difference between the trees is a parameter. Where the trees differ
(registration, login, chats, acceptance, the admin creates), each has its own module.
`Trees` proves where they part ways on the same request.

Modules:

- `Wrappers`, `Collection`, `Text`, `Time`: `Option`/`Result`, sequence helpers (count,
  filter, first match, stable sort, top-k), trimming JavaScript's whitespace and ASCII lower-casing, and UTC
  millisecond time.
- `Risk`: the patient `priority` virtual (High above 140, Moderate above 120 or 100, else Low).
- `Records`: entities, schema validation, the appointment code and its pre-save hook.
- `Lifecycle`: book, update, delete, complete and reschedule an appointment.
- `HcAppointments`, `LegacyAppointments`: accepting an appointment in each tree.
- `HcChats`, `LegacyChats`: the chat handlers and unread counts of each tree.
- `Dashboard`: the admin dashboard, the critical-patient count and the high-risk list.
- `Ratings`: submitting a rating and the server's rating repair pass.
- `Notifications`, `Analytics`: notification inbox and the vitals summary.
- `Accounts`, `HcAuth`, `LegacyAuth`, `HcDoctors`, `Admin`, `Profile`: registration, login,
  doctor management, the admin creates, profile edits, password change and upload filter.
- `Trees`: properties relating the two trees.

## Model

| member | source | states |
|---|---|---|
| Risk.Priority | models/Patient.js:14-18 | High exactly when blood pressure or glucose is above 140; Moderate exactly when not High and blood pressure is above 120 or glucose above 100; Low otherwise; an absent vital never counts as above a limit |
| Risk.CriticalIffHigh | healthcare/controllers/adminController.js:151-159 | the critical-patient query (blood pressure or glucose above 140) selects exactly the patients whose priority is High |
| Risk.PriorityMonotone | models/Patient.js:15-17 | raising no vital never lowers the priority tier |
| Risk.PriorityBoundaries | healthcare/models/Patient.js:18-22 | the limits are strict: 140/140 and 140/100 are Moderate, 120/100 is Low, no vitals is Low; half a unit above 120 blood pressure or 100 glucose alone is Moderate, half a unit above 140 on either alone is High |
| Time.DayStart | healthcare/controllers/adminController.js:206-207 | midnight of the day: at most the instant, less than a day before it, and a whole number of days |
| Time.EndOfDay | healthcare/controllers/adminController.js:172-175 | the last millisecond of the same day: not before the instant and within the same day |
| Time.HourOf | healthcare/controllers/adminController.js:192 | an hour 0..23 whose hour-long slot of the day contains the instant |
| Text.TrimNoBreakSpace | healthcare/models/Appointment.js:12-16 | `trim` cuts JavaScript's whitespace beyond ASCII too: a lone no-break space trims to the empty string |
| Text.TrimIsTrimmed | healthcare/models/Appointment.js:12-16 | a trimmed value has no JavaScript whitespace at either end |
| Text.TrimOfTrimmed | healthcare/models/Appointment.js:12-16 | trimming a value that has no leading or trailing blank leaves it unchanged |
| Text.NormaliseIdempotent | healthcare/models/Appointment.js:17-22 | applying the trim-and-lowercase setters twice is the same as once |
| Text.LowerTrimCommute | models/Appointment.js:17-22 | trimming and lower-casing commute, so the order Mongoose applies the setters in does not matter |
| Text.ContainsIff | routes/profile.js:35-37 | an unanchored alternation test matches exactly when the text occurs at some position |
| Records.OrAbsent | healthcare/controllers/authController.js:41-45 | `v \|\| undefined`: a value is kept exactly when it is truthy (present and non-zero), otherwise dropped |
| Records.CodeInjective | healthcare/controllers/appointmentsController.js:58 | appointment codes made at different instants differ |
| Records.PreSaveIdempotent | models/Appointment.js:92-97 | after the pre-save hook a code is present, and saving again never changes it |
| Records.UniqueAfterSet | healthcare/models/Appointment.js:8-11 | writing back an appointment whose code no other appointment has keeps codes unique |
| Records.UniqueAfterAppend | models/Appointment.js:6-9 | inserting an appointment with a new code keeps codes unique |
| Lifecycle.Draft | healthcare/controllers/appointmentsController.js:57-72 | the new appointment carries the request's fields, the name and email through the trim (JavaScript whitespace at both ends) and lowercase setters, with status Scheduled and the code made from the booking instant |
| Lifecycle.Notify | healthcare/controllers/appointmentsController.js:87-96 | a booking notifies the doctor's user when one is linked, appending one unread notification for that account with the notice, kind and link and changing nothing else, and writes nothing otherwise |
| Lifecycle.BookedVitals | routes/appointments.js:93-100 | only the truthy vitals of the request overwrite the patient's; the others are kept |
| Lifecycle.Book | healthcare/controllers/appointmentsController.js:37-102 | the booking succeeds exactly when date, age, doctor id and patient id are given, the drafted appointment validates and no appointment has its code; a failure is ValidationFailed or DuplicateKey with nothing written; a success appends the drafted appointment, updates the patient's vitals when a truthy one is sent, and appends exactly one unread `appointment_booked` notification, linked to the doctor's appointments page, for the doctor's user account when one is linked (none otherwise) |
| Lifecycle.BookWithoutVitals | healthcare/controllers/appointmentsController.js:77-84 | a booking without vitals leaves every patient unchanged |
| Lifecycle.BookIgnoresZeroVital | routes/appointments.js:95 | a vital sent as 0 does not overwrite the stored one |
| Lifecycle.BookRefusesNoBreakSpaceName | healthcare/models/Appointment.js:12-16 | a patient name that is only a no-break space is blank to the required validator, so the booking is refused |
| Lifecycle.SaveAppointment | healthcare/models/Appointment.js:6-82 | an invalid appointment is ValidationFailed and any other failure DuplicateKey; a valid appointment keeping its own code in a store of unique codes saves; a save writes the pre-saved appointment in place, nothing else, and keeps codes unique |
| Lifecycle.Complete | healthcare/controllers/appointmentsController.js:199-208 | an unknown id is NotFound; otherwise the status becomes Completed through a save and nothing else changes |
| Lifecycle.CompleteFromAnyStatus | routes/appointments.js:228-241 | completion has no status guard: any found appointment that is valid once Completed is completed, whatever its status |
| Lifecycle.Reschedule | healthcare/controllers/appointmentsController.js:211-238 | NotFound for an unknown id; any status but Accepted is InvalidState; an Accepted appointment is moved exactly when a date is given and the save succeeds; failures write nothing; a move keeps status Accepted, takes the new date and time, and appends exactly one unread `appointment_rescheduled` notification naming the doctor and new slot for the patient's user account when one is linked (none otherwise) |
| Lifecycle.RescheduleMoves | healthcare/controllers/appointmentsController.js:211-237 | an Accepted appointment whose new date and time validate is moved, and looking it up afterwards finds it at the new date and time |
| Lifecycle.ApplyPatch | healthcare/controllers/appointmentsController.js:106 | each field the body carries overwrites the stored one (name and reason trimmed, email trimmed and lower-cased), the code included; each absent field is kept; the id never changes |
| Lifecycle.Update | routes/appointments.js:127-135 | NotFound for an unknown id; DuplicateKey when the patched code is another appointment's; otherwise the patched appointment replaces the old one in place without validation; failures write nothing |
| Lifecycle.UpdateBypassesStatusRules | healthcare/controllers/appointmentsController.js:105-111 | an update can set any status string, also one outside the enum, which save would refuse |
| Lifecycle.UpdateThenFind | routes/appointments.js:127-135 | after a successful update, looking the id up finds the patched appointment |
| Lifecycle.UpdateEmptyPatch | healthcare/controllers/appointmentsController.js:105-111 | an update with an empty body, in a store of unique codes, answers the appointment as it is and changes nothing |
| Lifecycle.Delete | routes/appointments.js:138-146 | the only failure is NotFound for an unknown id; a found appointment is removed and answered, and the others keep their order |
| Lifecycle.DeleteRemovesOne | routes/appointments.js:138-146 | a delete removes exactly one appointment with the id; with unique ids, deleting again is NotFound |
| HcAppointments.OpenChat | healthcare/controllers/appointmentsController.js:124-177 | the save of status Accepted decides success; on success exactly one unread `appointment_accepted` notification for the patient's user account is appended when one is linked (none otherwise); the pair's chat is reused when there is one, otherwise created for the appointment's doctor, patient and reason |
| HcAppointments.Accept | healthcare/controllers/appointmentsController.js:123-196 | as written: the store is exactly the one the save, notification and chat steps leave; NotFound for an unknown id; whenever those steps succeed the answer is a ReferenceError, with the appointment Accepted and the pair's chat present |
| HcAppointments.AcceptIntended | healthcare/controllers/appointmentsController.js:179-195 | with `Message` imported: the store is the one the save, notification and chat steps leave, with one more id used; the acceptance note is appended to the messages, posted to the pair's chat as the doctor; that chat's last-message time becomes the current time and every other chat is unchanged; the accepted appointment is answered |
| HcAppointments.EmailIrrelevant | healthcare/controllers/appointmentsController.js:145-155 | whether the confirmation email is sent changes neither the store nor the answer |
| HcAppointments.AcceptFromAnyStatus | healthcare/controllers/appointmentsController.js:129-130 | acceptance has no status guard, and as written every found appointment ends in ReferenceError with its writes kept |
| HcAppointments.AcceptKeepsOneChat | healthcare/controllers/appointmentsController.js:163 | accepting keeps at most one chat per doctor–patient pair |
| LegacyAppointments.Note | routes/appointments.js:195-203 | the note is sent under the consulting doctor's name with the appointment's date and time |
| LegacyAppointments.Accept | routes/appointments.js:149-226 | NotFound for an unknown id; a found appointment is accepted exactly when its save succeeds and, if it has a chat, the chat with the note still validates; on success it is Accepted, exactly one unread `appointment_accepted` notification is appended for the patient's user account when one is linked (none otherwise), and the note is pushed onto its chat or a new chat is created holding it |
| LegacyAppointments.EmailIrrelevant | routes/appointments.js:175-185 | whether the email is sent changes neither the store nor the answer |
| LegacyAppointments.ReacceptReusesChat | routes/appointments.js:193-203 | after a first accept that created the chat, accepting again succeeds, adds no chat and leaves two notes in that chat |
| HcChats.PairUniqueAfterSet | healthcare/models/Chat.js:32 | writing back a chat with its doctor–patient pair unchanged keeps pairs unique |
| HcChats.NewChat | healthcare/models/Chat.js:26-29 | a new chat counts as read by both sides at its creation, and its last-message time is its creation time |
| HcChats.FindOrCreate | healthcare/controllers/chatsController.js:105-117 | an existing chat of the pair is answered unchanged; otherwise the new chat is saved exactly when its required names and subject are present |
| HcChats.FindOrCreateIdempotent | healthcare/controllers/chatsController.js:105-107 | a second find-or-create on the same pair changes nothing and answers the same chat |
| HcChats.OneChatPerPair | healthcare/models/Chat.js:32 | find-or-create keeps at most one chat per pair, and the answered chat is the pair's |
| HcChats.UnreadCount | healthcare/controllers/chatsController.js:6-12 | at most the chat's messages, and zero exactly when no message of the chat from the other role is newer than the last read, an unset last read meaning the epoch |
| HcChats.UnreadIgnoresOwnRole | healthcare/controllers/chatsController.js:9 | a reader's own messages never count as unread |
| HcChats.UnreadCountsOtherRole | healthcare/controllers/chatsController.js:7-11 | adding a message from the other role after the last read raises the count by one |
| HcChats.UnreadFromEpoch | healthcare/controllers/chatsController.js:10 | with no last read, every message of the other role created after the epoch is unread |
| HcChats.Latest | healthcare/controllers/chatsController.js:24-25 | the last message is the chat's message with the greatest creation time, or none when the chat has none |
| HcChats.DoctorChats | healthcare/controllers/chatsController.js:14-43 | exactly the doctor's chats, most recent message first, each with its last message and the doctor's unread count |
| HcChats.PatientChats | healthcare/controllers/chatsController.js:45-74 | the same for a patient, with the patient's unread count |
| HcChats.CreateChat | healthcare/controllers/chatsController.js:102-120 | with both ids: an existing chat of the pair is answered as it is; otherwise a chat is created exactly when doctor name, patient name and subject are present; with an id missing: only a chat the partial filter finds can be answered, else ValidationFailed, with nothing written; pair uniqueness is kept |
| HcChats.CreateChatWithoutIdsRefused | healthcare/models/Chat.js:7-18 | a create without a doctor id in a store with no chats is refused and writes nothing |
| HcChats.SenderRole | healthcare/controllers/chatsController.js:131 | the sender is the doctor exactly when the sender name equals the chat's doctor name; any other name is the patient |
| HcChats.AddMessage | healthcare/controllers/chatsController.js:122-172 | NotFound for an unknown chat; for a found chat the message is stored exactly when sender, text and the sender's user account are present, else ValidationFailed with nothing written; a stored message has the derived role, the chat's last-message time is set and the chat's messages are answered in creation order |
| HcChats.AddThenListed | healthcare/controllers/chatsController.js:142-164 | a stored message is among the messages the answer lists |
| HcChats.MarkAsRead | healthcare/controllers/chatsController.js:174-212 | the only failure is NotFound; a doctor or patient sets their own last-read time and marks the other role's unread messages of this chat read; any other role only saves the chat; other chats' messages are untouched |
| HcChats.MarkAsReadClearsUnread | healthcare/controllers/chatsController.js:182-208 | after a doctor or a patient marks read, no message of the other role in the chat is left unread for that side |
| HcChats.DeleteChat | healthcare/controllers/chatsController.js:214-223 | the chat's messages are deleted even when the chat does not exist; the only failure is NotFound, and a found chat is removed |
| HcChats.DeleteChatRemovesOne | healthcare/controllers/chatsController.js:214-223 | a delete removes exactly one chat with the id and every message of that chat; with unique chat ids, deleting again is NotFound |
| LegacyChats.UnreadCount | routes/chats.js:8-10 | counts the messages after the role's last read whose sender is not the reader's name |
| LegacyChats.OwnMessagesNeverUnread | routes/chats.js:10 | a reader's own messages never count as unread |
| LegacyChats.DoctorChats | routes/chats.js:23-37 | exactly the doctor's chats, every one of them listed, most recently updated first, with unread counts |
| LegacyChats.PatientChats | routes/chats.js:40-54 | the same for a patient, every one of the patient's chats listed |
| LegacyChats.CreateChat | routes/chats.js:80-88 | the chat is created exactly when its three ids, names, subject and message fields are present, with no duplicate check; otherwise ValidationFailed with nothing written |
| LegacyChats.CreateChatDuplicates | routes/chats.js:82-83 | creating the same chat twice leaves two chats |
| LegacyChats.CreateThenListed | routes/chats.js:23-54 | a created chat is listed for its doctor and for its patient |
| LegacyChats.Post | routes/chats.js:96-97 | the message is appended as given and the chat's update time is now; the result validates exactly when the chat and the message do |
| LegacyChats.AddMessage | routes/chats.js:91-113 | NotFound for an unknown chat; for a found chat the message, stamped now, is appended to that chat only, exactly when the chat validates and sender and text are present, else ValidationFailed with nothing written |
| LegacyChats.AddMessageUnread | routes/chats.js:8-10 | a posted message adds one to the reader's unread count exactly when it is newer than the reader's read time and not sent under the reader's name |
| LegacyChats.MarkAsRead | routes/chats.js:116-135 | NotFound for an unknown chat; any role but doctor or patient is Forbidden with nothing written; a doctor or patient sets their own read time, succeeding exactly when the chat validates |
| LegacyChats.MarkAsReadClearsUnread | routes/chats.js:122-125 | right after marking read the reader's unread count is zero |
| LegacyChats.DeleteChat | routes/chats.js:138-146 | the only failure is NotFound; a found chat is removed with its messages |
| LegacyChats.DeleteChatRemovesOne | routes/chats.js:138-146 | a delete removes exactly one chat with the id; with unique chat ids, deleting again is NotFound |
| Dashboard.Filtered | healthcare/controllers/adminController.js:168-177 | keeps exactly the appointments on or after the start and on or before the end of the end date's day |
| Dashboard.UnboundedRangeKeepsAll | routes/admin.js:219-220 | with neither date given every appointment is kept |
| Dashboard.EndOfDayInclusive | healthcare/controllers/adminController.js:172-176 | an appointment at any time on the end date is inside the range |
| Dashboard.HourlyFlow | routes/admin.js:240-245 | 24 buckets, bucket h counting the appointments at hour h, summing to the number of appointments |
| Dashboard.RiskTally | healthcare/controllers/adminController.js:197-203 | high, moderate and low count the patients of each priority and add up to all patients |
| Dashboard.CriticalCount | routes/admin.js:199-211 | the critical count equals the number of High-priority patients |
| Dashboard.StatusBreakdown | healthcare/controllers/adminController.js:220-226 | four counts, one per status in enum order, each the number of appointments with that status |
| Dashboard.AllStatusesValid | healthcare/models/Appointment.js:68-72 | when every status is in the enum the four counts add up to all appointments |
| Dashboard.StatusPartition | routes/admin.js:271-277 | the four status counts add up to the number of appointments whose status is one of the four |
| Dashboard.StatusBreakdownPermutation | routes/admin.js:271-277 | the breakdown is order-free: a permutation of the appointments gives the same four counts |
| Dashboard.UpcomingList | healthcare/controllers/adminController.js:206-217 | min(10, number of candidates) stored appointments that are not Completed and fall between today's midnight and 30 days later, in date order; a candidate left out is no earlier than any listed one |
| Dashboard.UpcomingDrawnOnce | healthcare/controllers/adminController.js:206-217 | the list is a sub-multiset of the candidates: no appointment appears more often than it is stored |
| Dashboard.UpcomingAreEarliest | routes/admin.js:261-268 | no qualifying appointment left out is earlier than one listed |
| Dashboard.Groups | healthcare/controllers/adminController.js:229-231 | one group per distinct key, each with the number of appointments having it |
| Dashboard.TopFive | healthcare/controllers/adminController.js:232-233 | min(5, number of groups) groups of the grouping, in descending count, none left out with a larger count than a listed one |
| Dashboard.TopFiveDistinct | healthcare/controllers/adminController.js:229-233 | the five are a sub-multiset of the `$group` buckets, so no id is listed twice |
| Dashboard.TopFiveCounts | routes/admin.js:282 | every listed group count is the number of appointments with that key |
| Dashboard.TopFiveIsTop | routes/admin.js:283-284 | no unlisted group has a higher count than a listed one |
| Dashboard.PatientName | healthcare/controllers/adminController.js:237 | the linked patient's name, or Unknown when it is missing or empty |
| Dashboard.DoctorName | healthcare/controllers/adminController.js:250 | the linked doctor's full name, or Unknown when missing or empty |
| Dashboard.TopPatients | routes/admin.js:280-290 | the five busiest patients with names and counts |
| Dashboard.TopDoctors | routes/admin.js:293-303 | the five busiest doctors with names and counts |
| Dashboard.LinkedPatients | healthcare/controllers/adminController.js:269-271 | one stored patient for each appointment whose patient exists; the others are skipped |
| Dashboard.DayTally | healthcare/controllers/adminController.js:263-282 | the day's appointments with an existing patient counted by that patient's priority; unlinked ones are skipped |
| Dashboard.TrendDay | healthcare/controllers/adminController.js:256-261 | day k of the trend is the midnight 6 - k days before today's |
| Dashboard.RiskTrend | healthcare/controllers/adminController.js:255-283 | seven entries, oldest first; entry k is the tally of trend day k (the midnight 6 - k days before today's), and each day's tiers count at most that day's appointments |
| Dashboard.TrendDaysConsecutive | routes/admin.js:306-312 | the seven trend days are consecutive midnights ending today |
| Dashboard.TrendCountsEveryLinkedAppointment | routes/admin.js:319-327 | each day's three counts add up to that day's appointments with an existing patient |
| Dashboard.ListedDoctor | healthcare/controllers/adminController.js:336 | the doctor's full name when the doctor exists and has one, else the consulting doctor text |
| Dashboard.Row | healthcare/controllers/adminController.js:331-338 | a row pairs the appointment with its first matching high-risk patient and listed doctor |
| Dashboard.HighRiskTop | healthcare/controllers/adminController.js:317-329 | min(20, number of candidates) in-range appointments of critical patients, latest first; a candidate left out is no later than any listed one |
| Dashboard.HighRiskDrawnOnce | healthcare/controllers/adminController.js:317-329 | the list is a sub-multiset of the candidates: no appointment appears more often than it is stored |
| Dashboard.HighRiskAppointments | routes/admin.js:356-397 | one row per selected appointment, each with a critical patient |
| Dashboard.HighRiskAreLatest | routes/admin.js:376-382 | no qualifying appointment left out is later than one listed |
| Dashboard.DashboardFor | healthcare/controllers/adminController.js:164-301 | the whole dashboard: collection counts and the in-range appointment count; the hourly flow, risk tiers, upcoming list, status breakdown, top patients, top doctors and seven-day trend are each the part defined above |
| Ratings.GroupStats | healthcare/controllers/ratingsController.js:29-38 | the count and score sum of exactly the doctor's ratings |
| Ratings.Submit | healthcare/controllers/ratingsController.js:7-57 | missing fields are refused with nothing written; an out-of-range score fails validation; otherwise the rating is appended and the doctor's average and total recomputed from all their ratings |
| Ratings.AggregateOrderFree | routes/ratings.js:39-48 | the aggregate does not depend on the order of the ratings |
| Ratings.ScoreSumBounds | healthcare/models/Rating.js:10 | the score sum of n valid ratings lies between n and 5n |
| Ratings.AverageInRange | models/Rating.js:7 | the average of a doctor with ratings lies between 1 and 5 |
| Ratings.SubmittedAverageInRange | routes/ratings.js:50-58 | after a successful submit over valid ratings the doctor's stored average is between 1 and 5 |
| Ratings.SecondRatingAccepted | routes/ratings.js:27-33 | a second rating of the same appointment is accepted: there is no uniqueness check |
| Ratings.Fixed | server.js:94-109 | the doctor's average and total recomputed from their ratings, both zero without ratings |
| Ratings.FixedIdempotent | server.js:89-110 | repairing twice is the same as once |
| Ratings.FixedKeepsValidity | models/Doctor.js:3-14 | repair changes only the two rating fields, so a valid doctor stays valid |
| Ratings.CountRated | server.js:98-103 | the number of doctors that have at least one rating |
| Ratings.FixAll | server.js:89-116 | with every doctor valid, each is repaired in place and the answer is the number of doctors with ratings; the first invalid doctor's save fails, leaving those before it repaired and the rest as they were |
| Notifications.List | healthcare/controllers/notificationsController.js:5-9 | exactly the user's notifications, newest first |
| Notifications.MarkRead | healthcare/controllers/notificationsController.js:12-22 | the only failure is NotFound, for an id that is not one of the user's notifications; otherwise the first such notification becomes read and nothing else changes |
| Notifications.MarkReadIdempotent | routes/notifications.js:20-24 | marking the same notification read twice is the same as once |
| Notifications.MarkAllRead | healthcare/controllers/notificationsController.js:25-31 | every notification of the user is read and no one else's changes |
| Notifications.ClearRead | healthcare/controllers/notificationsController.js:34-37 | removes exactly the user's read notifications; the rest is the in-order subsequence of the others |
| Collection.RemoveIsFilter | healthcare/controllers/notificationsController.js:34-37 | `deleteMany` keeps exactly the non-matching elements in their order, i.e. the filter by the negated query |
| Notifications.MarkAllThenClear | routes/notifications.js:33-53 | marking all read and clearing leaves the user with no notifications and others untouched |
| Analytics.GetSummary | healthcare/controllers/analyticsController.js:5-15 | the number of patients and the number of those with blood pressure or glucose above 140 |
| Analytics.DetailOf | routes/analytics.js:26-34 | the patient's vitals with the high-risk flag |
| Analytics.Details | healthcare/controllers/analyticsController.js:18-30 | one detail per patient, in order |
| Analytics.SummaryMatchesDetails | routes/analytics.js:6-39 | the summary's high-risk count equals the number of flagged details |
| Accounts.Duplicate | healthcare/controllers/authController.js:12-23 | takes the first user matching email or mobile; EmailExists when that user has the email, MobileExists when it has only the mobile |
| Accounts.MobileHolderFirstWins | healthcare/controllers/doctorsController.js:43-54 | when the mobile's holder precedes the email's, the answer is MobileExists although the email is taken |
| Accounts.EmailPreferredOnOneUser | healthcare/controllers/authController.js:16-22 | when one user holds both, the answer is EmailExists |
| Accounts.RegisteredPatient | routes/auth.js:17-26 | the registered patient takes the user's name and email and keeps only truthy age, gender and vitals |
| Accounts.ZeroVitalsAreLow | healthcare/controllers/authController.js:43-44 | vitals registered as 0 are dropped, so such a patient is Low |
| Accounts.Resolve | healthcare/controllers/authController.js:99-107 | a patient user resolves a patient profile of theirs, null exactly when they have none; a doctor user likewise a doctor profile; other roles neither |
| Accounts.Authenticate | routes/auth.js:57-61 | no user or a wrong password is InvalidCredentials; otherwise the resolved session |
| HcDoctors.ProfileImage | healthcare/controllers/doctorsController.js:13 | the linked user's picture, or empty |
| HcDoctors.ListDoctors | healthcare/controllers/doctorsController.js:6-18 | every doctor in order with their picture |
| HcDoctors.GetDoctor | healthcare/controllers/doctorsController.js:21-31 | the doctor with the id and picture, or NotFound |
| HcDoctors.CreateDoctor | healthcare/controllers/doctorsController.js:34-84 | a mobile that is not ten digits is refused, then duplicates; the user is saved, then the doctor, then linked; a failed doctor save keeps the user |
| HcDoctors.OrphanOnlyOnGender | healthcare/controllers/doctorsController.js:64-77 | after a valid user save the doctor save fails only for a gender outside the enum |
| HcDoctors.Patch | healthcare/controllers/doctorsController.js:129-130 | the doctor takes exactly the body fields that are present, without validation, the user link and rating aggregate included; the id never changes |
| HcDoctors.MobileCheck | healthcare/controllers/doctorsController.js:103-119 | an absent mobile passes; a malformed one is InvalidMobile; the user's own mobile passes; a mobile another user holds is MobileInUse |
| HcDoctors.UserPatch | healthcare/controllers/doctorsController.js:122-126 | the user's name and mobile change only when given; nothing else of the user changes |
| HcDoctors.UpdateDoctor | healthcare/controllers/doctorsController.js:87-133 | NotFound for an unknown doctor or user; a failing mobile check writes nothing; otherwise user then doctor are patched |
| HcDoctors.UpdateKeepsMobilesUnique | healthcare/controllers/doctorsController.js:108-118 | when users' mobiles are unique before the update they are unique after |
| HcDoctors.UpdateLeavesUserEmail | healthcare/controllers/doctorsController.js:121-126 | a changed doctor email is not copied to the user, so login keeps the old email |
| HcAuth.Register | healthcare/controllers/authController.js:8-71 | a duplicate email or mobile writes nothing; an invalid user writes nothing; an invalid patient keeps the saved user; otherwise a linked user and patient are appended and the session answered |
| HcAuth.RegisterOrphanOnlyOnGender | healthcare/controllers/authController.js:26-47 | after a valid user save the patient save fails only for a gender outside the enum |
| HcAuth.Lookup | healthcare/controllers/authController.js:78-88 | a truthy email selects by email, else a truthy mobile by mobile, else CredentialsRequired |
| HcAuth.Login | healthcare/controllers/authController.js:74-128 | CredentialsRequired exactly when neither email nor mobile is given; a success is a stored user with the looked-up email or mobile whose password matches |
| HcAuth.EmailOverridesMobile | healthcare/controllers/authController.js:79-82 | with an email given, the mobile number is ignored |
| HcAuth.UnknownAndWrongPasswordAlike | healthcare/controllers/authController.js:88-97 | an unknown account and a wrong password give the same answer |
| HcAuth.RegisterThenLogin | healthcare/controllers/authController.js:26-51 | after a successful registration, logging in with that email and password finds the new user |
| LegacyAuth.Register | routes/auth.js:8-51 | only an existing email is a duplicate; the user has no mobile; an invalid patient keeps the saved user |
| LegacyAuth.Login | routes/auth.js:54-93 | by email only: InvalidCredentials for no match or a wrong password, otherwise the resolved session |
| LegacyAuth.LoginResolvesOwnRole | routes/auth.js:64-71 | a session resolves only the profile of the user's own role |
| Admin.StaffUser | healthcare/controllers/adminController.js:24-29 | the admin-created user has the given name, email, password and role, and no mobile number |
| Admin.CreateDoctor | routes/admin.js:27-64 | an existing email writes nothing; failing the user schema writes nothing; failing the doctor schema or the unique doctor email keeps the user; otherwise linked user and doctor |
| Admin.FormPatient | routes/admin.js:117-125 | the patient takes the form's age, gender and vitals as given, 0 included |
| Admin.CreatePatientWith | healthcare/controllers/adminController.js:80-104 | an existing email writes nothing; an invalid patient keeps the saved user; otherwise linked user and patient |
| Admin.CreatePatient | routes/admin.js:107-135 | as written, every admin patient create fails |
| Admin.CreatePatientIntended | routes/admin.js:117-126 | with the email passed on, the create succeeds exactly for a new email, a valid user and a patient with name, email and a valid gender |
| Admin.LegacyPatientOrphaned | routes/admin.js:114-126 | in the legacy tree a new email leaves a user with no patient |
| Admin.LegacyPatientIntendedSucceeds | models/Patient.js:5-6 | with the email passed on, a legacy create of a well-formed patient succeeds |
| Admin.HealthcareCreatesRefused | healthcare/models/User.js:10 | in the healthcare tree both admin creates fail on the missing mobile and write nothing |
| Admin.LegacyDoctorOrphan | routes/admin.js:42-54 | a legacy doctor create failing the doctor schema leaves an unlinked user |
| Profile.EditUser | healthcare/controllers/profileController.js:23-35 | a truthy name and a given bio are written; a username taken by another user is UsernameTaken |
| Profile.EditVitals | healthcare/controllers/profileController.js:46-49 | each vital given, 0 included, overwrites the patient's; the others are kept |
| Profile.UpdateProfile | healthcare/controllers/profileController.js:18-57 | a taken username writes nothing; otherwise the user is edited, and a patient user's vitals too |
| Profile.ZeroVitalIsWritten | routes/profile.js:94 | a vital sent as 0 is written, unlike at registration |
| Profile.OwnUsernameAccepted | routes/profile.js:73-77 | a user may keep the username they already hold |
| Profile.ChangePassword | healthcare/controllers/profileController.js:107-132 | missing fields, a new password shorter than six UTF-16 code units, an unknown user or a wrong current password are refused with nothing written; otherwise only the password changes |
| Profile.ShortPasswordBeforeCurrent | routes/profile.js:196-208 | a new password shorter than six is refused before the current one is checked |
| Profile.AstralPasswordLongEnough | healthcare/controllers/profileController.js:114 | the length rule counts UTF-16 code units, so three characters beyond the Basic Multilingual Plane pass it |
| Profile.PasswordChangesOnlyOnSuccess | routes/profile.js:188-217 | the store changes exactly when the answer is a success |
| Profile.Extname | routes/profile.js:36 | the extension from the last dot of the base name, empty when the base name starts with its only dot or has none |
| Profile.ExtnameOfFileName | routes/profile.js:36 | a name ending in a dot and an extension without dots has that extension |
| Profile.UnanchoredExtensionAccepted | routes/profile.js:35-39 | an extension only containing an image type, such as `.jpgx`, passes the filter |
| Profile.UpperCaseExtensionAccepted | routes/profile.js:36 | the extension is lower-cased first, so `.PNG` passes |
| Profile.UpperCaseMimeRejected | routes/profile.js:37 | the mime type is not lower-cased, so `IMAGE/PNG` is refused |
| Profile.DotFileRejected | routes/profile.js:36 | a file named `.png` has no extension and is refused |
| Trees.KnownMobileRegistration | routes/auth.js:11-12 | with a new email and a known mobile, the healthcare tree refuses with nothing written and the legacy tree registers |
| Trees.LegacyAcceptAddsPairChat | routes/appointments.js:193-219 | accepting an appointment without its own chat adds a chat for the pair even when the pair has one |

## Left out

- HTTP wiring, the `auth` middleware and JWT issue and check: the role and ids a handler reads
  from the token are parameters.
- Password hashing and `comparePassword`: the stored secret is the password as given, and
  matching is an uninterpreted `Matcher` parameter.
- Sending email: whether it succeeds is a boolean parameter, and the `EmailIrrelevant` lemmas
  show the outcome does not matter.
- File storage for uploads and the 5 MB limit: only the file filter is modelled.
- JavaScript `undefined`, `null` and `""` are not told apart. An absent string is `""` and an
  absent number is `None`. So a legacy login with no email, which Mongoose answers with the
  first user, is modelled as a lookup of the empty email.
- An id a chat request leaves out is `None`. The healthcare `findOne` on the pair then drops
  that key from its filter, as the legacy login does with a missing email, so it matches any value.
- LegacyChats.CreateChat: `lastUpdated`, `lastReadByDoctor` or `lastReadByPatient` values sent in the
  request body are not modelled; the new chat takes the current time for all three.
- HcDoctors.Patch: an `_id` in the update body is not modelled; the doctor's id never changes.
- ObjectId cast errors: an id is a natural number, and a malformed id is just an unknown one.
- Time zones: times are UTC milliseconds, and the day and hour arithmetic is UTC.
- Concurrency: the `Promise.all` fan-outs run in sequence, and requests do not interleave.
- Floating point: scores, averages and vitals are `real`.
- UpcomingList: the function's own contract does not say the list is a sub-multiset of the
  candidates, so that the dashboard proofs that use it stay small. The lemma
  Dashboard.UpcomingDrawnOnce proves it for every input.
- HighRiskTop: likewise, the sub-multiset property is proved by Dashboard.HighRiskDrawnOnce
  for every input rather than stated in the function's contract.
- TopFive: likewise, the sub-multiset property and the distinct ids are proved by
  Dashboard.TopFiveDistinct for every input rather than stated in the function's contract.
- Dashboard.TopFive: groups with equal counts are ordered by first appearance. MongoDB leaves
  that order unspecified.
- Text.Lower: lower-cases ASCII letters only, where JavaScript's `toLowerCase` covers Unicode.
- The legacy user schema, `models/User.js`, is not part of this model, so legacy users are
  saved without validation.
- The plain CRUD handlers whose only logic is a query pass-through: listing appointments and
  fetching one by id, getting a chat by id, the admin list, update and delete handlers, and the
  ratings of one doctor. Also `getProfile`, the picture upload handler, account deletion and the
  default-admin bootstrap at server start.
- The healthcare admin creates save a user without a mobile
  number, which `healthcare/models/User.js` requires, so both are always refused. The intended
  source of the mobile number is not evident, so no corrected handler is modelled.
- The default notification kind and the notification message texts: a notice keeps the values
  it interpolates, not the rendered text.

## Findings

| source | as written | input that shows it | evidently intended | confidence | as-written member | corrected member |
|---|---|---|---|---|---|---|
| healthcare/controllers/appointmentsController.js:183 | `acceptAppointment` builds a `Message`, but the file's imports (lines 1-7) do not bring in `Message`, so the handler throws after the status, notification and chat writes | accepting any existing appointment, e.g. a Scheduled one | the acceptance note is saved to the chat and the accepted appointment is answered | not executed | HcAppointments.AcceptFromAnyStatus | HcAppointments.AcceptIntended |
| routes/admin.js:117-126 | the admin patient create builds the `Patient` without `email`, which `models/Patient.js` requires, so the save fails after the user was saved | a create with a new email, name and gender `Male` | the profile takes the form's email, as registration does | not executed | Admin.LegacyPatientOrphaned | Admin.LegacyPatientIntendedSucceeds |

=== FILE: accounts.dfy ===
/** What registration and login share across both trees: the duplicate check, the patient built
    from a registration body, password checking, and resolving the role's linked profile. */
module Accounts {
  import opened Wrappers
  import opened Time
  import opened Records
  import opened Collection
  import Risk

  /** Password comparison (`bcrypt.compare(candidate, stored)`), left uninterpreted: every
      operation that checks a password takes it as a parameter. */
  type Matcher = (string, string) -> bool

  /** `User.findOne({ $or: [{ email }, { mobileNumber }] })`. */
  function EmailOrMobile(email: string, mobile: string): User -> bool {
    (u: User) => u.email == email || u.mobileNumber == mobile
  }

  /** The duplicate check of the healthcare tree: the first user holding the email or the mobile
      decides, and on that user the email is preferred. */
  function Duplicate(users: seq<User>, email: string, mobile: string): (r: Option<Failure>)
    ensures r.None? <==> forall k :: 0 <= k < |users| ==> users[k].email != email && users[k].mobileNumber != mobile
    ensures r == Some(EmailExists) <==> (var f := Find(users, EmailOrMobile(email, mobile));
                                         f.Some? && f.value.email == email)
    ensures r.Some? ==> r == Some(EmailExists) || r == Some(MobileExists)
  {
    match Find(users, EmailOrMobile(email, mobile))
    case None => None
    case Some(u) => if u.email == email then Some(EmailExists) else Some(MobileExists)
  }

  /** The email preference is per matched user: when one user holds the mobile number and a
      later one holds the email, the duplicate is reported as the mobile number. */
  lemma MobileHolderFirstWins(a: User, b: User, email: string, mobile: string)
    requires a.email != email && a.mobileNumber == mobile
    requires b.email == email
    ensures Duplicate([a, b], email, mobile) == Some(MobileExists)
  {
    assert Find([a, b], EmailOrMobile(email, mobile)) == Some(a);
  }

  /** A user that holds the email is always reported as an email duplicate when it is the only
      match, whatever its mobile number. */
  lemma EmailPreferredOnOneUser(users: seq<User>, k: nat, email: string, mobile: string)
    requires k < |users| && users[k].email == email
    requires forall j :: 0 <= j < |users| && j != k ==> users[j].email != email && users[j].mobileNumber != mobile
    ensures Duplicate(users, email, mobile) == Some(EmailExists)
  {
    assert FindIndex(users, EmailOrMobile(email, mobile)) == Some(k);
  }

  /** The fields a registration body carries; an omitted string is "". */
  datatype Registration = Registration(
    name: string, email: string, mobileNumber: string, password: string, age: Option<real>,
    gender: string, bloodPressure: Option<real>, glucoseLevel: Option<real>, heartRate: Option<real>)

  /** The patient profile of a registration: `x || undefined` on the age, gender and vitals. */
  function RegisteredPatient(id: Id, u: User, q: Registration, now: Time): (p: Patient)
    ensures p.id == id && p.userId == u.id && p.name == u.name && p.email == u.email
    ensures p.age == OrAbsent(q.age) && p.gender == q.gender
    ensures p.bloodPressure == OrAbsent(q.bloodPressure) && p.glucoseLevel == OrAbsent(q.glucoseLevel)
    ensures p.heartRate == OrAbsent(q.heartRate)
    ensures p.createdAt == now
    ensures p.bloodPressure.Some? ==> p.bloodPressure.value != 0.0
  {
    Patient(id, u.id, u.name, u.email, OrAbsent(q.age), q.gender, OrAbsent(q.bloodPressure),
            OrAbsent(q.glucoseLevel), OrAbsent(q.heartRate), now)
  }

  /** A vital of 0 at registration is stored as absent, so it never pushes the tier up. */
  lemma ZeroVitalsAreLow(id: Id, u: User, q: Registration, now: Time)
    requires q.bloodPressure == Some(0.0) && q.glucoseLevel == Some(0.0)
    ensures RegisteredPatient(id, u, q, now).Tier() == Risk.Low
  {
  }

  /** A linked profile id in a login answer: not looked up (`undefined`), looked up but missing
      (`null`), or found. */
  datatype Link = Unset | NullLink | Linked(id: Id)

  datatype Session = Session(user: User, patientId: Link, doctorId: Link)

  function PatientOfUser(id: Id): Patient -> bool {
    (p: Patient) => p.userId == id
  }

  function DoctorOfUser(id: Id): Doctor -> bool {
    (d: Doctor) => d.userId == id
  }

  /** `Patient.findOne({ userId })` for a patient, `Doctor.findOne({ userId })` for a doctor,
      nothing for any other role. */
  function Resolve(db: Db, u: User): (s: Session)
    ensures s.user == u
    ensures u.role != RolePatient ==> s.patientId == Unset
    ensures u.role != RoleDoctor ==> s.doctorId == Unset
    ensures u.role == RolePatient ==>
      (s.patientId == NullLink <==> forall k :: 0 <= k < |db.patients| ==> db.patients[k].userId != u.id)
    ensures u.role == RoleDoctor ==>
      (s.doctorId == NullLink <==> forall k :: 0 <= k < |db.doctors| ==> db.doctors[k].userId != u.id)
    ensures s.patientId.Linked? ==> exists k :: 0 <= k < |db.patients| && db.patients[k].id == s.patientId.id
                                                && db.patients[k].userId == u.id
    ensures s.doctorId.Linked? ==> exists k :: 0 <= k < |db.doctors| && db.doctors[k].id == s.doctorId.id
                                               && db.doctors[k].userId == u.id
  {
    if u.role == RolePatient then
      match FindIndex(db.patients, PatientOfUser(u.id))
      case None => Session(u, NullLink, Unset)
      case Some(k) => Session(u, Linked(db.patients[k].id), Unset)
    else if u.role == RoleDoctor then
      match FindIndex(db.doctors, DoctorOfUser(u.id))
      case None => Session(u, Unset, NullLink)
      case Some(k) => Session(u, Unset, Linked(db.doctors[k].id))
    else Session(u, Unset, Unset)
  }

  /** The password check and role resolution after the user lookup of either tree. Answers the
      same error for an unknown user and a wrong password. */
  function Authenticate(db: Db, found: Option<User>, password: string, matches: Matcher): (r: Result<Session, Failure>)
    ensures r.Err? <==> found.None? || !matches(password, found.value.password)
    ensures r.Err? ==> r.error == InvalidCredentials
    ensures r.Ok? ==> r.value.user == found.value && r.value == Resolve(db, found.value)
  {
    match found
    case None => Err(InvalidCredentials)
    case Some(u) => if !matches(password, u.password) then Err(InvalidCredentials) else Ok(Resolve(db, u))
  }
}

=== FILE: admin.dfy ===
/** The admin create handlers for doctors and patients. Both trees run the same steps: refuse an
    existing email, save a user, save the profile, link the user to it. They differ only in the
    schemas the saves apply, which are a parameter here. The handlers pass no mobile number to
    the user. */
module Admin {
  import opened Wrappers
  import opened Time
  import opened Records
  import opened Collection

  /** What a tree's schemas demand: of a user, of a doctor, and whether doctor emails carry a
      unique index. */
  datatype Schema = Schema(userValid: User -> bool, doctorValid: Doctor -> bool, uniqueDoctorEmail: bool)

  predicate Unchecked(u: User) {
    true
  }

  /** The healthcare schemas: a user needs a mobile number. */
  function Healthcare(): Schema {
    Schema(HcUserValid, HcDoctorValid, false)
  }

  /** The legacy schemas. The legacy user schema is not part of this model, so a user is saved
      as given; a doctor needs a gender and contact number, and its email is unique. */
  function Legacy(): Schema {
    Schema(Unchecked, LegacyDoctorValid, true)
  }

  /** `new User({ name, email, password, role })`: no mobile number. */
  function StaffUser(db: Db, name: string, email: string, password: string, role: string): (u: User)
    ensures u.id == db.nextId && u.mobileNumber == "" && u.role == role
    ensures u.name == name && u.email == email && u.password == password
    ensures u.doctorId.None? && u.patientId.None?
  {
    NewUser(db.nextId, name, email, "", password, role)
  }

  datatype DoctorForm = DoctorForm(
    fullName: string, email: string, password: string, gender: string, contactNumber: string,
    specialist: Option<seq<string>>, designation: string)

  function FormDoctor(db: Db, q: DoctorForm): Doctor {
    Doctor(db.nextId + 1, db.nextId, q.fullName, q.email, "", q.gender, q.contactNumber,
           q.specialist.GetOr([]), q.designation, 0.0, 0)
  }

  function DoctorWithEmail(email: string): Doctor -> bool {
    (d: Doctor) => d.email == email
  }

  /** `POST /admin/doctors`. */
  function CreateDoctor(db: Db, q: DoctorForm, s: Schema): (r: Reply<Db, Doctor>)
    ensures Find(db.users, UserWithEmail(q.email)).Some? <==> r.result == Err(UserExists)
    ensures r.result == Err(UserExists) ==> r.store == db
    ensures r.result.Ok? <==>
      && Find(db.users, UserWithEmail(q.email)).None?
      && s.userValid(StaffUser(db, q.fullName, q.email, q.password, RoleDoctor))
      && s.doctorValid(FormDoctor(db, q))
      && !(s.uniqueDoctorEmail && Find(db.doctors, DoctorWithEmail(q.email)).Some?)
    ensures r.result.Err? ==>
      || r.store == db
      || r.store == db.(users := db.users + [StaffUser(db, q.fullName, q.email, q.password, RoleDoctor)],
                        nextId := db.nextId + 1)
    ensures r.result.Err? && r.result != Err(UserExists) ==>
      r.result == Err(ValidationFailed) || r.result == Err(DuplicateKey)
    ensures r.result.Ok? ==> |r.store.users| == |db.users| + 1 && r.store.users[..|db.users|] == db.users
    ensures r.result.Ok? ==>
      var u := r.store.users[|db.users|];
      var d := r.result.value;
      && r.store.doctors == db.doctors + [d]
      && u == StaffUser(db, q.fullName, q.email, q.password, RoleDoctor).(doctorId := Some(d.id))
      && d.userId == u.id && d.email == q.email && d.fullName == q.fullName
      && d.specialist == (if q.specialist.Some? then q.specialist.value else [])
      && r.store.patients == db.patients && r.store.appointments == db.appointments
  {
    if Find(db.users, UserWithEmail(q.email)).Some? then Reply(db, Err(UserExists))
    else
      var u := StaffUser(db, q.fullName, q.email, q.password, RoleDoctor);
      if !s.userValid(u) then Reply(db, Err(ValidationFailed))
      else
        var db1 := db.(users := db.users + [u], nextId := db.nextId + 1);
        var d := FormDoctor(db, q);
        if !s.doctorValid(d) then Reply(db1, Err(ValidationFailed))
        else if s.uniqueDoctorEmail && Find(db.doctors, DoctorWithEmail(q.email)).Some? then
          Reply(db1, Err(DuplicateKey))
        else
          var u' := u.(doctorId := Some(d.id));
          assert (db.users + [u'])[..|db.users|] == db.users;
          Reply(db.(users := db.users + [u'], doctors := db.doctors + [d], nextId := db.nextId + 2), Ok(d))
  }

  datatype PatientForm = PatientForm(
    name: string, email: string, password: string, age: Option<real>, gender: string,
    bloodPressure: Option<real>, glucoseLevel: Option<real>, heartRate: Option<real>)

  /** The patient built from the form, with the given profile email. The age, gender and vitals
      are taken as given: a 0 is stored, unlike registration. */
  function FormPatient(db: Db, q: PatientForm, email: string, now: Time): (p: Patient)
    ensures p.id == db.nextId + 1 && p.userId == db.nextId && p.name == q.name && p.email == email
    ensures p.age == q.age && p.gender == q.gender && p.bloodPressure == q.bloodPressure
    ensures p.glucoseLevel == q.glucoseLevel && p.heartRate == q.heartRate
  {
    Patient(db.nextId + 1, db.nextId, q.name, email, q.age, q.gender, q.bloodPressure,
            q.glucoseLevel, q.heartRate, now)
  }

  /** The create-patient steps with the email the patient profile receives. */
  function CreatePatientWith(db: Db, q: PatientForm, s: Schema, profileEmail: string, now: Time): (r: Reply<Db, Patient>)
    ensures Find(db.users, UserWithEmail(q.email)).Some? <==> r.result == Err(UserExists)
    ensures r.result == Err(UserExists) ==> r.store == db
    ensures r.result.Ok? <==>
      && Find(db.users, UserWithEmail(q.email)).None?
      && s.userValid(StaffUser(db, q.name, q.email, q.password, RolePatient))
      && PatientValid(FormPatient(db, q, profileEmail, now))
    ensures r.result.Err? && r.result != Err(UserExists) ==> r.result == Err(ValidationFailed)
    ensures r.result.Err? && r.store != db ==>
      && !PatientValid(FormPatient(db, q, profileEmail, now))
      && r.store == db.(users := db.users + [StaffUser(db, q.name, q.email, q.password, RolePatient)],
                        nextId := db.nextId + 1)
    ensures r.result.Ok? ==> |r.store.users| == |db.users| + 1 && r.store.users[..|db.users|] == db.users
    ensures r.result.Ok? ==>
      var u := r.store.users[|db.users|];
      var p := r.result.value;
      && r.store.patients == db.patients + [p]
      && p == FormPatient(db, q, profileEmail, now)
      && u == StaffUser(db, q.name, q.email, q.password, RolePatient).(patientId := Some(p.id))
      && p.userId == u.id
      && r.store.doctors == db.doctors && r.store.appointments == db.appointments
  {
    if Find(db.users, UserWithEmail(q.email)).Some? then Reply(db, Err(UserExists))
    else
      var u := StaffUser(db, q.name, q.email, q.password, RolePatient);
      if !s.userValid(u) then Reply(db, Err(ValidationFailed))
      else
        var p := FormPatient(db, q, profileEmail, now);
        if !PatientValid(p) then Reply(db.(users := db.users + [u], nextId := db.nextId + 1), Err(ValidationFailed))
        else
          var u' := u.(patientId := Some(p.id));
          assert (db.users + [u'])[..|db.users|] == db.users;
          Reply(db.(users := db.users + [u'], patients := db.patients + [p], nextId := db.nextId + 2), Ok(p))
  }

  /** `POST /admin/patients` as written: the patient profile is built without the email. */
  function CreatePatient(db: Db, q: PatientForm, s: Schema, now: Time): (r: Reply<Db, Patient>)
    ensures r.result.Err?
    ensures Find(db.users, UserWithEmail(q.email)).Some? <==> r.result == Err(UserExists)
    ensures r.result.Err? && r.result != Err(UserExists) ==> r.result == Err(ValidationFailed)
  {
    CreatePatientWith(db, q, s, "", now)
  }

  /** `POST /admin/patients` with the email passed on to the profile, as registration does. */
  function CreatePatientIntended(db: Db, q: PatientForm, s: Schema, now: Time): (r: Reply<Db, Patient>)
    ensures r.result.Ok? <==>
      && Find(db.users, UserWithEmail(q.email)).None?
      && s.userValid(StaffUser(db, q.name, q.email, q.password, RolePatient))
      && q.name != "" && q.email != "" && (q.gender == "" || IsPersonGender(q.gender))
    ensures r.result.Ok? ==> |r.store.users| == |db.users| + 1
    ensures r.result.Ok? ==>
      var u := r.store.users[|db.users|];
      var p := r.result.value;
      && p.email == q.email && p.userId == u.id && u.patientId == Some(p.id) && u.role == RolePatient
      && r.store.patients == db.patients + [p]
  {
    CreatePatientWith(db, q, s, q.email, now)
  }

  /** In the legacy tree every admin-created patient with a new email leaves a user account
      behind and no patient profile. */
  lemma LegacyPatientOrphaned(db: Db, q: PatientForm, now: Time)
    requires Find(db.users, UserWithEmail(q.email)).None?
    ensures var r := CreatePatient(db, q, Legacy(), now);
            && r.result == Err(ValidationFailed)
            && r.store.users == db.users + [StaffUser(db, q.name, q.email, q.password, RolePatient)]
            && r.store.patients == db.patients
  {
  }

  /** With the email passed on, a legacy admin create of a well-formed patient succeeds. */
  lemma LegacyPatientIntendedSucceeds(db: Db, q: PatientForm, now: Time)
    requires Find(db.users, UserWithEmail(q.email)).None?
    requires q.name != "" && q.email != "" && IsPersonGender(q.gender)
    ensures CreatePatientIntended(db, q, Legacy(), now).result.Ok?
  {
  }

  /** In the healthcare tree the user's own save fails for want of a mobile number, so both admin
      creates are refused and write nothing. */
  lemma HealthcareCreatesRefused(db: Db, d: DoctorForm, p: PatientForm, now: Time)
    ensures var r := CreateDoctor(db, d, Healthcare());
            r.result.Err? && r.store == db
    ensures var r := CreatePatient(db, p, Healthcare(), now);
            r.result.Err? && r.store == db
    ensures var r := CreatePatientIntended(db, p, Healthcare(), now);
            r.result.Err? && r.store == db
  {
  }

  /** A legacy doctor create that passes the email check but fails the doctor schema leaves an
      unlinked user behind. */
  lemma LegacyDoctorOrphan(db: Db, q: DoctorForm)
    requires Find(db.users, UserWithEmail(q.email)).None?
    requires !IsPersonGender(q.gender)
    ensures var r := CreateDoctor(db, q, Legacy());
            && r.result == Err(ValidationFailed)
            && |r.store.users| == |db.users| + 1 && r.store.users[|db.users|].doctorId.None?
            && r.store.doctors == db.doctors
  {
  }
}

=== FILE: analytics.dfy ===
/** The analytics endpoints (both trees): a summary count of high-risk patients and a per-patient
    risk listing. Each re-inlines the blood-pressure / glucose threshold instead of reading the
    patient's `priority` tier; the lemmas show the two agree. */
module Analytics {
  import opened Wrappers
  import opened Records
  import opened Collection
  import Risk

  /** The inline filter `p.bloodPressure > 140 || p.glucoseLevel > 140`. */
  function HighRisk(): Patient -> bool {
    (p: Patient) => Risk.Above(p.bloodPressure, 140.0) || Risk.Above(p.glucoseLevel, 140.0)
  }

  datatype Summary = Summary(totalPatients: nat, highRiskCount: nat)

  /** `GET /analytics`. */
  function GetSummary(ps: seq<Patient>): (r: Summary)
    ensures r.totalPatients == |ps|
    ensures r.highRiskCount == Count(ps, HighRisk())
    ensures r.highRiskCount <= r.totalPatients
    ensures r.highRiskCount == 0 <==> forall i :: 0 <= i < |ps| ==> ps[i].Tier() != Risk.High
  {
    Summary(|ps|, |Filter(ps, HighRisk())|)
  }

  datatype Detail = Detail(
    id: Id, name: string, age: Option<real>, bloodPressure: Option<real>,
    glucoseLevel: Option<real>, heartRate: Option<real>, highRisk: bool)

  function DetailOf(p: Patient): (d: Detail)
    ensures d.id == p.id && d.name == p.name && d.age == p.age
    ensures d.bloodPressure == p.bloodPressure && d.glucoseLevel == p.glucoseLevel
    ensures d.heartRate == p.heartRate
    ensures d.highRisk <==> p.Tier() == Risk.High
  {
    Detail(p.id, p.name, p.age, p.bloodPressure, p.glucoseLevel, p.heartRate,
           HighRisk()(p))
  }

  /** `GET /analytics/details`: one entry per patient, in store order. */
  function Details(ps: seq<Patient>): (r: seq<Detail>)
    ensures |r| == |ps|
    ensures forall i :: 0 <= i < |ps| ==> r[i] == DetailOf(ps[i])
  {
    seq(|ps|, i requires 0 <= i < |ps| => DetailOf(ps[i]))
  }

  function Flagged(): Detail -> bool {
    (d: Detail) => d.highRisk
  }

  /** The summary counts exactly the entries the details listing flags, and those are exactly
      the patients of tier High. */
  lemma SummaryMatchesDetails(ps: seq<Patient>)
    ensures GetSummary(ps).highRiskCount == Count(Details(ps), Flagged())
    ensures GetSummary(ps).highRiskCount == Count(ps, (p: Patient) => p.Tier() == Risk.High)
  {
    FlaggedCount(ps);
    CountCongruent(ps, HighRisk(), (p: Patient) => p.Tier() == Risk.High);
  }

  lemma {:induction false} FlaggedCount(ps: seq<Patient>)
    ensures Count(Details(ps), Flagged()) == Count(ps, HighRisk())
    decreases |ps|
  {
    if |ps| > 0 {
      var init := ps[..|ps| - 1];
      assert Details(ps)[..|ps| - 1] == Details(init);
      FlaggedCount(init);
    }
  }
}

=== FILE: collection.dfy ===
/** Queries over a collection held as a sequence in the store's natural order:
    counting, filtering, first-match lookup, sorting and limiting. */
module Collection {
  import opened Wrappers

  /** Number of elements satisfying `p` (`countDocuments`, `filter(...).length`). */
  function Count<T>(xs: seq<T>, p: T -> bool): (n: nat)
    ensures n <= |xs|
    ensures n == 0 <==> forall i :: 0 <= i < |xs| ==> !p(xs[i])
  {
    if |xs| == 0 then 0
    else Count(xs[..|xs| - 1], p) + (if p(xs[|xs| - 1]) then 1 else 0)
  }

  lemma {:induction false} CountAppend<T>(xs: seq<T>, ys: seq<T>, p: T -> bool)
    ensures Count(xs + ys, p) == Count(xs, p) + Count(ys, p)
    decreases |ys|
  {
    if |ys| == 0 {
      assert xs + ys == xs;
    } else {
      var ys' := ys[..|ys| - 1];
      assert (xs + ys)[..|xs + ys| - 1] == xs + ys';
      CountAppend(xs, ys', p);
    }
  }

  /** Counting with a weaker predicate never gives less. */
  lemma {:induction false} CountMonotone<T>(xs: seq<T>, p: T -> bool, q: T -> bool)
    requires forall i :: 0 <= i < |xs| && p(xs[i]) ==> q(xs[i])
    ensures Count(xs, p) <= Count(xs, q)
    decreases |xs|
  {
    if |xs| > 0 {
      CountMonotone(xs[..|xs| - 1], p, q);
    }
  }

  /** Predicates that agree on every element count the same. */
  lemma {:induction false} CountCongruent<T>(xs: seq<T>, p: T -> bool, q: T -> bool)
    requires forall i :: 0 <= i < |xs| ==> (p(xs[i]) <==> q(xs[i]))
    ensures Count(xs, p) == Count(xs, q)
    decreases |xs|
  {
    if |xs| > 0 {
      CountCongruent(xs[..|xs| - 1], p, q);
    }
  }

  /** Extending a prefix by one element adds that element's count. */
  lemma CountPrefixStep<T>(xs: seq<T>, k: nat, p: T -> bool)
    requires k < |xs|
    ensures Count(xs[..k + 1], p) == Count(xs[..k], p) + (if p(xs[k]) then 1 else 0)
  {
    assert xs[..k + 1][..k] == xs[..k];
  }

  /** Every element satisfies `p`: all of them count. */
  lemma {:induction false} CountAll<T>(xs: seq<T>, p: T -> bool)
    requires forall i :: 0 <= i < |xs| ==> p(xs[i])
    ensures Count(xs, p) == |xs|
    decreases |xs|
  {
    if |xs| > 0 {
      CountAll(xs[..|xs| - 1], p);
    }
  }

  /** The last element of `xs` sits at some index `j` of its permutation `ys`, and what is left
      of each is again a permutation of the other. */
  lemma PermutationStep<T>(xs: seq<T>, ys: seq<T>) returns (j: nat)
    requires multiset(xs) == multiset(ys) && |xs| > 0
    ensures j < |ys| && ys[j] == xs[|xs| - 1]
    ensures ys == ys[..j] + [ys[j]] + ys[j + 1..]
    ensures multiset(xs[..|xs| - 1]) == multiset(ys[..j] + ys[j + 1..])
  {
    var x := xs[|xs| - 1];
    assert x in multiset(ys);
    j :| 0 <= j < |ys| && ys[j] == x;
    var rest := ys[..j] + ys[j + 1..];
    assert ys == ys[..j] + [x] + ys[j + 1..];
    assert xs == xs[..|xs| - 1] + [x];
    assert multiset(ys) == multiset(ys[..j]) + multiset([x]) + multiset(ys[j + 1..]);
    assert multiset(rest) == multiset(ys[..j]) + multiset(ys[j + 1..]);
    assert multiset(xs) == multiset(xs[..|xs| - 1]) + multiset([x]);
    assert multiset(xs[..|xs| - 1]) == multiset(xs) - multiset([x]);
    assert multiset(rest) == multiset(ys) - multiset([x]);
  }

  /** Reordering a collection never changes a count. */
  lemma {:induction false} CountPermutation<T>(xs: seq<T>, ys: seq<T>, p: T -> bool)
    requires multiset(xs) == multiset(ys)
    ensures Count(xs, p) == Count(ys, p)
    decreases |xs|
  {
    if |xs| == 0 {
      assert |multiset(ys)| == 0;
    } else {
      var x := xs[|xs| - 1];
      var j := PermutationStep(xs, ys);
      var rest := ys[..j] + ys[j + 1..];
      CountPermutation(xs[..|xs| - 1], rest, p);
      CountAppend(ys[..j] + [x], ys[j + 1..], p);
      CountAppend(ys[..j], [x], p);
      CountAppend(ys[..j], ys[j + 1..], p);
      assert Count([x], p) == Count(xs, p) - Count(xs[..|xs| - 1], p) by {
        assert [x][..0] == [];
      }
    }
  }

  /** The elements satisfying `p`, in order (`find(query)`, `Array.filter`). */
  function Filter<T>(xs: seq<T>, p: T -> bool): (r: seq<T>)
    ensures |r| == Count(xs, p)
    ensures forall i :: 0 <= i < |r| ==> p(r[i]) && r[i] in xs
    ensures forall i :: 0 <= i < |xs| && p(xs[i]) ==> xs[i] in r
  {
    if |xs| == 0 then []
    else
      var init := xs[..|xs| - 1];
      var r0 := Filter(init, p);
      assert forall x :: x in init ==> x in xs;
      assert xs == init + [xs[|xs| - 1]];
      if p(xs[|xs| - 1]) then r0 + [xs[|xs| - 1]] else r0
  }

  /** Filtering by a predicate every element satisfies keeps everything. */
  lemma {:induction false} FilterAll<T>(xs: seq<T>, p: T -> bool)
    requires forall i :: 0 <= i < |xs| ==> p(xs[i])
    ensures Filter(xs, p) == xs
    decreases |xs|
  {
    if |xs| > 0 {
      FilterAll(xs[..|xs| - 1], p);
      assert xs == xs[..|xs| - 1] + [xs[|xs| - 1]];
    }
  }

  /** The elements NOT satisfying `p`, in order (`deleteMany(query)` keeps these). */
  function Remove<T>(xs: seq<T>, p: T -> bool): (r: seq<T>)
    ensures |r| == |xs| - Count(xs, p)
    ensures forall i :: 0 <= i < |r| ==> !p(r[i]) && r[i] in xs
    ensures forall i :: 0 <= i < |xs| && !p(xs[i]) ==> xs[i] in r
  {
    if |xs| == 0 then []
    else
      var init := xs[..|xs| - 1];
      var r0 := Remove(init, p);
      assert forall x :: x in init ==> x in xs;
      assert xs == init + [xs[|xs| - 1]];
      if p(xs[|xs| - 1]) then r0 else r0 + [xs[|xs| - 1]]
  }

  function Not<T>(p: T -> bool): T -> bool {
    x => !p(x)
  }

  /** Removing the elements satisfying `p` keeps exactly the others, in their order. */
  lemma {:induction false} RemoveIsFilter<T>(xs: seq<T>, p: T -> bool)
    ensures Remove(xs, p) == Filter(xs, Not(p))
    decreases |xs|
  {
    if |xs| > 0 {
      RemoveIsFilter(xs[..|xs| - 1], p);
    }
  }

  /** Index of the first element satisfying `p` (`findOne`, `findById`). */
  function FindIndex<T>(xs: seq<T>, p: T -> bool): (r: Option<nat>)
    ensures r.Some? ==> r.value < |xs| && p(xs[r.value])
    ensures r.Some? ==> forall j :: 0 <= j < r.value ==> !p(xs[j])
    ensures r.None? <==> forall j :: 0 <= j < |xs| ==> !p(xs[j])
  {
    FindFrom(xs, p, 0)
  }

  function FindFrom<T>(xs: seq<T>, p: T -> bool, k: nat): (r: Option<nat>)
    requires k <= |xs|
    requires forall j :: 0 <= j < k ==> !p(xs[j])
    ensures r.Some? ==> k <= r.value < |xs| && p(xs[r.value])
    ensures r.Some? ==> forall j :: 0 <= j < r.value ==> !p(xs[j])
    ensures r.None? <==> forall j :: 0 <= j < |xs| ==> !p(xs[j])
    decreases |xs| - k
  {
    if k == |xs| then None
    else if p(xs[k]) then Some(k)
    else FindFrom(xs, p, k + 1)
  }

  /** The first element satisfying `p`, if any. */
  function Find<T>(xs: seq<T>, p: T -> bool): (r: Option<T>)
    ensures r.Some? ==> r.value in xs && p(r.value)
    ensures r.None? <==> forall j :: 0 <= j < |xs| ==> !p(xs[j])
  {
    match FindIndex(xs, p)
    case Some(i) => Some(xs[i])
    case None => None
  }

  /** The first `k` elements (`limit(k)`). */
  function Take<T>(xs: seq<T>, k: nat): (r: seq<T>)
    ensures |r| == if |xs| < k then |xs| else k
    ensures r == xs[..|r|]
  {
    if |xs| <= k then xs else xs[..k]
  }

  /** Ascending order by an integer key; equal keys may come in any order. */
  ghost predicate SortedBy<T>(xs: seq<T>, key: T -> int) {
    forall i, j :: 0 <= i < j < |xs| ==> key(xs[i]) <= key(xs[j])
  }

  function Insert<T>(x: T, xs: seq<T>, key: T -> int): (r: seq<T>)
    requires SortedBy(xs, key)
    ensures SortedBy(r, key)
    ensures multiset(r) == multiset(xs) + multiset{x}
    ensures forall y :: y in r ==> y == x || y in xs
    decreases |xs|
  {
    if |xs| == 0 then [x]
    else if key(x) <= key(xs[0]) then [x] + xs
    else
      var rest := Insert(x, xs[1..], key);
      assert xs == [xs[0]] + xs[1..];
      assert forall y :: y in xs[1..] ==> key(xs[0]) <= key(y);
      assert forall y :: y in rest ==> key(xs[0]) <= key(y);
      SortedCons(xs[0], rest, key);
      assert multiset(xs) == multiset{xs[0]} + multiset(xs[1..]);
      [xs[0]] + rest
  }

  /** A sorted sequence stays sorted under a head no greater than any of its elements. */
  lemma SortedCons<T>(h: T, rest: seq<T>, key: T -> int)
    requires SortedBy(rest, key) && forall y :: y in rest ==> key(h) <= key(y)
    ensures SortedBy([h] + rest, key)
  {
    var r := [h] + rest;
    assert forall j :: 1 <= j < |r| ==> r[j] == rest[j - 1] && r[j] in rest;
  }

  /** Insertion sort, ascending by `key` (Mongo `sort(field)`). */
  function Sort<T>(xs: seq<T>, key: T -> int): (r: seq<T>)
    ensures SortedBy(r, key)
    ensures multiset(r) == multiset(xs)
    decreases |xs|
  {
    if |xs| == 0 then []
    else
      assert xs == [xs[0]] + xs[1..];
      Insert(xs[0], Sort(xs[1..], key), key)
  }

  function Negate<T>(key: T -> int): T -> int {
    t => -key(t)
  }

  /** Descending order by `key` (Mongo `sort('-field')`, `{ field: -1 }`). */
  function SortDesc<T>(xs: seq<T>, key: T -> int): (r: seq<T>)
    ensures forall i, j :: 0 <= i < j < |r| ==> key(r[i]) >= key(r[j])
    ensures multiset(r) == multiset(xs)
    ensures |r| == |xs|
    ensures forall i :: 0 <= i < |r| ==> r[i] in xs
    ensures forall i :: 0 <= i < |xs| ==> xs[i] in r
  {
    var r := Sort(xs, Negate(key));
    assert forall i, j :: 0 <= i < j < |r| ==> Negate(key)(r[i]) <= Negate(key)(r[j]);
    SameElements(r, xs);
    r
  }

  /** The `m` elements with the smallest keys, ascending (`sort(key).limit(m)`); equal keys
      come in an unspecified order. */
  function Least<T>(xs: seq<T>, key: T -> int, m: nat): (r: seq<T>)
    ensures |r| == if |xs| < m then |xs| else m
    ensures forall i :: 0 <= i < |r| ==> r[i] in xs
    ensures forall i, j :: 0 <= i < j < |r| ==> key(r[i]) <= key(r[j])
    ensures forall k :: 0 <= k < |xs| && xs[k] !in r ==> |r| == m && forall i :: 0 <= i < |r| ==> key(r[i]) <= key(xs[k])
  {
    var sorted := Sort(xs, key);
    SameElements(sorted, xs);
    var r := Take(sorted, m);
    PrefixBound(sorted, Negate(key), |r|);
    r
  }

  /** The `m` elements with the largest keys, descending (`sort('-key').limit(m)`). */
  function Greatest<T>(xs: seq<T>, key: T -> int, m: nat): (r: seq<T>)
    ensures |r| == if |xs| < m then |xs| else m
    ensures forall i :: 0 <= i < |r| ==> r[i] in xs
    ensures forall i, j :: 0 <= i < j < |r| ==> key(r[i]) >= key(r[j])
    ensures forall k :: 0 <= k < |xs| && xs[k] !in r ==> |r| == m && forall i :: 0 <= i < |r| ==> key(r[i]) >= key(xs[k])
  {
    var sorted := SortDesc(xs, key);
    var r := Take(sorted, m);
    PrefixBound(sorted, key, |r|);
    r
  }

  /** `sort(key).limit(m)` answers each element at most as often as `xs` holds it. */
  lemma LeastWithin<T>(xs: seq<T>, key: T -> int, m: nat)
    ensures Within(Least(xs, key, m), xs)
  {
    TakeSubMultiset(Sort(xs, key), m);
  }

  /** `sort('-key').limit(m)` answers each element at most as often as `xs` holds it. */
  lemma GreatestWithin<T>(xs: seq<T>, key: T -> int, m: nat)
    ensures Within(Greatest(xs, key, m), xs)
  {
    TakeSubMultiset(SortDesc(xs, key), m);
  }

  /** The first `m` elements hold each element at most as often as the whole sequence. */
  lemma TakeSubMultiset<T>(xs: seq<T>, m: nat)
    ensures multiset(Take(xs, m)) <= multiset(xs)
  {
    if m < |xs| {
      PrefixSubMultiset(xs, m);
    }
  }

  /** A prefix holds each element at most as often as the whole sequence. */
  lemma PrefixSubMultiset<T>(xs: seq<T>, m: nat)
    requires m <= |xs|
    ensures multiset(xs[..m]) <= multiset(xs)
  {
    assert xs == xs[..m] + xs[m..];
  }

  /** `r` is drawn from `xs`: it holds each element at most as often as `xs` does, so it
      never repeats an entry of `xs` more often than `xs` has it. */
  ghost predicate Within<T>(r: seq<T>, xs: seq<T>) {
    multiset(r) <= multiset(xs)
  }

  /** No two elements of `xs` share a value of `f`. */
  ghost predicate DistinctBy<T, K>(xs: seq<T>, f: T -> K) {
    forall i, j :: 0 <= i < j < |xs| ==> f(xs[i]) != f(xs[j])
  }

  /** In a sequence whose elements have distinct `f` values, each element occurs at most once. */
  lemma {:induction false} DistinctOnce<T, K>(xs: seq<T>, f: T -> K)
    requires DistinctBy(xs, f)
    ensures forall x :: multiset(xs)[x] <= 1
    decreases |xs|
  {
    if |xs| > 0 {
      var init := xs[..|xs| - 1];
      var last := xs[|xs| - 1];
      assert forall i :: 0 <= i < |init| ==> init[i] == xs[i];
      DistinctOnce(init, f);
      assert xs == init + [last];
      assert forall i :: 0 <= i < |init| ==> f(init[i]) != f(last);
      assert last !in init;
      assert multiset(xs) == multiset(init) + multiset{last};
    }
  }

  /** Taking part of a sequence with distinct `f` values keeps them distinct: what a sort and a
      limit select can never list an element twice. */
  lemma SubMultisetDistinct<T, K>(r: seq<T>, xs: seq<T>, f: T -> K)
    requires Within(r, xs) && DistinctBy(xs, f)
    ensures DistinctBy(r, f)
  {
    DistinctOnce(xs, f);
    forall i, j | 0 <= i < j < |r|
      ensures f(r[i]) != f(r[j])
    {
      var front := r[..j];
      assert r[..j + 1] == front + [r[j]];
      assert multiset(r[..j + 1]) == multiset(front) + multiset{r[j]};
      PrefixSubMultiset(r, j + 1);
      assert multiset(r[..j + 1])[r[j]] <= multiset(r)[r[j]] <= multiset(xs)[r[j]] <= 1;
      assert multiset(front)[r[j]] == 0;
      assert front[i] == r[i];
      assert r[i] != r[j];
      assert r[i] in multiset(xs) && r[j] in multiset(xs);
      var a :| 0 <= a < |xs| && xs[a] == r[i];
      var b :| 0 <= b < |xs| && xs[b] == r[j];
    }
  }

  /** In a sequence ordered by descending `key`, whatever lies past the first `m` elements has
      a key no larger than theirs. */
  lemma PrefixBound<T>(xs: seq<T>, key: T -> int, m: nat)
    requires m <= |xs|
    requires forall i, j :: 0 <= i < j < |xs| ==> key(xs[i]) >= key(xs[j])
    ensures forall j :: 0 <= j < |xs| && xs[j] !in xs[..m] ==> forall i :: 0 <= i < m ==> key(xs[i]) >= key(xs[j])
  {
    forall j | 0 <= j < m
      ensures xs[j] in xs[..m]
    {
      assert xs[..m][j] == xs[j];
    }
  }

  /** Sequences with the same multiset have the same length and the same members. */
  lemma SameElements<T>(a: seq<T>, b: seq<T>)
    requires multiset(a) == multiset(b)
    ensures |a| == |b|
    ensures forall i :: 0 <= i < |a| ==> a[i] in b
    ensures forall i :: 0 <= i < |b| ==> b[i] in a
  {
    assert |multiset(a)| == |a| && |multiset(b)| == |b|;
    assert forall i :: 0 <= i < |a| ==> a[i] in multiset(a);
    assert forall i :: 0 <= i < |b| ==> b[i] in multiset(b);
  }

  /** The distinct elements, in order of first appearance. */
  function Distinct<T(==)>(xs: seq<T>): (r: seq<T>)
    ensures forall i :: 0 <= i < |r| ==> r[i] in xs
    ensures forall i :: 0 <= i < |xs| ==> xs[i] in r
    ensures forall i, j :: 0 <= i < j < |r| ==> r[i] != r[j]
  {
    if |xs| == 0 then []
    else
      var init := xs[..|xs| - 1];
      var r0 := Distinct(init);
      assert forall x :: x in init ==> x in xs;
      assert xs == init + [xs[|xs| - 1]];
      if xs[|xs| - 1] in r0 then r0 else r0 + [xs[|xs| - 1]]
  }

  /** The sequence of keys (`map`). */
  function Keys<T, K>(xs: seq<T>, key: T -> K): (r: seq<K>)
    ensures |r| == |xs| && forall i :: 0 <= i < |xs| ==> r[i] == key(xs[i])
  {
    seq(|xs|, i requires 0 <= i < |xs| => key(xs[i]))
  }

  function Sum(xs: seq<nat>): nat {
    if |xs| == 0 then 0 else Sum(xs[..|xs| - 1]) + xs[|xs| - 1]
  }

  lemma SumOfFour(a: nat, b: nat, c: nat, d: nat)
    ensures Sum([a, b, c, d]) == a + b + c + d
  {
    assert [a][..0] == [];
    assert Sum([a]) == a;
    assert [a, b][..1] == [a];
    assert Sum([a, b]) == a + b;
    assert [a, b, c][..2] == [a, b];
    assert Sum([a, b, c]) == a + b + c;
    assert [a, b, c, d][..3] == [a, b, c];
  }

  /** The total of `f` over a collection (`$sum`). */
  function SumOf<T>(xs: seq<T>, f: T -> real): real {
    if |xs| == 0 then 0.0 else SumOf(xs[..|xs| - 1], f) + f(xs[|xs| - 1])
  }

  lemma {:induction false} SumOfAppend<T>(xs: seq<T>, ys: seq<T>, f: T -> real)
    ensures SumOf(xs + ys, f) == SumOf(xs, f) + SumOf(ys, f)
    decreases |ys|
  {
    if |ys| == 0 {
      assert xs + ys == xs;
    } else {
      assert (xs + ys)[..|xs + ys| - 1] == xs + ys[..|ys| - 1];
      SumOfAppend(xs, ys[..|ys| - 1], f);
    }
  }

  /** Reordering a collection never changes a total. */
  lemma {:induction false} SumOfPermutation<T>(xs: seq<T>, ys: seq<T>, f: T -> real)
    requires multiset(xs) == multiset(ys)
    ensures SumOf(xs, f) == SumOf(ys, f)
    decreases |xs|
  {
    if |xs| == 0 {
      assert |multiset(ys)| == 0;
    } else {
      var x := xs[|xs| - 1];
      var j := PermutationStep(xs, ys);
      var rest := ys[..j] + ys[j + 1..];
      SumOfPermutation(xs[..|xs| - 1], rest, f);
      SumOfAppend(ys[..j] + [x], ys[j + 1..], f);
      SumOfAppend(ys[..j], [x], f);
      SumOfAppend(ys[..j], ys[j + 1..], f);
      assert SumOf([x], f) == f(x) by {
        assert [x][..0] == [];
      }
      assert SumOf(ys, f) == SumOf(ys[..j], f) + f(x) + SumOf(ys[j + 1..], f);
      assert SumOf(rest, f) == SumOf(ys[..j], f) + SumOf(ys[j + 1..], f);
    }
  }

  /** Incrementing one bucket adds one to the total. */
  lemma {:induction false} SumIncrement(xs: seq<nat>, i: nat)
    requires i < |xs|
    ensures Sum(xs[i := xs[i] + 1]) == Sum(xs) + 1
    decreases |xs|
  {
    var ys := xs[i := xs[i] + 1];
    assert ys[..|ys| - 1] == if i < |xs| - 1 then xs[..|xs| - 1][i := xs[i] + 1] else xs[..|xs| - 1];
    if i < |xs| - 1 {
      SumIncrement(xs[..|xs| - 1], i);
    }
  }

  /** A run of zeros sums to zero. */
  lemma {:induction false} SumZeros(xs: seq<nat>)
    requires forall i :: 0 <= i < |xs| ==> xs[i] == 0
    ensures Sum(xs) == 0
    decreases |xs|
  {
    if |xs| > 0 {
      SumZeros(xs[..|xs| - 1]);
    }
  }

  /** Overwriting the first match with another match keeps it the first match. */
  lemma FindAfterSet<T>(xs: seq<T>, p: T -> bool, i: nat, v: T)
    requires FindIndex(xs, p) == Some(i) && p(v)
    ensures FindIndex(xs[i := v], p) == Some(i)
    ensures Find(xs[i := v], p) == Some(v)
  {
    var ys := xs[i := v];
    assert forall j :: 0 <= j < i ==> ys[j] == xs[j];
    assert p(ys[i]);
  }

  /** Deleting one matching element lowers the count of matches by exactly one. */
  lemma CountRemoveAt<T>(xs: seq<T>, i: nat, p: T -> bool)
    requires i < |xs| && p(xs[i])
    ensures Count(xs[..i] + xs[i + 1..], p) == Count(xs, p) - 1
  {
    var front, back := xs[..i], xs[i + 1..];
    var mid := [xs[i]] + back;
    assert xs == front + mid;
    CountAppend(front, mid, p);
    CountAppend([xs[i]], back, p);
    assert [xs[i]][..0] == [];
    assert Count([xs[i]], p) == 1;
    CountAppend(front, back, p);
  }

  /** Deleting the only match leaves nothing for a later lookup to find. */
  lemma RemoveOnlyMatch<T>(xs: seq<T>, i: nat, p: T -> bool)
    requires i < |xs| && p(xs[i]) && Count(xs, p) <= 1
    ensures FindIndex(xs[..i] + xs[i + 1..], p).None?
  {
    CountRemoveAt(xs, i, p);
  }

  /** Apply `f` to the first element satisfying `p`, if any (`findOneAndUpdate`). */
  function UpdateFirst<T>(xs: seq<T>, p: T -> bool, f: T -> T): (r: seq<T>)
    ensures |r| == |xs|
    ensures FindIndex(xs, p).None? ==> r == xs
    ensures FindIndex(xs, p).Some? ==> r == xs[FindIndex(xs, p).value := f(xs[FindIndex(xs, p).value])]
  {
    match FindIndex(xs, p)
    case None => xs
    case Some(i) => xs[i := f(xs[i])]
  }

  /** Apply `f` to every element satisfying `p` (`updateMany`). */
  function UpdateAll<T>(xs: seq<T>, p: T -> bool, f: T -> T): (r: seq<T>)
    ensures |r| == |xs|
    ensures forall i :: 0 <= i < |xs| ==> r[i] == if p(xs[i]) then f(xs[i]) else xs[i]
  {
    seq(|xs|, i requires 0 <= i < |xs| => if p(xs[i]) then f(xs[i]) else xs[i])
  }
}

=== FILE: dashboard.dfy ===
/** The admin dashboard, identical in both trees: a read-only fold over the appointments and
    patients of the store. Only the appointment count, the hourly flow, the status breakdown
    and the top-5 lists honour the requested date range; the risk categories, the upcoming
    list and the trend do not. */
module Dashboard {
  import opened Wrappers
  import opened Time
  import opened Records
  import opened Collection
  import Risk

  /** The `startDate` / `endDate` query; an absent or empty parameter is `None`. */
  datatype Range = Range(start: Option<Time>, end: Option<Time>)

  /** The date filter: `$gte` the start, `$lte` the end's day at 23:59:59.999. */
  predicate InRange(r: Range, t: Time) {
    (r.start.None? || t >= r.start.value) && (r.end.None? || t <= EndOfDay(r.end.value))
  }

  function Dated(r: Range): Appointment -> bool {
    (a: Appointment) => InRange(r, a.date)
  }

  /** The appointments the date filter selects, in store order. */
  function Filtered(db: Db, r: Range): (f: seq<Appointment>)
    ensures |f| == Count(db.appointments, Dated(r))
    ensures forall i :: 0 <= i < |f| ==> f[i] in db.appointments && InRange(r, f[i].date)
  {
    Filter(db.appointments, Dated(r))
  }

  /** With neither bound there is no filter: every appointment passes. */
  lemma UnboundedRangeKeepsAll(db: Db)
    ensures Filtered(db, Range(None, None)) == db.appointments
  {
    FilterAll(db.appointments, Dated(Range(None, None)));
  }

  /** The end bound is inclusive of the whole end day and exclusive of the next. */
  lemma EndOfDayInclusive(end: Time, t: Time)
    requires DayStart(t) == DayStart(end)
    ensures InRange(Range(None, Some(end)), t)
  {
  }

  // ---------------------------------------------------------------- hourly flow

  function AtHour(h: nat): Appointment -> bool {
    (a: Appointment) => HourOf(a.date) == h
  }

  /** `patientFlow`: 24 buckets, bucket `h` counting the appointments of hour `h`. */
  method HourlyFlow(appts: seq<Appointment>) returns (flow: seq<nat>)
    ensures |flow| == 24
    ensures forall h :: 0 <= h < 24 ==> flow[h] == Count(appts, AtHour(h))
    ensures Sum(flow) == |appts|
  {
    flow := seq(24, _ => 0);
    SumZeros(flow);
    var k := 0;
    while k < |appts|
      invariant 0 <= k <= |appts|
      invariant |flow| == 24
      invariant forall h :: 0 <= h < 24 ==> flow[h] == Count(appts[..k], AtHour(h))
      invariant Sum(flow) == k
    {
      var h := HourOf(appts[k].date);
      SumIncrement(flow, h);
      forall g | 0 <= g < 24
        ensures Count(appts[..k + 1], AtHour(g)) == Count(appts[..k], AtHour(g)) + (if g == h then 1 else 0)
      {
        CountPrefixStep(appts, k, AtHour(g));
      }
      flow := flow[h := flow[h] + 1];
      k := k + 1;
    }
    assert appts[..k] == appts;
  }

  // ---------------------------------------------------------------- risk categories

  datatype Tiers = Tiers(high: nat, moderate: nat, low: nat)

  function CriticalPatient(): Patient -> bool {
    (p: Patient) => p.Critical()
  }

  function HasTier(t: Risk.Tier): Patient -> bool {
    (p: Patient) => p.Tier() == t
  }

  /** The `high` / `moderate` / `low` fold, comparing the vitals inline as the handler does. */
  function RiskTally(ps: seq<Patient>): (t: Tiers)
    ensures t.high + t.moderate + t.low == |ps|
    ensures t.high == Count(ps, CriticalPatient())
    ensures t.high == Count(ps, HasTier(Risk.High))
    ensures t.moderate == Count(ps, HasTier(Risk.Moderate))
    ensures t.low == Count(ps, HasTier(Risk.Low))
  {
    if |ps| == 0 then Tiers(0, 0, 0)
    else
      var t := RiskTally(ps[..|ps| - 1]);
      var p := ps[|ps| - 1];
      Risk.CriticalIffHigh(p.bloodPressure, p.glucoseLevel);
      if Risk.Above(p.bloodPressure, 140.0) || Risk.Above(p.glucoseLevel, 140.0) then t.(high := t.high + 1)
      else if Risk.Above(p.bloodPressure, 120.0) || Risk.Above(p.glucoseLevel, 100.0) then t.(moderate := t.moderate + 1)
      else t.(low := t.low + 1)
  }

  /** `getCriticalPatientCount`: the `$gt` query on patients; it ignores any date range. */
  function CriticalCount(db: Db): (n: nat)
    ensures n <= |db.patients|
    ensures n == Count(db.patients, HasTier(Risk.High))
  {
    var t := RiskTally(db.patients);
    Count(db.patients, CriticalPatient())
  }

  // ---------------------------------------------------------------- status breakdown

  function HasStatus(s: string): Appointment -> bool {
    (a: Appointment) => a.status == s
  }

  function ValidStatus(): Appointment -> bool {
    (a: Appointment) => IsStatus(a.status)
  }

  /** `appointmentsByStatus`: Scheduled, Accepted, Completed, Cancelled. */
  function StatusBreakdown(appts: seq<Appointment>): (r: seq<nat>)
    ensures |r| == 4
    ensures r[0] == Count(appts, HasStatus(Scheduled)) && r[1] == Count(appts, HasStatus(Accepted))
    ensures r[2] == Count(appts, HasStatus(Completed)) && r[3] == Count(appts, HasStatus(Cancelled))
    ensures Sum(r) == Count(appts, ValidStatus()) && Sum(r) <= |appts|
    ensures (forall k :: 0 <= k < |appts| ==> IsStatus(appts[k].status)) ==> Sum(r) == |appts|
  {
    StatusPartition(appts);
    AllStatusesValid(appts);
    SumOfFour(Count(appts, HasStatus(Scheduled)), Count(appts, HasStatus(Accepted)),
              Count(appts, HasStatus(Completed)), Count(appts, HasStatus(Cancelled)));
    [Count(appts, HasStatus(Scheduled)), Count(appts, HasStatus(Accepted)),
     Count(appts, HasStatus(Completed)), Count(appts, HasStatus(Cancelled))]
  }

  lemma AllStatusesValid(appts: seq<Appointment>)
    ensures (forall k :: 0 <= k < |appts| ==> IsStatus(appts[k].status)) ==> Count(appts, ValidStatus()) == |appts|
  {
    if forall k :: 0 <= k < |appts| ==> IsStatus(appts[k].status) {
      CountAll(appts, ValidStatus());
    }
  }

  /** The four status counts partition the appointments whose status is one of the four. */
  lemma {:induction false} StatusPartition(appts: seq<Appointment>)
    ensures Count(appts, HasStatus(Scheduled)) + Count(appts, HasStatus(Accepted))
          + Count(appts, HasStatus(Completed)) + Count(appts, HasStatus(Cancelled))
         == Count(appts, ValidStatus())
    decreases |appts|
  {
    if |appts| > 0 {
      StatusPartition(appts[..|appts| - 1]);
    }
  }

  /** The breakdown is order-free: any permutation of the appointments gives the same counts. */
  lemma StatusBreakdownPermutation(xs: seq<Appointment>, ys: seq<Appointment>)
    requires multiset(xs) == multiset(ys)
    ensures StatusBreakdown(xs) == StatusBreakdown(ys)
  {
    CountPermutation(xs, ys, HasStatus(Scheduled));
    CountPermutation(xs, ys, HasStatus(Accepted));
    CountPermutation(xs, ys, HasStatus(Completed));
    CountPermutation(xs, ys, HasStatus(Cancelled));
  }

  // ---------------------------------------------------------------- upcoming

  function DateKey(a: Appointment): int {
    a.date
  }

  /** Today at midnight through the same time 30 days on, and not Completed. */
  function Upcoming(now: Time): Appointment -> bool {
    (a: Appointment) => DayStart(now) <= a.date <= AddDays(DayStart(now), 30) && a.status != Completed
  }

  /** `upcomingAppointments`: the earliest ten matches, in date order (Mongo sorts before
      it limits, whatever the call order). Equal dates come in an unspecified order. */
  function UpcomingList(appts: seq<Appointment>, now: Time): (r: seq<Appointment>)
    ensures |r| == if Count(appts, Upcoming(now)) < 10 then Count(appts, Upcoming(now)) else 10
    ensures forall i :: 0 <= i < |r| ==> r[i] in appts && Upcoming(now)(r[i])
    ensures forall i, j :: 0 <= i < j < |r| ==> r[i].date <= r[j].date
    ensures forall k :: 0 <= k < |Filter(appts, Upcoming(now))| && Filter(appts, Upcoming(now))[k] !in r ==>
      |r| == 10 && forall i :: 0 <= i < |r| ==> r[i].date <= Filter(appts, Upcoming(now))[k].date
  {
    Least(Filter(appts, Upcoming(now)), DateKey, 10)
  }

  /** The list holds each candidate at most as often as the store does: ten copies of the
      earliest appointment are not an answer. */
  lemma UpcomingDrawnOnce(appts: seq<Appointment>, now: Time)
    ensures Within(UpcomingList(appts, now), Filter(appts, Upcoming(now)))
  {
    LeastWithin(Filter(appts, Upcoming(now)), DateKey, 10);
  }

  /** An upcoming appointment left off the list is no earlier than any listed one, and the
      list is full. */
  lemma UpcomingAreEarliest(appts: seq<Appointment>, now: Time, k: nat)
    requires k < |appts| && Upcoming(now)(appts[k])
    requires appts[k] !in UpcomingList(appts, now)
    ensures var r := UpcomingList(appts, now);
            |r| == 10 && forall i :: 0 <= i < |r| ==> r[i].date <= appts[k].date
  {
    var cands := Filter(appts, Upcoming(now));
    assert appts[k] in cands;
    var j :| 0 <= j < |cands| && cands[j] == appts[k];
  }

  // ---------------------------------------------------------------- top five

  /** One `$group` bucket: an id and the number of appointments carrying it. */
  datatype Group = Group(id: Id, count: nat)

  function CountKey(g: Group): int {
    g.count
  }

  function GroupId(g: Group): Id {
    g.id
  }

  function Carries(key: Appointment -> Id, id: Id): Appointment -> bool {
    (a: Appointment) => key(a) == id
  }

  /** The `$group` stage: one bucket per distinct id, in order of first appearance. */
  function Groups(appts: seq<Appointment>, key: Appointment -> Id): (gs: seq<Group>)
    ensures forall i :: 0 <= i < |gs| ==> gs[i].count == Count(appts, Carries(key, gs[i].id)) && gs[i].count >= 1
    ensures forall i, j :: 0 <= i < j < |gs| ==> gs[i].id != gs[j].id
    ensures forall k :: 0 <= k < |appts| ==> Group(key(appts[k]), Count(appts, Carries(key, key(appts[k])))) in gs
  {
    var ids := Distinct(Keys(appts, key));
    var gs := seq(|ids|, i requires 0 <= i < |ids| => Group(ids[i], Count(appts, Carries(key, ids[i]))));
    forall i | 0 <= i < |gs| ensures gs[i].count >= 1 {
      var k :| 0 <= k < |appts| && Keys(appts, key)[k] == ids[i];
      assert Carries(key, ids[i])(appts[k]);
    }
    forall k | 0 <= k < |appts|
      ensures Group(key(appts[k]), Count(appts, Carries(key, key(appts[k])))) in gs
    {
      assert Keys(appts, key)[k] == key(appts[k]);
      var i :| 0 <= i < |ids| && ids[i] == key(appts[k]);
      assert gs[i] == Group(key(appts[k]), Count(appts, Carries(key, key(appts[k]))));
    }
    gs
  }

  /** `$sort: { count: -1 }, $limit: 5`: the five largest buckets, largest first. Equal counts
      come in an unspecified order. */
  function TopFive(appts: seq<Appointment>, key: Appointment -> Id): (r: seq<Group>)
    ensures |r| == if |Groups(appts, key)| < 5 then |Groups(appts, key)| else 5
    ensures forall i :: 0 <= i < |r| ==> r[i] in Groups(appts, key)
    ensures forall i, j :: 0 <= i < j < |r| ==> r[i].count >= r[j].count
    ensures forall k :: 0 <= k < |Groups(appts, key)| && Groups(appts, key)[k] !in r ==>
      |r| == 5 && forall i :: 0 <= i < |r| ==> r[i].count >= Groups(appts, key)[k].count
  {
    Largest(Groups(appts, key))
  }

  /** The five largest of any list of buckets, largest first. */
  function Largest(gs: seq<Group>): (r: seq<Group>)
    ensures |r| == if |gs| < 5 then |gs| else 5
    ensures forall i :: 0 <= i < |r| ==> r[i] in gs
    ensures forall i, j :: 0 <= i < j < |r| ==> r[i].count >= r[j].count
    ensures forall k :: 0 <= k < |gs| && gs[k] !in r ==>
      |r| == 5 && forall i :: 0 <= i < |r| ==> r[i].count >= gs[k].count
  {
    Greatest(gs, CountKey, 5)
  }

  /** The five buckets are distinct buckets of the grouping, so no id is listed twice. */
  lemma TopFiveDistinct(appts: seq<Appointment>, key: Appointment -> Id)
    ensures Within(TopFive(appts, key), Groups(appts, key))
    ensures forall i, j :: 0 <= i < j < |TopFive(appts, key)| ==> TopFive(appts, key)[i].id != TopFive(appts, key)[j].id
  {
    var gs := Groups(appts, key);
    var r := TopFive(appts, key);
    GreatestWithin(gs, CountKey, 5);
    assert DistinctBy(gs, GroupId);
    SubMultisetDistinct(r, gs, GroupId);
    assert forall i, j :: 0 <= i < j < |r| ==> GroupId(r[i]) != GroupId(r[j]);
  }

  /** Each listed bucket holds exactly the appointments carrying its id, at least one. */
  lemma TopFiveCounts(appts: seq<Appointment>, key: Appointment -> Id, i: nat)
    requires i < |TopFive(appts, key)|
    ensures var g := TopFive(appts, key)[i];
            g.count == Count(appts, Carries(key, g.id)) && g.count >= 1
  {
    var gs := Groups(appts, key);
    var r := TopFive(appts, key);
    assert r[i] in gs;
    var j :| 0 <= j < |gs| && gs[j] == r[i];
  }

  /** An id that is not listed carries no more appointments than any listed one, and the list
      is full. */
  lemma TopFiveIsTop(appts: seq<Appointment>, key: Appointment -> Id, k: nat)
    requires k < |appts|
    requires forall i :: 0 <= i < |TopFive(appts, key)| ==> TopFive(appts, key)[i].id != key(appts[k])
    ensures var r := TopFive(appts, key);
            |r| == 5 && forall i :: 0 <= i < |r| ==> r[i].count >= Count(appts, Carries(key, key(appts[k])))
  {
    var gs := Groups(appts, key);
    var r := TopFive(appts, key);
    var g := Group(key(appts[k]), Count(appts, Carries(key, key(appts[k]))));
    var j :| 0 <= j < |gs| && gs[j] == g;
    assert g !in r;
  }

  /** A ranked entry as the dashboard shows it. */
  datatype Ranked = Ranked(name: string, count: nat)

  /** `p.patient[0]?.name || 'Unknown'`. */
  function PatientName(db: Db, id: Id): (name: string)
    ensures name == "Unknown" <==> Find(db.patients, PatientById(id)).None?
                                   || Find(db.patients, PatientById(id)).value.name in {"", "Unknown"}
    ensures name != "Unknown" ==> name == Find(db.patients, PatientById(id)).value.name
  {
    match Find(db.patients, PatientById(id))
    case Some(p) => if p.name != "" then p.name else "Unknown"
    case None => "Unknown"
  }

  /** `d.doctor[0]?.fullName || 'Unknown'`. */
  function DoctorName(db: Db, id: Id): (name: string)
    ensures name == "Unknown" <==> Find(db.doctors, DoctorById(id)).None?
                                   || Find(db.doctors, DoctorById(id)).value.fullName in {"", "Unknown"}
    ensures name != "Unknown" ==> name == Find(db.doctors, DoctorById(id)).value.fullName
  {
    match Find(db.doctors, DoctorById(id))
    case Some(d) => if d.fullName != "" then d.fullName else "Unknown"
    case None => "Unknown"
  }

  function PatientKey(a: Appointment): Id {
    a.patientId
  }

  function DoctorKey(a: Appointment): Id {
    a.doctorId
  }

  /** `topPatients`. */
  function TopPatients(db: Db, appts: seq<Appointment>): (r: seq<Ranked>)
    ensures |r| == |TopFive(appts, PatientKey)|
    ensures forall i :: 0 <= i < |r| ==>
      r[i] == Ranked(PatientName(db, TopFive(appts, PatientKey)[i].id), TopFive(appts, PatientKey)[i].count)
  {
    var top := TopFive(appts, PatientKey);
    seq(|top|, i requires 0 <= i < |top| => Ranked(PatientName(db, top[i].id), top[i].count))
  }

  /** `topDoctors`. */
  function TopDoctors(db: Db, appts: seq<Appointment>): (r: seq<Ranked>)
    ensures |r| == |TopFive(appts, DoctorKey)|
    ensures forall i :: 0 <= i < |r| ==>
      r[i] == Ranked(DoctorName(db, TopFive(appts, DoctorKey)[i].id), TopFive(appts, DoctorKey)[i].count)
  {
    var top := TopFive(appts, DoctorKey);
    seq(|top|, i requires 0 <= i < |top| => Ranked(DoctorName(db, top[i].id), top[i].count))
  }

  // ---------------------------------------------------------------- seven-day trend

  function OnDay(day: Time): Appointment -> bool {
    (a: Appointment) => day <= a.date < day + MsPerDay
  }

  function Linked(patients: seq<Patient>): Appointment -> bool {
    (a: Appointment) => Find(patients, PatientById(a.patientId)).Some?
  }

  /** The populated patients of `appts`; appointments whose patient is missing are skipped. */
  function LinkedPatients(appts: seq<Appointment>, patients: seq<Patient>): (ps: seq<Patient>)
    ensures |ps| == Count(appts, Linked(patients))
    ensures forall i :: 0 <= i < |ps| ==> ps[i] in patients
  {
    if |appts| == 0 then []
    else
      var init := LinkedPatients(appts[..|appts| - 1], patients);
      match Find(patients, PatientById(appts[|appts| - 1].patientId))
      case Some(p) => init + [p]
      case None => init
  }

  datatype DayRisk = DayRisk(date: Time, high: nat, moderate: nat, low: nat)

  /** The tiers of one day's appointments (`[day, day + 1 day)`). */
  function DayTally(db: Db, day: Time): (d: DayRisk)
    ensures d.date == day
    ensures d.high + d.moderate + d.low == Count(Filter(db.appointments, OnDay(day)), Linked(db.patients))
    ensures d.high + d.moderate + d.low <= Count(db.appointments, OnDay(day))
    ensures var ps := LinkedPatients(Filter(db.appointments, OnDay(day)), db.patients);
            && d.high == Count(ps, HasTier(Risk.High))
            && d.moderate == Count(ps, HasTier(Risk.Moderate))
            && d.low == Count(ps, HasTier(Risk.Low))
  {
    var t := RiskTally(LinkedPatients(Filter(db.appointments, OnDay(day)), db.patients));
    DayRisk(day, t.high, t.moderate, t.low)
  }

  /** Midnight `6 - k` days before today: day `k` of the trend. */
  function TrendDay(now: Time, k: int): (t: Time)
    ensures t % MsPerDay == 0
    ensures t + (6 - k) * MsPerDay == DayStart(now)
  {
    AddDays(DayStart(now), k - 6)
  }

  /** `riskTrend`: the seven days ending today, oldest first, each with the tiers of its
      appointments' patients. */
  function RiskTrend(db: Db, now: Time): (r: seq<DayRisk>)
    ensures |r| == 7
    ensures forall k :: 0 <= k < 7 ==> r[k] == DayTally(db, TrendDay(now, k))
    ensures forall k :: 0 <= k < 7 ==> r[k].date == TrendDay(now, k)
    ensures forall k :: 0 <= k < 7 ==> r[k].high + r[k].moderate + r[k].low <= Count(db.appointments, OnDay(r[k].date))
  {
    seq(7, k requires 0 <= k < 7 => DayTally(db, TrendDay(now, k)))
  }

  /** The trend's days are consecutive midnights ending with today's. */
  lemma TrendDaysConsecutive(db: Db, now: Time)
    ensures var r := RiskTrend(db, now);
            r[6].date == DayStart(now) && forall k :: 0 <= k < 6 ==> r[k + 1].date == r[k].date + MsPerDay
  {
  }

  /** When every appointment's patient exists, each day's tiers add up to its appointments. */
  lemma TrendCountsEveryLinkedAppointment(db: Db, now: Time, k: nat)
    requires k < 7
    requires forall j :: 0 <= j < |db.appointments| ==> Linked(db.patients)(db.appointments[j])
    ensures var d := RiskTrend(db, now)[k];
            d.high + d.moderate + d.low == Count(db.appointments, OnDay(d.date))
  {
    var f := Filter(db.appointments, OnDay(TrendDay(now, k)));
    CountAll(f, Linked(db.patients));
  }

  // ---------------------------------------------------------------- high-risk listing

  /** `$in` the ids of the critical patients. */
  function OfCriticalPatient(patients: seq<Patient>): Appointment -> bool {
    (a: Appointment) => Find(Filter(patients, CriticalPatient()), PatientById(a.patientId)).Some?
  }

  datatype HighRiskRow = HighRiskRow(appointment: Appointment, patient: Patient, doctorName: string)

  /** `apt.doctorId?.fullName || apt.consultingDoctor`. */
  function ListedDoctor(db: Db, a: Appointment): (name: string)
    ensures Find(db.doctors, DoctorById(a.doctorId)).Some? && Find(db.doctors, DoctorById(a.doctorId)).value.fullName != ""
            ==> name == Find(db.doctors, DoctorById(a.doctorId)).value.fullName
    ensures Find(db.doctors, DoctorById(a.doctorId)).None? || Find(db.doctors, DoctorById(a.doctorId)).value.fullName == ""
            ==> name == a.consultingDoctor
  {
    match Find(db.doctors, DoctorById(a.doctorId))
    case Some(d) => if d.fullName != "" then d.fullName else a.consultingDoctor
    case None => a.consultingDoctor
  }

  /** One listed appointment with its critical patient and the doctor's name. */
  function Row(db: Db, a: Appointment): (row: HighRiskRow)
    requires OfCriticalPatient(db.patients)(a)
    ensures row.appointment == a && row.doctorName == ListedDoctor(db, a)
    ensures row.patient in db.patients && row.patient.id == a.patientId && row.patient.Tier() == Risk.High
  {
    var p := Find(Filter(db.patients, CriticalPatient()), PatientById(a.patientId)).value;
    Risk.CriticalIffHigh(p.bloodPressure, p.glucoseLevel);
    HighRiskRow(a, p, ListedDoctor(db, a))
  }

  function HighRiskIn(db: Db, r: Range): Appointment -> bool {
    (a: Appointment) => OfCriticalPatient(db.patients)(a) && InRange(r, a.date)
  }

  /** The appointments `getHighRiskAppointments` lists: the latest twenty of critical
      patients inside the range, newest first. */
  function HighRiskTop(db: Db, r: Range): (top: seq<Appointment>)
    ensures |top| == if Count(db.appointments, HighRiskIn(db, r)) < 20 then Count(db.appointments, HighRiskIn(db, r)) else 20
    ensures forall i, j :: 0 <= i < j < |top| ==> top[i].date >= top[j].date
    ensures forall i :: 0 <= i < |top| ==> top[i] in db.appointments && HighRiskIn(db, r)(top[i])
    ensures forall k :: 0 <= k < |Filter(db.appointments, HighRiskIn(db, r))|
                        && Filter(db.appointments, HighRiskIn(db, r))[k] !in top ==>
      |top| == 20 && forall i :: 0 <= i < |top| ==> top[i].date >= Filter(db.appointments, HighRiskIn(db, r))[k].date
  {
    Greatest(Filter(db.appointments, HighRiskIn(db, r)), DateKey, 20)
  }

  /** The list holds each candidate at most as often as the store does: twenty copies of the
      latest high-risk appointment are not an answer. */
  lemma HighRiskDrawnOnce(db: Db, r: Range)
    ensures Within(HighRiskTop(db, r), Filter(db.appointments, HighRiskIn(db, r)))
  {
    GreatestWithin(Filter(db.appointments, HighRiskIn(db, r)), DateKey, 20);
  }

  /** `getHighRiskAppointments`: each listed appointment with its critical patient and the
      doctor's name. */
  function HighRiskAppointments(db: Db, r: Range): (rows: seq<HighRiskRow>)
    ensures |rows| == |HighRiskTop(db, r)|
    ensures forall i :: 0 <= i < |rows| ==>
      (var a := rows[i].appointment;
       && a == HighRiskTop(db, r)[i] && a in db.appointments && InRange(r, a.date)
       && rows[i].patient in db.patients && rows[i].patient.id == a.patientId
       && rows[i].patient.Tier() == Risk.High
       && rows[i].doctorName == ListedDoctor(db, a))
  {
    var top := HighRiskTop(db, r);
    seq(|top|, i requires 0 <= i < |top| => Row(db, top[i]))
  }

  /** A high-risk appointment in range that is not listed is no later than any listed one,
      and the list is full. */
  lemma HighRiskAreLatest(db: Db, r: Range, k: nat)
    requires k < |db.appointments| && HighRiskIn(db, r)(db.appointments[k])
    requires forall i :: 0 <= i < |HighRiskAppointments(db, r)| ==>
               HighRiskAppointments(db, r)[i].appointment != db.appointments[k]
    ensures var rows := HighRiskAppointments(db, r);
            |rows| == 20 && forall i :: 0 <= i < |rows| ==> rows[i].appointment.date >= db.appointments[k].date
  {
    var cands := Filter(db.appointments, HighRiskIn(db, r));
    var top := HighRiskTop(db, r);
    assert db.appointments[k] in cands;
    var rows := HighRiskAppointments(db, r);
    forall i | 0 <= i < |top| ensures top[i] != db.appointments[k] {
      assert rows[i].appointment == top[i];
    }
    var j :| 0 <= j < |cands| && cands[j] == db.appointments[k];
  }

  // ---------------------------------------------------------------- the whole response

  datatype Counts = Counts(users: nat, doctors: nat, patients: nat, appointments: nat, criticalPatients: nat)

  datatype DashboardData = DashboardData(
    counts: Counts, patientFlow: seq<nat>, riskCategories: Tiers, upcoming: seq<Appointment>,
    byStatus: seq<nat>, topPatients: seq<Ranked>, topDoctors: seq<Ranked>, riskTrend: seq<DayRisk>)

  /** `getDashboardData`. */
  method DashboardFor(db: Db, r: Range, now: Time) returns (d: DashboardData)
    ensures d.counts == Counts(|db.users|, |db.doctors|, |db.patients|, Count(db.appointments, Dated(r)),
                               CriticalCount(db))
    ensures |d.patientFlow| == 24 && Sum(d.patientFlow) == d.counts.appointments
    ensures d.riskCategories.high + d.riskCategories.moderate + d.riskCategories.low == d.counts.patients
    ensures d.riskCategories.high == d.counts.criticalPatients
    ensures |d.byStatus| == 4 && Sum(d.byStatus) <= d.counts.appointments
    ensures d.upcoming == UpcomingList(db.appointments, now) && |d.upcoming| <= 10
    ensures |d.topPatients| <= 5 && |d.topDoctors| <= 5
    ensures |d.riskTrend| == 7
    ensures forall h :: 0 <= h < 24 ==> d.patientFlow[h] == Count(Filtered(db, r), AtHour(h))
    ensures d.riskCategories == RiskTally(db.patients)
    ensures d.byStatus == StatusBreakdown(Filtered(db, r))
    ensures d.topPatients == TopPatients(db, Filtered(db, r)) && d.topDoctors == TopDoctors(db, Filtered(db, r))
    ensures d.riskTrend == RiskTrend(db, now)
  {
    var inRange := Filtered(db, r);
    var flow := HourlyFlow(inRange);
    var tiers := RiskTally(db.patients);
    d := DashboardData(
      Counts(|db.users|, |db.doctors|, |db.patients|, |inRange|, CriticalCount(db)),
      flow, tiers, UpcomingList(db.appointments, now), StatusBreakdown(inRange),
      TopPatients(db, inRange), TopDoctors(db, inRange), RiskTrend(db, now));
  }
}

=== FILE: hc_appointments.dfy ===
/** Accepting an appointment in the healthcare tree: the status change, the patient's
    notification, the (swallowed) e-mail, the chat of the doctor-patient pair and the
    acceptance message. The handler as written reaches `new Message(...)` without having
    imported `Message`, so it throws after its earlier writes; `AcceptIntended` is the
    handler with the import in place. */
module HcAppointments {
  import opened Wrappers
  import opened Time
  import opened Records
  import opened Collection
  import opened Lifecycle
  import opened HcChats

  const PatientLink: string := "/patient/appointments"

  /** The steps before the acceptance message: set `Accepted` and save, notify the patient's
      user account, then find or create the pair's chat. Answers with the saved appointment
      and the chat. */
  function OpenChat(s: Store, id: Id, now: Time): (r: Reply<Store, (Appointment, Chat)>)
    ensures FindIndex(s.db.appointments, AppointmentById(id)).None? <==> r.result == Err(NotFound)
    ensures r.result.Err? ==> r.store == s && (r.result.error == NotFound || r.result.error == ValidationFailed
                                               || r.result.error == DuplicateKey)
    ensures FindIndex(s.db.appointments, AppointmentById(id)).Some? ==>
      var i := FindIndex(s.db.appointments, AppointmentById(id)).value;
      var saved := SaveAppointment(s.db, i, s.db.appointments[i].(status := Accepted), now);
      && (r.result.Ok? <==> saved.Ok?)
      && (r.result.Ok? ==>
            var a := r.result.value.0;
            var c := r.result.value.1;
            && a == PreSave(s.db.appointments[i].(status := Accepted), now)
            && a.status == Accepted
            && r.store.db.appointments == s.db.appointments[i := a]
            && r.store.db.users == s.db.users
            && r.store.db.notifications
                 == Delivered(s.db.notifications, Find(s.db.users, UserOfPatient(a.patientId)), s.db.nextId,
                              AcceptedBy(a.consultingDoctor, a.date), AppointmentAccepted, PatientLink, now)
            && c.doctorId == a.doctorId && c.patientId == a.patientId
            && Find(r.store.chats, ForPair(a.doctorId, a.patientId)) == Some(c)
            && r.store.messages == s.messages)
    ensures PairUnique(s.chats) ==> PairUnique(r.store.chats)
    ensures UniqueCodes(s.db.appointments) ==> UniqueCodes(r.store.db.appointments)
  {
    match FindIndex(s.db.appointments, AppointmentById(id))
    case None => Reply(s, Err(NotFound))
    case Some(i) =>
      match SaveAppointment(s.db, i, s.db.appointments[i].(status := Accepted), now)
      case Err(e) => Reply(s, Err(e))
      case Ok(db1) =>
        var a := db1.appointments[i];
        var db2 := Notify(db1, Find(db1.users, UserOfPatient(a.patientId)),
                          AcceptedBy(a.consultingDoctor, a.date), AppointmentAccepted, PatientLink, now);
        var s2 := Store(db2, s.chats, s.messages);
        // A valid appointment has the names and reason a new chat requires.
        var c := FindOrCreate(s2, a.doctorId, a.patientId, a.consultingDoctor, a.patientName, a.reason,
                              Some(a.id), now);
        match c.result
        case Err(e) => Reply(s, Err(e))
        case Ok(chat) => Reply(c.store, Ok((a, chat)))
  }

  /** The acceptance handler as written: `emailSent` is whether the e-mail went out, which
      changes nothing. Whenever the status change is saved, it still ends in ReferenceError,
      with the status, the notification and the chat written and no message posted. */
  function Accept(s: Store, id: Id, caller: Id, emailSent: bool, now: Time): (r: Reply<Store, Appointment>)
    ensures r.result.Err?
    ensures r.store == OpenChat(s, id, now).store
    ensures FindIndex(s.db.appointments, AppointmentById(id)).None? <==> r.result == Err(NotFound)
    ensures r.store.messages == s.messages
    ensures r.result.error == ReferenceError <==> OpenChat(s, id, now).result.Ok?
    ensures r.result.error == ReferenceError ==>
      var a := OpenChat(s, id, now).result.value.0;
      a.status == Accepted && a in r.store.db.appointments
      && Find(r.store.chats, ForPair(a.doctorId, a.patientId)).Some?
    ensures PairUnique(s.chats) ==> PairUnique(r.store.chats)
    ensures UniqueCodes(s.db.appointments) ==> UniqueCodes(r.store.db.appointments)
  {
    var o := OpenChat(s, id, now);
    match o.result
    case Err(e) => Reply(o.store, Err(e))
    case Ok(_) =>
      var i := FindIndex(s.db.appointments, AppointmentById(id)).value;
      assert o.store.db.appointments[i] == o.result.value.0;
      Reply(o.store, Err(ReferenceError))
  }

  /** `chat.lastMessageAt = new Date()`. */
  function Touch(now: Time): Chat -> Chat {
    (c: Chat) => c.(lastMessageAt := now)
  }

  /** The acceptance handler with `Message` imported: it posts the acceptance note in the
      pair's chat as the doctor (the doctor's user account, else the caller) and answers
      with the accepted appointment. */
  function AcceptIntended(s: Store, id: Id, caller: Id, emailSent: bool, now: Time): (r: Reply<Store, Appointment>)
    ensures FindIndex(s.db.appointments, AppointmentById(id)).None? <==> r.result == Err(NotFound)
    ensures r.result.Ok? <==> OpenChat(s, id, now).result.Ok?
    ensures r.result.Err? ==> r.store == s
    ensures r.result.Ok? ==>
      var a := r.result.value;
      var doctorUser := Find(s.db.users, UserOfDoctor(a.doctorId));
      && a == OpenChat(s, id, now).result.value.0
      && a.status == Accepted && a in r.store.db.appointments
      && |r.store.messages| == |s.messages| + 1
      && r.store.messages[..|s.messages|] == s.messages
      && (var m := r.store.messages[|s.messages|];
          && m.senderRole == RoleDoctor && m.senderName == a.consultingDoctor
          && m.body == AcceptedNote(a.date, a.time) && !m.read && m.createdAt == now
          && m.senderId == (if doctorUser.Some? then doctorUser.value.id else caller)
          && exists k :: 0 <= k < |r.store.chats| && r.store.chats[k].id == m.chatId
               && r.store.chats[k].doctorId == a.doctorId && r.store.chats[k].patientId == a.patientId)
    ensures r.result.Ok? ==>
      var o := OpenChat(s, id, now).store;
      r.store.db == o.db.(nextId := o.db.nextId + 1) && r.store.messages[..|o.messages|] == o.messages
    ensures r.result.Ok? ==>
      var a := r.result.value;
      var o := OpenChat(s, id, now).store;
      && FindIndex(o.chats, ForPair(a.doctorId, a.patientId)).Some?
      && var k := FindIndex(o.chats, ForPair(a.doctorId, a.patientId)).value;
         && r.store.chats == o.chats[k := o.chats[k].(lastMessageAt := now)]
         && r.store.messages[|s.messages|].chatId == o.chats[k].id
    ensures PairUnique(s.chats) ==> PairUnique(r.store.chats)
    ensures UniqueCodes(s.db.appointments) ==> UniqueCodes(r.store.db.appointments)
  {
    var o := OpenChat(s, id, now);
    match o.result
    case Err(e) => Reply(o.store, Err(e))
    case Ok(pair) =>
      var a := pair.0;
      var c := pair.1;
      var i := FindIndex(s.db.appointments, AppointmentById(id)).value;
      assert o.store.db.appointments[i] == a;
      var doctorUser := Find(o.store.db.users, UserOfDoctor(a.doctorId));
      var senderId := if doctorUser.Some? then doctorUser.value.id else caller;
      var m := Message(o.store.db.nextId, c.id, senderId, a.consultingDoctor, RoleDoctor,
                       AcceptedNote(a.date, a.time), false, None, now);
      var k := FindIndex(o.store.chats, ForPair(a.doctorId, a.patientId)).value;
      var chats := o.store.chats[k := Touch(now)(o.store.chats[k])];
      PairUniqueAfterSet(o.store.chats, k, Touch(now)(o.store.chats[k]));
      var messages := o.store.messages + [m];
      assert messages[..|s.messages|] == s.messages;
      assert chats[k].id == m.chatId;
      Reply(Store(o.store.db.(nextId := o.store.db.nextId + 1), chats, messages), Ok(a))
  }

  /** Whether the e-mail went out never changes the outcome. */
  lemma EmailIrrelevant(s: Store, id: Id, caller: Id, now: Time)
    ensures Accept(s, id, caller, true, now) == Accept(s, id, caller, false, now)
    ensures AcceptIntended(s, id, caller, true, now) == AcceptIntended(s, id, caller, false, now)
  {
  }

  /** Accepting has no prior-state guard: a scheduled, completed or cancelled appointment
      whose fields validate is accepted alike. As written the request still fails. */
  lemma AcceptFromAnyStatus(s: Store, id: Id, caller: Id, emailSent: bool, now: Time)
    requires UniqueCodes(s.db.appointments)
    requires FindIndex(s.db.appointments, AppointmentById(id)).Some?
    requires var a := s.db.appointments[FindIndex(s.db.appointments, AppointmentById(id)).value];
             AppointmentValid(a.(status := Accepted)) && a.code != ""
    ensures AcceptIntended(s, id, caller, emailSent, now).result.Ok?
    ensures Accept(s, id, caller, emailSent, now).result == Err(ReferenceError)
  {
    var i := FindIndex(s.db.appointments, AppointmentById(id)).value;
    assert SaveAppointment(s.db, i, s.db.appointments[i].(status := Accepted), now).Ok?;
  }

  /** However many appointments of a pair are accepted, the pair keeps exactly one chat. */
  lemma AcceptKeepsOneChat(s: Store, id: Id, caller: Id, emailSent: bool, now: Time)
    requires PairUnique(s.chats)
    requires AcceptIntended(s, id, caller, emailSent, now).result.Ok?
    ensures var r := AcceptIntended(s, id, caller, emailSent, now);
            Count(r.store.chats, ForPair(r.result.value.doctorId, r.result.value.patientId)) == 1
  {
    var r := AcceptIntended(s, id, caller, emailSent, now);
    var a := r.result.value;
    var m := r.store.messages[|s.messages|];
    var k :| 0 <= k < |r.store.chats| && r.store.chats[k].id == m.chatId
             && r.store.chats[k].doctorId == a.doctorId && r.store.chats[k].patientId == a.patientId;
    assert ForPair(a.doctorId, a.patientId)(r.store.chats[k]);
    OneChatPerPair(r.store.chats, a.doctorId, a.patientId);
  }
}

=== FILE: hc_auth.dfy ===
/** Registration and login in the healthcare tree: duplicate email or mobile number, then a
    patient-role user and its linked patient profile; login by email or else mobile number. */
module HcAuth {
  import opened Wrappers
  import opened Time
  import opened Records
  import opened Collection
  import opened Accounts

  function RegisteredUser(db: Db, q: Registration): User {
    NewUser(db.nextId, q.name, q.email, q.mobileNumber, q.password, RolePatient)
  }

  /** `POST /auth/register`. The user is saved before the patient, so a patient that fails
      validation leaves the user behind without a profile. */
  function Register(db: Db, q: Registration, now: Time): (r: Reply<Db, Session>)
    ensures Duplicate(db.users, q.email, q.mobileNumber).Some? ==>
      r == Reply(db, Err(Duplicate(db.users, q.email, q.mobileNumber).value))
    ensures r.result.Ok? <==>
      && Duplicate(db.users, q.email, q.mobileNumber).None?
      && HcUserValid(RegisteredUser(db, q))
      && PatientValid(RegisteredPatient(db.nextId + 1, RegisteredUser(db, q), q, now))
    ensures r.result.Err? && r.store != db ==>
      && r.result == Err(ValidationFailed)
      && r.store == db.(users := db.users + [RegisteredUser(db, q)], nextId := db.nextId + 1)
    ensures r.result.Ok? ==> |r.store.users| == |db.users| + 1 && r.store.users[..|db.users|] == db.users
    ensures r.result.Ok? ==> |r.store.patients| == |db.patients| + 1 && r.store.patients[..|db.patients|] == db.patients
    ensures r.result.Ok? ==>
      var u := r.store.users[|db.users|];
      var p := r.store.patients[|db.patients|];
      && r.result.value == Session(u, Linked(p.id), Unset)
      && u.role == RolePatient && u.name == q.name && u.email == q.email
      && u.mobileNumber == q.mobileNumber && u.password == q.password
      && u.patientId == Some(p.id) && p.userId == u.id
      && p.age == OrAbsent(q.age) && p.bloodPressure == OrAbsent(q.bloodPressure)
      && p.glucoseLevel == OrAbsent(q.glucoseLevel) && p.heartRate == OrAbsent(q.heartRate)
      && r.store.doctors == db.doctors && r.store.appointments == db.appointments
      && r.store.ratings == db.ratings && r.store.notifications == db.notifications
  {
    match Duplicate(db.users, q.email, q.mobileNumber)
    case Some(e) => Reply(db, Err(e))
    case None =>
      var u := RegisteredUser(db, q);
      if !HcUserValid(u) then Reply(db, Err(ValidationFailed))
      else
        var p := RegisteredPatient(db.nextId + 1, u, q, now);
        if !PatientValid(p) then Reply(db.(users := db.users + [u], nextId := db.nextId + 1), Err(ValidationFailed))
        else
          var u' := u.(patientId := Some(p.id));
          assert (db.users + [u'])[..|db.users|] == db.users;
          assert (db.patients + [p])[..|db.patients|] == db.patients;
          Reply(db.(users := db.users + [u'], patients := db.patients + [p], nextId := db.nextId + 2),
                Ok(Session(u', Linked(p.id), Unset)))
  }

  /** Registration can leave a user without a profile only through a gender outside the enum:
      the user's own validation already demands the name and email the patient needs. */
  lemma RegisterOrphanOnlyOnGender(db: Db, q: Registration, now: Time)
    ensures var r := Register(db, q, now);
            r.result.Err? && r.store != db <==>
              && Duplicate(db.users, q.email, q.mobileNumber).None?
              && HcUserValid(RegisteredUser(db, q))
              && !(q.gender == "" || IsPersonGender(q.gender))
  {
  }

  function UserWithMobile(mobile: string): User -> bool {
    (u: User) => u.mobileNumber == mobile
  }

  /** The lookup `login` makes: by email when one is given, else by mobile number; with neither,
      no lookup at all. */
  function Lookup(users: seq<User>, email: string, mobile: string): (r: Result<Option<User>, Failure>)
    ensures r.Err? <==> email == "" && mobile == ""
    ensures r.Err? ==> r.error == CredentialsRequired
    ensures email != "" ==> r == Ok(Find(users, UserWithEmail(email)))
    ensures email == "" && mobile != "" ==> r == Ok(Find(users, UserWithMobile(mobile)))
  {
    if email != "" then Ok(Find(users, UserWithEmail(email)))
    else if mobile != "" then Ok(Find(users, UserWithMobile(mobile)))
    else Err(CredentialsRequired)
  }

  /** `POST /auth/login`. Read-only: it answers, and changes nothing. */
  function Login(db: Db, email: string, mobile: string, password: string, matches: Matcher): (r: Result<Session, Failure>)
    ensures email == "" && mobile == "" <==> r == Err(CredentialsRequired)
    ensures r.Ok? ==>
      && (email != "" ==> r.value.user.email == email)
      && (email == "" ==> r.value.user.mobileNumber == mobile)
      && r.value.user in db.users
      && matches(password, r.value.user.password)
    ensures r.Err? ==> r.error == CredentialsRequired || r.error == InvalidCredentials
  {
    match Lookup(db.users, email, mobile)
    case Err(e) => Err(e)
    case Ok(found) => Authenticate(db, found, password, matches)
  }

  /** With an email given, the mobile number plays no part. */
  lemma EmailOverridesMobile(db: Db, email: string, m1: string, m2: string, password: string, matches: Matcher)
    requires email != ""
    ensures Login(db, email, m1, password, matches) == Login(db, email, m2, password, matches)
  {
  }

  /** An unknown user and a known user with a wrong password get the same answer. */
  lemma UnknownAndWrongPasswordAlike(db: Db, email: string, mobile: string, password: string, matches: Matcher)
    requires email != "" || mobile != ""
    ensures var f := Lookup(db.users, email, mobile).value;
            f.None? || !matches(password, f.value.password) <==>
              Login(db, email, mobile, password, matches) == Err(InvalidCredentials)
  {
  }

  /** A patient who has just registered can log in with the email and get its own profile back,
      when the stored password matches what was typed. */
  lemma RegisterThenLogin(db: Db, q: Registration, now: Time, matches: Matcher)
    requires Register(db, q, now).result.Ok?
    requires forall k :: 0 <= k < |db.patients| ==> db.patients[k].userId != db.nextId
    requires matches(q.password, q.password)
    ensures var r := Register(db, q, now);
            Login(r.store, q.email, "", q.password, matches) == Ok(r.result.value)
  {
    var r := Register(db, q, now);
    var s := r.store;
    var u := s.users[|db.users|];
    var p := s.patients[|db.patients|];
    assert FindIndex(s.users, UserWithEmail(q.email)) == Some(|db.users|) by {
      assert forall k :: 0 <= k < |db.users| ==> s.users[k] == db.users[k];
    }
    assert FindIndex(s.patients, PatientOfUser(u.id)) == Some(|db.patients|) by {
      assert forall k :: 0 <= k < |db.patients| ==> s.patients[k] == db.patients[k];
    }
  }
}

=== FILE: hc_chats.dfy ===
/** Chats of the healthcare tree: a chat per (doctor, patient) pair, backed by a unique index,
    with its messages stored as separate documents that carry a read flag. */
module HcChats {
  import opened Wrappers
  import opened Time
  import opened Records
  import opened Collection

  datatype Chat = Chat(
    id: Id, doctorId: Id, patientId: Id, doctorName: string, patientName: string, subject: string,
    appointmentId: Option<Id>, lastMessageAt: Time,
    lastReadByDoctor: Option<Time>, lastReadByPatient: Option<Time>, createdAt: Time)

  datatype Message = Message(
    id: Id, chatId: Id, senderId: Id, senderName: string, senderRole: string, body: Body,
    read: bool, readAt: Option<Time>, createdAt: Time)

  /** The shared collections plus the healthcare chat and message collections. */
  datatype Store = Store(db: Db, chats: seq<Chat>, messages: seq<Message>)

  /** At most one chat per (doctorId, patientId): the unique compound index. */
  ghost predicate PairUnique(chats: seq<Chat>) {
    forall i, j :: 0 <= i < j < |chats| ==>
      !(chats[i].doctorId == chats[j].doctorId && chats[i].patientId == chats[j].patientId)
  }

  /** Rewriting a chat without changing its pair keeps pairs unique. */
  lemma PairUniqueAfterSet(chats: seq<Chat>, i: nat, c: Chat)
    requires i < |chats| && c.doctorId == chats[i].doctorId && c.patientId == chats[i].patientId
    ensures PairUnique(chats) ==> PairUnique(chats[i := c])
  {
  }

  function ChatById(id: Id): Chat -> bool {
    (c: Chat) => c.id == id
  }

  /** `Chat.findOne({ doctorId, patientId })`. */
  function ForPair(doctorId: Id, patientId: Id): Chat -> bool {
    (c: Chat) => c.doctorId == doctorId && c.patientId == patientId
  }

  function OfDoctor(doctorId: Id): Chat -> bool {
    (c: Chat) => c.doctorId == doctorId
  }

  function OfPatient(patientId: Id): Chat -> bool {
    (c: Chat) => c.patientId == patientId
  }

  function InChat(chatId: Id): Message -> bool {
    (m: Message) => m.chatId == chatId
  }

  /** A new chat with the schema defaults: every timestamp is the creation time. */
  function NewChat(id: Id, doctorId: Id, patientId: Id, doctorName: string, patientName: string,
                   subject: string, appointmentId: Option<Id>, now: Time): (c: Chat)
    ensures c.lastMessageAt == now && c.lastReadByDoctor == Some(now) && c.lastReadByPatient == Some(now)
  {
    Chat(id, doctorId, patientId, doctorName, patientName, subject, appointmentId, now, Some(now), Some(now), now)
  }

  /** `findOne({ doctorId, patientId })`, and when there is none, `new Chat(...).save()`.
      Names and subject are required; the appointment reference is optional. */
  function FindOrCreate(s: Store, doctorId: Id, patientId: Id, doctorName: string, patientName: string,
                        subject: string, appointmentId: Option<Id>, now: Time): (r: Reply<Store, Chat>)
    ensures Find(s.chats, ForPair(doctorId, patientId)).Some? ==>
      r == Reply(s, Ok(Find(s.chats, ForPair(doctorId, patientId)).value))
    ensures Find(s.chats, ForPair(doctorId, patientId)).None? && (doctorName == "" || patientName == "" || subject == "")
      ==> r == Reply(s, Err(ValidationFailed))
    ensures r.result.Ok? ==> r.result.value.doctorId == doctorId && r.result.value.patientId == patientId
    ensures r.result.Ok? ==> r.result.value in r.store.chats
    ensures r.result.Ok? ==> Find(r.store.chats, ForPair(doctorId, patientId)) == Some(r.result.value)
    ensures r.store.db == s.db || r.store.db == s.db.(nextId := s.db.nextId + 1)
    ensures r.store.messages == s.messages
    ensures r.result.Err? ==> r.store == s
    ensures r.result.Ok? ==> r.store.chats == s.chats || r.store.chats == s.chats + [r.result.value]
    ensures PairUnique(s.chats) ==> PairUnique(r.store.chats)
  {
    match Find(s.chats, ForPair(doctorId, patientId))
    case Some(c) => Reply(s, Ok(c))
    case None =>
      if doctorName == "" || patientName == "" || subject == "" then Reply(s, Err(ValidationFailed))
      else
        var c := NewChat(s.db.nextId, doctorId, patientId, doctorName, patientName, subject, appointmentId, now);
        FirstMatchOfAppend(s.chats, c, ForPair(doctorId, patientId));
        Reply(Store(s.db.(nextId := s.db.nextId + 1), s.chats + [c], s.messages), Ok(c))
  }

  /** Once a pair has a chat, find-or-create changes nothing and returns the same chat. */
  lemma FindOrCreateIdempotent(s: Store, doctorId: Id, patientId: Id, doctorName: string, patientName: string,
                               subject: string, appointmentId: Option<Id>, now: Time, later: Time)
    requires FindOrCreate(s, doctorId, patientId, doctorName, patientName, subject, appointmentId, now).result.Ok?
    ensures var r1 := FindOrCreate(s, doctorId, patientId, doctorName, patientName, subject, appointmentId, now);
            var r2 := FindOrCreate(r1.store, doctorId, patientId, doctorName, patientName, subject, appointmentId, later);
            r2.store == r1.store && r2.result == r1.result
  {
    var r1 := FindOrCreate(s, doctorId, patientId, doctorName, patientName, subject, appointmentId, now);
    var c := r1.result.value;
    if Find(s.chats, ForPair(doctorId, patientId)).None? {
      FirstMatchOfAppend(s.chats, c, ForPair(doctorId, patientId));
    }
  }

  /** A sequence with no match, extended by one that matches, has its first match at the end. */
  lemma FirstMatchOfAppend(xs: seq<Chat>, c: Chat, p: Chat -> bool)
    requires Find(xs, p).None? && p(c)
    ensures Find(xs + [c], p) == Some(c)
  {
    var ys := xs + [c];
    assert ys[|xs|] == c;
    assert forall j :: 0 <= j < |xs| ==> ys[j] == xs[j];
    var k := FindIndex(ys, p);
    assert k.Some?;
    assert k.value == |xs|;
  }

  /** A pair of unique chats has exactly one chat once find-or-create has succeeded for it. */
  lemma OneChatPerPair(chats: seq<Chat>, doctorId: Id, patientId: Id)
    requires PairUnique(chats)
    requires Find(chats, ForPair(doctorId, patientId)).Some?
    ensures Count(chats, ForPair(doctorId, patientId)) == 1
  {
    var i := FindIndex(chats, ForPair(doctorId, patientId)).value;
    var p := ForPair(doctorId, patientId);
    var q := (c: Chat) => c == chats[i];
    assert forall k :: 0 <= k < |chats| ==> (p(chats[k]) <==> k == i);
    CountSingle(chats, p, i);
  }

  /** A predicate that holds at exactly one index counts one. */
  lemma {:induction false} CountSingle<T>(xs: seq<T>, p: T -> bool, i: nat)
    requires i < |xs|
    requires forall k :: 0 <= k < |xs| ==> (p(xs[k]) <==> k == i)
    ensures Count(xs, p) == 1
    decreases |xs|
  {
    var init := xs[..|xs| - 1];
    if i == |xs| - 1 {
      assert forall k :: 0 <= k < |init| ==> !p(init[k]);
    } else {
      assert forall k :: 0 <= k < |init| ==> init[k] == xs[k];
      CountSingle(init, p, i);
    }
  }

  /** Messages of `chatId` sent by the other side after `since`. */
  function UnreadBy(chatId: Id, role: string, since: Time): Message -> bool {
    (m: Message) => m.chatId == chatId && m.senderRole != role && m.createdAt > since
  }

  /** `getUnreadCount`: `lastRead || new Date(0)` makes an unset read time the epoch. */
  function UnreadCount(messages: seq<Message>, chatId: Id, role: string, lastRead: Option<Time>): (n: nat)
    ensures n <= Count(messages, InChat(chatId))
    ensures n == 0 <==> forall k :: 0 <= k < |messages| && messages[k].chatId == chatId && messages[k].senderRole != role ==>
      messages[k].createdAt <= lastRead.GetOr(0)
  {
    CountMonotone(messages, UnreadBy(chatId, role, lastRead.GetOr(0)), InChat(chatId));
    Count(messages, UnreadBy(chatId, role, lastRead.GetOr(0)))
  }

  /** A message the caller's own role sends never adds to the caller's unread count. */
  lemma UnreadIgnoresOwnRole(messages: seq<Message>, m: Message, chatId: Id, role: string, lastRead: Option<Time>)
    requires m.senderRole == role
    ensures UnreadCount(messages + [m], chatId, role, lastRead) == UnreadCount(messages, chatId, role, lastRead)
  {
    CountAppend(messages, [m], UnreadBy(chatId, role, lastRead.GetOr(0)));
  }

  /** A message of the chat from the other role, newer than the read time, adds exactly one. */
  lemma UnreadCountsOtherRole(messages: seq<Message>, m: Message, chatId: Id, role: string, lastRead: Option<Time>)
    requires m.chatId == chatId && m.senderRole != role && m.createdAt > lastRead.GetOr(0)
    ensures UnreadCount(messages + [m], chatId, role, lastRead) == UnreadCount(messages, chatId, role, lastRead) + 1
  {
    CountAppend(messages, [m], UnreadBy(chatId, role, lastRead.GetOr(0)));
  }

  /** With no read time, every other-role message of the chat with a positive timestamp is unread. */
  lemma UnreadFromEpoch(messages: seq<Message>, chatId: Id, role: string)
    requires forall k :: 0 <= k < |messages| ==> messages[k].createdAt > 0
    ensures UnreadCount(messages, chatId, role, None)
         == Count(messages, (m: Message) => m.chatId == chatId && m.senderRole != role)
  {
    CountCongruent(messages, UnreadBy(chatId, role, 0), (m: Message) => m.chatId == chatId && m.senderRole != role);
  }

  /** The message with the latest `createdAt` (`findOne(...).sort({ createdAt: -1 })`). */
  function Latest(ms: seq<Message>): (r: Option<Message>)
    ensures r.None? <==> |ms| == 0
    ensures r.Some? ==> r.value in ms && forall k :: 0 <= k < |ms| ==> ms[k].createdAt <= r.value.createdAt
  {
    if |ms| == 0 then None
    else
      var init := ms[..|ms| - 1];
      var l := Latest(init);
      assert forall k :: 0 <= k < |init| ==> init[k] == ms[k];
      assert forall x :: x in init ==> x in ms;
      if l.None? || ms[|ms| - 1].createdAt > l.value.createdAt then Some(ms[|ms| - 1]) else l
  }

  /** A chat as a list shows it: with its latest message and the caller's unread count. */
  datatype ChatView = ChatView(chat: Chat, lastMessage: Option<Message>, unread: nat)

  function LastMessageKey(c: Chat): int {
    c.lastMessageAt
  }

  function View(s: Store, c: Chat, role: string, lastRead: Option<Time>): ChatView {
    ChatView(c, Latest(Filter(s.messages, InChat(c.id))), UnreadCount(s.messages, c.id, role, lastRead))
  }

  /** The chats satisfying `p`, most recent activity first (`find(q).sort({ lastMessageAt: -1 })`). */
  function Recent(chats: seq<Chat>, p: Chat -> bool): (r: seq<Chat>)
    ensures |r| == Count(chats, p)
    ensures forall i :: 0 <= i < |r| ==> r[i] in chats && p(r[i])
    ensures forall i, j :: 0 <= i < j < |r| ==> r[i].lastMessageAt >= r[j].lastMessageAt
    ensures forall k :: 0 <= k < |chats| && p(chats[k]) ==> chats[k] in r
  {
    var mine := Filter(chats, p);
    var r := SortDesc(mine, LastMessageKey);
    assert forall i, j :: 0 <= i < j < |r| ==> LastMessageKey(r[i]) >= LastMessageKey(r[j]);
    r
  }

  /** Each chat with its latest message and the unread count of `role`. */
  function Views(s: Store, cs: seq<Chat>, role: string): (r: seq<ChatView>)
    ensures |r| == |cs|
    ensures forall i :: 0 <= i < |r| ==>
      r[i].chat == cs[i]
      && r[i].unread == UnreadCount(s.messages, cs[i].id, role,
                                    if role == RoleDoctor then cs[i].lastReadByDoctor else cs[i].lastReadByPatient)
      && r[i].lastMessage == Latest(Filter(s.messages, InChat(cs[i].id)))
  {
    seq(|cs|, i requires 0 <= i < |cs| =>
      View(s, cs[i], role, if role == RoleDoctor then cs[i].lastReadByDoctor else cs[i].lastReadByPatient))
  }

  /** `getChatsForDoctor`: the doctor's chats, most recent activity first, each with the
      doctor's unread count. */
  function DoctorChats(s: Store, doctorId: Id): (r: seq<ChatView>)
    ensures |r| == Count(s.chats, OfDoctor(doctorId))
    ensures forall i :: 0 <= i < |r| ==>
      r[i].chat in s.chats && r[i].chat.doctorId == doctorId
      && r[i].unread == UnreadCount(s.messages, r[i].chat.id, RoleDoctor, r[i].chat.lastReadByDoctor)
      && r[i].lastMessage == Latest(Filter(s.messages, InChat(r[i].chat.id)))
    ensures forall i, j :: 0 <= i < j < |r| ==> r[i].chat.lastMessageAt >= r[j].chat.lastMessageAt
    ensures forall k :: 0 <= k < |s.chats| && s.chats[k].doctorId == doctorId ==>
      exists i :: 0 <= i < |r| && r[i].chat == s.chats[k]
  {
    var cs := Recent(s.chats, OfDoctor(doctorId));
    var r := Views(s, cs, RoleDoctor);
    ViewsCover(cs, r);
    r
  }

  /** `getChatsForPatient`: the patient's chats, most recent activity first, each with the
      patient's unread count. */
  function PatientChats(s: Store, patientId: Id): (r: seq<ChatView>)
    ensures |r| == Count(s.chats, OfPatient(patientId))
    ensures forall i :: 0 <= i < |r| ==>
      r[i].chat in s.chats && r[i].chat.patientId == patientId
      && r[i].unread == UnreadCount(s.messages, r[i].chat.id, RolePatient, r[i].chat.lastReadByPatient)
      && r[i].lastMessage == Latest(Filter(s.messages, InChat(r[i].chat.id)))
    ensures forall i, j :: 0 <= i < j < |r| ==> r[i].chat.lastMessageAt >= r[j].chat.lastMessageAt
    ensures forall k :: 0 <= k < |s.chats| && s.chats[k].patientId == patientId ==>
      exists i :: 0 <= i < |r| && r[i].chat == s.chats[k]
  {
    var cs := Recent(s.chats, OfPatient(patientId));
    var r := Views(s, cs, RolePatient);
    ViewsCover(cs, r);
    r
  }

  /** Every listed chat has a view. */
  lemma ViewsCover(cs: seq<Chat>, r: seq<ChatView>)
    requires |r| == |cs| && forall i :: 0 <= i < |r| ==> r[i].chat == cs[i]
    ensures forall x :: x in cs ==> exists i :: 0 <= i < |r| && r[i].chat == x
  {
    forall x | x in cs ensures exists i :: 0 <= i < |r| && r[i].chat == x {
      var i :| 0 <= i < |cs| && cs[i] == x;
      assert r[i].chat == x;
    }
  }

  /** The body of a create-chat request; either id may be missing. */
  datatype NewChatRequest = NewChatRequest(
    doctorId: Option<Id>, patientId: Option<Id>, doctorName: string, patientName: string, subject: string,
    appointmentId: Option<Id>)

  /** `findOne({ doctorId, patientId })` when an id is missing: the missing key is dropped from
      the filter, so it matches any value. */
  function RequestedPair(doctorId: Option<Id>, patientId: Option<Id>): Chat -> bool {
    (c: Chat) => (doctorId.None? || c.doctorId == doctorId.value) && (patientId.None? || c.patientId == patientId.value)
  }

  /** `createChat`: find-or-create on the pair. An existing chat of the pair is answered as it
      is, whatever names, subject or appointment the request carries. A request missing an id
      can only be answered with a chat the partial filter finds: a new chat without both ids
      fails the schema. */
  function CreateChat(s: Store, q: NewChatRequest, now: Time): (r: Reply<Store, Chat>)
    ensures q.doctorId.Some? && q.patientId.Some? ==>
      var d, p := q.doctorId.value, q.patientId.value;
      && (Find(s.chats, ForPair(d, p)).Some? ==> r == Reply(s, Ok(Find(s.chats, ForPair(d, p)).value)))
      && (Find(s.chats, ForPair(d, p)).None? ==>
            && (r.result.Ok? <==> q.doctorName != "" && q.patientName != "" && q.subject != "")
            && (r.result.Err? ==> r == Reply(s, Err(ValidationFailed)))
            && (r.result.Ok? ==>
                  && r.store.chats == s.chats + [r.result.value]
                  && r.result.value == NewChat(s.db.nextId, d, p, q.doctorName, q.patientName,
                                               q.subject, q.appointmentId, now)))
    ensures q.doctorId.None? || q.patientId.None? ==>
      && r.store == s
      && (r.result.Ok? <==> Find(s.chats, RequestedPair(q.doctorId, q.patientId)).Some?)
      && (r.result.Ok? ==> r.result.value == Find(s.chats, RequestedPair(q.doctorId, q.patientId)).value)
      && (r.result.Err? ==> r.result == Err(ValidationFailed))
    ensures PairUnique(s.chats) ==> PairUnique(r.store.chats)
  {
    if q.doctorId.Some? && q.patientId.Some? then
      FindOrCreate(s, q.doctorId.value, q.patientId.value, q.doctorName, q.patientName, q.subject,
                   q.appointmentId, now)
    else
      match Find(s.chats, RequestedPair(q.doctorId, q.patientId))
      case Some(c) => Reply(s, Ok(c))
      case None => Reply(s, Err(ValidationFailed))
  }

  /** A create without ids in a store with no chats is refused and writes nothing. */
  lemma CreateChatWithoutIdsRefused(s: Store, q: NewChatRequest, now: Time)
    requires q.doctorId.None? && |s.chats| == 0
    ensures CreateChat(s, q, now) == Reply(s, Err(ValidationFailed))
  {
  }

  function CreatedKey(m: Message): int {
    m.createdAt
  }

  /** `sender === chat.doctorName ? 'doctor' : 'patient'`. */
  function SenderRole(c: Chat, sender: string): (role: string)
    ensures role == RoleDoctor <==> sender == c.doctorName
    ensures role == RoleDoctor || role == RolePatient
  {
    if sender == c.doctorName then RoleDoctor else RolePatient
  }

  /** The user account the message is attributed to: the doctor's or the patient's. */
  function SenderAccount(db: Db, c: Chat, role: string): Option<User> {
    if role == RoleDoctor then Find(db.users, UserOfDoctor(c.doctorId))
    else Find(db.users, UserOfPatient(c.patientId))
  }

  /** `addMessage`: append one message and bump `lastMessageAt`; answer with the chat's
      messages oldest first. `senderId`, `senderName` and `text` are required. */
  function AddMessage(s: Store, chatId: Id, sender: string, text: string, now: Time): (r: Reply<Store, seq<Message>>)
    ensures FindIndex(s.chats, ChatById(chatId)).None? <==> r.result == Err(NotFound)
    ensures r.result.Err? ==> r.store == s
    ensures r.result.Err? ==> r.result == Err(NotFound) || r.result == Err(ValidationFailed)
    ensures FindIndex(s.chats, ChatById(chatId)).Some? ==>
      var c := s.chats[FindIndex(s.chats, ChatById(chatId)).value];
      (r.result.Ok? <==> sender != "" && text != "" && SenderAccount(s.db, c, SenderRole(c, sender)).Some?)
    ensures r.result.Ok? ==>
      var i := FindIndex(s.chats, ChatById(chatId)).value;
      var c := s.chats[i];
      && |r.store.messages| == |s.messages| + 1
      && r.store.messages[..|s.messages|] == s.messages
      && (var m := r.store.messages[|s.messages|];
          m.chatId == chatId && m.senderName == sender && m.body == Written(text) && !m.read
          && m.senderRole == SenderRole(c, sender) && m.createdAt == now)
      && r.store.chats == s.chats[i := c.(lastMessageAt := now)]
      && r.store.db.users == s.db.users
      && (forall j, k :: 0 <= j < k < |r.result.value| ==> r.result.value[j].createdAt <= r.result.value[k].createdAt)
      && multiset(r.result.value) == multiset(Filter(r.store.messages, InChat(chatId)))
    ensures PairUnique(s.chats) ==> PairUnique(r.store.chats)
  {
    match FindIndex(s.chats, ChatById(chatId))
    case None => Reply(s, Err(NotFound))
    case Some(i) =>
      var c := s.chats[i];
      var role := SenderRole(c, sender);
      var account := SenderAccount(s.db, c, role);
      if account.None? || sender == "" || text == "" then Reply(s, Err(ValidationFailed))
      else
        var m := Message(s.db.nextId, chatId, account.value.id, sender, role, Written(text), false, None, now);
        var chats := s.chats[i := c.(lastMessageAt := now)];
        PairUniqueAfterSet(s.chats, i, c.(lastMessageAt := now));
        var messages := s.messages + [m];
        assert messages[..|s.messages|] == s.messages;
        var s' := Store(s.db.(nextId := s.db.nextId + 1), chats, messages);
        Reply(s', Ok(Sort(Filter(messages, InChat(chatId)), CreatedKey)))
  }

  /** `markAsRead`: the caller's side only. A doctor stamps `lastReadByDoctor` and flags the
      patient's unread messages; a patient the reverse; any other role changes nothing. */
  function MarkAsRead(s: Store, chatId: Id, role: string, now: Time): (r: Reply<Store, ()>)
    ensures FindIndex(s.chats, ChatById(chatId)).None? <==> r.result == Err(NotFound)
    ensures r.result.Err? ==> r.result == Err(NotFound)
    ensures r.result.Err? || (role != RoleDoctor && role != RolePatient) ==> r.store == s
    ensures r.store.db == s.db && |r.store.chats| == |s.chats| && |r.store.messages| == |s.messages|
    ensures r.result.Ok? && (role == RoleDoctor || role == RolePatient) ==>
      var i := FindIndex(s.chats, ChatById(chatId)).value;
      var other := if role == RoleDoctor then RolePatient else RoleDoctor;
      && (role == RoleDoctor ==> r.store.chats == s.chats[i := s.chats[i].(lastReadByDoctor := Some(now))])
      && (role == RolePatient ==> r.store.chats == s.chats[i := s.chats[i].(lastReadByPatient := Some(now))])
      && forall k :: 0 <= k < |s.messages| ==>
           r.store.messages[k] == (if s.messages[k].chatId == s.chats[i].id && s.messages[k].senderRole == other
                                      && !s.messages[k].read
                                   then s.messages[k].(read := true, readAt := Some(now))
                                   else s.messages[k])
    ensures PairUnique(s.chats) ==> PairUnique(r.store.chats)
  {
    match FindIndex(s.chats, ChatById(chatId))
    case None => Reply(s, Err(NotFound))
    case Some(i) =>
      var c := s.chats[i];
      PairUniqueAfterSet(s.chats, i, c.(lastReadByDoctor := Some(now)));
      PairUniqueAfterSet(s.chats, i, c.(lastReadByPatient := Some(now)));
      if role == RoleDoctor then
        Reply(Store(s.db, s.chats[i := c.(lastReadByDoctor := Some(now))],
                    UpdateAll(s.messages, Unread(c.id, RolePatient), Stamp(now))), Ok(()))
      else if role == RolePatient then
        Reply(Store(s.db, s.chats[i := c.(lastReadByPatient := Some(now))],
                    UpdateAll(s.messages, Unread(c.id, RoleDoctor), Stamp(now))), Ok(()))
      else Reply(s, Ok(()))
  }

  /** `{ chatId, senderRole, read: false }`. */
  function Unread(chatId: Id, senderRole: string): Message -> bool {
    (m: Message) => m.chatId == chatId && m.senderRole == senderRole && !m.read
  }

  /** `{ read: true, readAt: now }`. */
  function Stamp(now: Time): Message -> Message {
    (m: Message) => m.(read := true, readAt := Some(now))
  }

  /** The read time of `role`'s side of a chat. */
  function LastReadOf(c: Chat, role: string): Option<Time> {
    if role == RoleDoctor then c.lastReadByDoctor else c.lastReadByPatient
  }

  /** After a doctor or a patient marks a chat read, nothing sent up to that moment counts as
      unread for that side. */
  lemma MarkAsReadClearsUnread(s: Store, chatId: Id, role: string, now: Time)
    requires role == RoleDoctor || role == RolePatient
    requires FindIndex(s.chats, ChatById(chatId)).Some?
    requires forall k :: 0 <= k < |s.messages| ==> s.messages[k].createdAt <= now
    ensures var r := MarkAsRead(s, chatId, role, now);
            var c := r.store.chats[FindIndex(s.chats, ChatById(chatId)).value];
            UnreadCount(r.store.messages, c.id, role, LastReadOf(c, role)) == 0
  {
    var r := MarkAsRead(s, chatId, role, now);
    var c := r.store.chats[FindIndex(s.chats, ChatById(chatId)).value];
    assert forall k :: 0 <= k < |r.store.messages| ==> r.store.messages[k].createdAt == s.messages[k].createdAt;
  }

  /** `deleteChat`: the chat's messages are deleted first, so they go even when the chat
      itself turns out to be missing and the answer is NotFound. */
  function DeleteChat(s: Store, chatId: Id): (r: Reply<Store, ()>)
    ensures FindIndex(s.chats, ChatById(chatId)).None? <==> r.result == Err(NotFound)
    ensures r.store.messages == Remove(s.messages, InChat(chatId))
    ensures forall k :: 0 <= k < |r.store.messages| ==> r.store.messages[k].chatId != chatId
    ensures r.result.Err? ==> r.result == Err(NotFound) && r.store.chats == s.chats
    ensures r.result.Ok? ==> var i := FindIndex(s.chats, ChatById(chatId)).value;
      r.store.chats == s.chats[..i] + s.chats[i + 1..]
    ensures r.store.db == s.db
  {
    var messages := Remove(s.messages, InChat(chatId));
    match FindIndex(s.chats, ChatById(chatId))
    case None => Reply(Store(s.db, s.chats, messages), Err(NotFound))
    case Some(i) => Reply(Store(s.db, s.chats[..i] + s.chats[i + 1..], messages), Ok(()))
  }

  /** A stored message is among the chat's messages the answer lists. */
  lemma AddThenListed(s: Store, chatId: Id, sender: string, text: string, now: Time)
    requires AddMessage(s, chatId, sender, text, now).result.Ok?
    ensures var r := AddMessage(s, chatId, sender, text, now);
            r.store.messages[|s.messages|] in r.result.value
  {
    var r := AddMessage(s, chatId, sender, text, now);
    var m := r.store.messages[|s.messages|];
    assert InChat(chatId)(m);
    assert m in Filter(r.store.messages, InChat(chatId));
    assert m in multiset(r.result.value);
  }

  /** Deleting a chat removes exactly one chat with the id and every message of it; with
      unique chat ids a second delete is NotFound. */
  lemma DeleteChatRemovesOne(s: Store, chatId: Id)
    requires FindIndex(s.chats, ChatById(chatId)).Some?
    ensures var r := DeleteChat(s, chatId);
            && Count(r.store.chats, ChatById(chatId)) == Count(s.chats, ChatById(chatId)) - 1
            && Count(r.store.messages, InChat(chatId)) == 0
    ensures Count(s.chats, ChatById(chatId)) <= 1 ==>
            DeleteChat(DeleteChat(s, chatId).store, chatId).result == Err(NotFound)
  {
    var i := FindIndex(s.chats, ChatById(chatId)).value;
    CountRemoveAt(s.chats, i, ChatById(chatId));
    if Count(s.chats, ChatById(chatId)) <= 1 {
      RemoveOnlyMatch(s.chats, i, ChatById(chatId));
    }
  }
}

=== FILE: hc_doctors.dfy ===
/** The doctor endpoints of the healthcare tree: the `profileImage` each listing derives from the
    linked user, and the admin create and update handlers with their mobile-number rules. */
module HcDoctors {
  import opened Wrappers
  import opened Records
  import opened Collection
  import Text
  import opened Accounts

  const DoctorRole: string := RoleDoctor

  /** `doc.userId?.profilePicture || null`: absent when the linked user is missing or its
      picture is the empty string. */
  function ProfileImage(users: seq<User>, d: Doctor): (r: Option<string>)
    ensures r.Some? <==> exists k :: 0 <= k < |users| && users[k].id == d.userId
                                     && FindIndex(users, UserById(d.userId)) == Some(k)
                                     && users[k].profilePicture != ""
    ensures r.Some? ==> r.value != "" && r.value == Find(users, UserById(d.userId)).value.profilePicture
  {
    match FindIndex(users, UserById(d.userId))
    case None => None
    case Some(k) => if users[k].profilePicture == "" then None else Some(users[k].profilePicture)
  }

  datatype Listed = Listed(doctor: Doctor, profileImage: Option<string>)

  /** `GET /doctors`: every doctor, in store order, with its image. */
  function ListDoctors(db: Db): (r: seq<Listed>)
    ensures |r| == |db.doctors|
    ensures forall i :: 0 <= i < |r| ==>
      r[i].doctor == db.doctors[i] && r[i].profileImage == ProfileImage(db.users, db.doctors[i])
  {
    seq(|db.doctors|, i requires 0 <= i < |db.doctors| =>
      Listed(db.doctors[i], ProfileImage(db.users, db.doctors[i])))
  }

  /** `GET /doctors/:id`. */
  function GetDoctor(db: Db, id: Id): (r: Result<Listed, Failure>)
    ensures FindIndex(db.doctors, DoctorById(id)).None? <==> r == Err(NotFound)
    ensures r.Ok? ==> r.value.doctor.id == id && r.value.doctor in db.doctors
                      && r.value.profileImage == ProfileImage(db.users, r.value.doctor)
  {
    match Find(db.doctors, DoctorById(id))
    case None => Err(NotFound)
    case Some(d) => Ok(Listed(d, ProfileImage(db.users, d)))
  }

  /** The fields `createDoctor` reads from the request body; an omitted string is "". */
  datatype DoctorRequest = DoctorRequest(
    fullName: string, email: string, mobileNumber: string, password: string, gender: string,
    contactNumber: string, specialist: Option<seq<string>>, designation: string)

  function DoctorUser(db: Db, q: DoctorRequest): User {
    NewUser(db.nextId, q.fullName, q.email, q.mobileNumber, q.password, DoctorRole)
  }

  function NewDoctor(db: Db, q: DoctorRequest): Doctor {
    Doctor(db.nextId + 1, db.nextId, q.fullName, q.email, q.mobileNumber, q.gender,
           q.contactNumber, q.specialist.GetOr([]), q.designation, 0.0, 0)
  }

  /** `POST /doctors` (admin): validate the mobile number, reject duplicates, save the user,
      save the doctor, then link the user to the doctor. A doctor that fails validation leaves
      the already saved user behind. */
  function CreateDoctor(db: Db, q: DoctorRequest): (r: Reply<Db, Doctor>)
    ensures !Text.IsTenDigits(q.mobileNumber) <==> r.result == Err(InvalidMobile)
    ensures Text.IsTenDigits(q.mobileNumber) && Duplicate(db.users, q.email, q.mobileNumber).Some? ==>
      r.result == Err(Duplicate(db.users, q.email, q.mobileNumber).value) && r.store == db
    ensures r.result.Ok? <==>
      && Text.IsTenDigits(q.mobileNumber)
      && Duplicate(db.users, q.email, q.mobileNumber).None?
      && HcUserValid(DoctorUser(db, q)) && HcDoctorValid(NewDoctor(db, q))
    ensures r.result.Err? && r.store != db ==>
      && r.result == Err(ValidationFailed)
      && r.store == db.(users := db.users + [DoctorUser(db, q)], nextId := db.nextId + 1)
      && !HcDoctorValid(NewDoctor(db, q))
    ensures r.result.Ok? ==> |r.store.users| == |db.users| + 1 && r.store.users[..|db.users|] == db.users
    ensures r.result.Ok? ==>
      var d := r.result.value;
      var u := r.store.users[|db.users|];
      && r.store.doctors == db.doctors + [d]
      && u.role == RoleDoctor && u.name == q.fullName && u.email == q.email
      && u.mobileNumber == q.mobileNumber && u.password == q.password
      && d.userId == u.id && u.doctorId == Some(d.id)
      && d.specialist == (if q.specialist.Some? then q.specialist.value else [])
      && d.averageRating == 0.0 && d.totalRatings == 0
      && r.store.patients == db.patients && r.store.appointments == db.appointments
      && r.store.ratings == db.ratings && r.store.notifications == db.notifications
  {
    if !Text.IsTenDigits(q.mobileNumber) then Reply(db, Err(InvalidMobile))
    else match Duplicate(db.users, q.email, q.mobileNumber)
    case Some(e) => Reply(db, Err(e))
    case None =>
      var u := DoctorUser(db, q);
      if !HcUserValid(u) then Reply(db, Err(ValidationFailed))
      else
        var db1 := db.(users := db.users + [u], nextId := db.nextId + 1);
        var d := NewDoctor(db, q);
        if !HcDoctorValid(d) then Reply(db1, Err(ValidationFailed))
        else
          assert (db.users + [u.(doctorId := Some(d.id))])[..|db.users|] == db.users;
          Reply(db.(users := db.users + [u.(doctorId := Some(d.id))], doctors := db.doctors + [d],
                    nextId := db.nextId + 2), Ok(d))
  }

  /** The only way a create leaves a user without a doctor is a gender outside the enum. */
  lemma OrphanOnlyOnGender(db: Db, q: DoctorRequest)
    ensures var r := CreateDoctor(db, q);
            r.result.Err? && r.store != db <==>
              && Text.IsTenDigits(q.mobileNumber)
              && Duplicate(db.users, q.email, q.mobileNumber).None?
              && HcUserValid(DoctorUser(db, q))
              && !(q.gender == "" || IsPersonGender(q.gender))
  {
  }

  /** The fields of an update body; `{ ...req.body }` is applied to the doctor unvalidated. */
  datatype DoctorPatch = DoctorPatch(
    fullName: Option<string>, email: Option<string>, mobileNumber: Option<string>,
    gender: Option<string>, contactNumber: Option<string>, specialist: Option<seq<string>>,
    designation: Option<string>, userId: Option<Id>, averageRating: Option<real>, totalRatings: Option<nat>)

  /** The doctor after `findByIdAndUpdate(id, { ...req.body })`: every field the body carries is
      overwritten, the rating aggregate and the user link included. */
  function Patch(d: Doctor, p: DoctorPatch): (r: Doctor)
    ensures r.id == d.id && r.userId == p.userId.GetOr(d.userId)
    ensures r.averageRating == p.averageRating.GetOr(d.averageRating)
    ensures r.totalRatings == p.totalRatings.GetOr(d.totalRatings)
    ensures r.fullName == p.fullName.GetOr(d.fullName) && r.email == p.email.GetOr(d.email)
    ensures r.mobileNumber == p.mobileNumber.GetOr(d.mobileNumber)
    ensures r.gender == p.gender.GetOr(d.gender)
    ensures r.contactNumber == p.contactNumber.GetOr(d.contactNumber)
    ensures r.specialist == p.specialist.GetOr(d.specialist)
    ensures r.designation == p.designation.GetOr(d.designation)
  {
    d.(fullName := p.fullName.GetOr(d.fullName), email := p.email.GetOr(d.email),
       mobileNumber := p.mobileNumber.GetOr(d.mobileNumber), gender := p.gender.GetOr(d.gender),
       contactNumber := p.contactNumber.GetOr(d.contactNumber),
       specialist := p.specialist.GetOr(d.specialist), designation := p.designation.GetOr(d.designation),
       userId := p.userId.GetOr(d.userId), averageRating := p.averageRating.GetOr(d.averageRating),
       totalRatings := p.totalRatings.GetOr(d.totalRatings))
  }

  /** `User.findOne({ mobileNumber, _id: { $ne: user._id } })`. */
  function OtherWithMobile(mobile: string, self: Id): User -> bool {
    (u: User) => u.mobileNumber == mobile && u.id != self
  }

  /** The mobile-number guard of an update, for the doctor's own user `u`. */
  function MobileCheck(users: seq<User>, u: User, m: Option<string>): (r: Option<Failure>)
    ensures !Filled(m) ==> r.None?
    ensures Filled(m) && !Text.IsTenDigits(m.value) ==> r == Some(InvalidMobile)
    ensures Filled(m) && m.value == u.mobileNumber && Text.IsTenDigits(m.value) ==> r.None?
    ensures Filled(m) && Text.IsTenDigits(m.value) && m.value != u.mobileNumber ==>
      (r == Some(MobileInUse) <==> exists k :: 0 <= k < |users| && users[k].mobileNumber == m.value && users[k].id != u.id)
    ensures r.Some? ==> r == Some(InvalidMobile) || r == Some(MobileInUse)
  {
    if !Filled(m) then None
    else if !Text.IsTenDigits(m.value) then Some(InvalidMobile)
    else if m.value != u.mobileNumber && Find(users, OtherWithMobile(m.value, u.id)).Some? then Some(MobileInUse)
    else None
  }

  /** The user update: the name only for a truthy full name, the mobile only for a truthy one. */
  function UserPatch(u: User, p: DoctorPatch): (r: User)
    ensures r.name == (if Filled(p.fullName) then p.fullName.value else u.name)
    ensures r.mobileNumber == (if Filled(p.mobileNumber) then p.mobileNumber.value else u.mobileNumber)
    ensures r == u.(name := r.name, mobileNumber := r.mobileNumber)
  {
    u.(name := if Filled(p.fullName) then p.fullName.value else u.name,
       mobileNumber := if Filled(p.mobileNumber) then p.mobileNumber.value else u.mobileNumber)
  }

  /** `PUT /doctors/:id` (admin). Answers with the body it applied. */
  function UpdateDoctor(db: Db, id: Id, p: DoctorPatch): (r: Reply<Db, DoctorPatch>)
    ensures FindIndex(db.doctors, DoctorById(id)).None? ==> r.result == Err(NotFound)
    ensures r.result.Err? ==> r.store == db
    ensures FindIndex(db.doctors, DoctorById(id)).Some? ==>
      var i := FindIndex(db.doctors, DoctorById(id)).value;
      match FindIndex(db.users, UserById(db.doctors[i].userId))
      case None => r.result == Err(NotFound)
      case Some(k) => (r.result.Err? <==> MobileCheck(db.users, db.users[k], p.mobileNumber).Some?)
                      && (r.result.Err? ==> r.result.error == MobileCheck(db.users, db.users[k], p.mobileNumber).value)
    ensures r.result.Ok? ==>
      var i := FindIndex(db.doctors, DoctorById(id)).value;
      var k := FindIndex(db.users, UserById(db.doctors[i].userId)).value;
      && MobileCheck(db.users, db.users[k], p.mobileNumber).None?
      && r.store == db.(users := db.users[k := UserPatch(db.users[k], p)],
                        doctors := db.doctors[i := Patch(db.doctors[i], p)])
      && r.result.value == p
  {
    match FindIndex(db.doctors, DoctorById(id))
    case None => Reply(db, Err(NotFound))
    case Some(i) =>
      match FindIndex(db.users, UserById(db.doctors[i].userId))
      case None => Reply(db, Err(NotFound))
      case Some(k) =>
        match MobileCheck(db.users, db.users[k], p.mobileNumber)
        case Some(e) => Reply(db, Err(e))
        case None =>
          Reply(db.(users := db.users[k := UserPatch(db.users[k], p)],
                    doctors := db.doctors[i := Patch(db.doctors[i], p)]), Ok(p))
  }

  /** An update keeps mobile numbers unique among users, because the number it writes is held by
      no other user. */
  lemma UpdateKeepsMobilesUnique(db: Db, id: Id, p: DoctorPatch)
    requires forall a, b :: 0 <= a < b < |db.users| ==> db.users[a].mobileNumber != db.users[b].mobileNumber
    requires forall a, b :: 0 <= a < b < |db.users| ==> db.users[a].id != db.users[b].id
    ensures var s := UpdateDoctor(db, id, p).store;
            forall a, b :: 0 <= a < b < |s.users| ==> s.users[a].mobileNumber != s.users[b].mobileNumber
  {
    var r := UpdateDoctor(db, id, p);
    if r.result.Ok? {
      var i := FindIndex(db.doctors, DoctorById(id)).value;
      var k := FindIndex(db.users, UserById(db.doctors[i].userId)).value;
      var u := db.users[k];
      var nu := UserPatch(u, p);
      forall a, b | 0 <= a < b < |r.store.users|
        ensures r.store.users[a].mobileNumber != r.store.users[b].mobileNumber
      {
        if (a == k || b == k) && nu.mobileNumber != u.mobileNumber {
          var o := if a == k then b else a;
          assert db.users[o].id != u.id;
          assert !OtherWithMobile(nu.mobileNumber, u.id)(db.users[o]);
        }
      }
    }
  }

  /** Changing a doctor's e-mail leaves the linked user's e-mail as it was: the two drift apart. */
  lemma UpdateLeavesUserEmail(db: Db, id: Id, p: DoctorPatch)
    ensures var r := UpdateDoctor(db, id, p);
            |r.store.users| == |db.users| &&
            forall k :: 0 <= k < |db.users| ==> r.store.users[k].email == db.users[k].email
  {
  }
}

=== FILE: legacy_appointments.dfy ===
/** Accepting an appointment in the legacy tree: the same status change, notification and
    e-mail as the healthcare tree, but the chat is looked up per appointment and the
    acceptance note is pushed into its embedded messages. */
module LegacyAppointments {
  import opened Wrappers
  import opened Time
  import opened Records
  import opened Collection
  import opened Lifecycle
  import opened LegacyChats

  const PatientLink: string := "/patient/appointments"

  /** The acceptance note as the doctor's message. */
  function Note(a: Appointment, now: Time): (m: LMessage)
    ensures m.sender == a.consultingDoctor && m.timestamp == now
    ensures m.body == AcceptedNote(a.date, a.time)
    ensures MessageValid(m) <==> a.consultingDoctor != ""
  {
    LMessage(a.consultingDoctor, AcceptedNote(a.date, a.time), now)
  }

  /** `PATCH /:id/accept`: `emailSent` is whether the e-mail went out, which changes nothing.
      The appointment's own chat gets the note; if it has none, a chat is created holding
      only the note. */
  function Accept(s: LStore, id: Id, emailSent: bool, now: Time): (r: Reply<LStore, Appointment>)
    ensures FindIndex(s.db.appointments, AppointmentById(id)).None? <==> r.result == Err(NotFound)
    ensures FindIndex(s.db.appointments, AppointmentById(id)).Some? ==>
      var i := FindIndex(s.db.appointments, AppointmentById(id)).value;
      SaveAppointment(s.db, i, s.db.appointments[i].(status := Accepted), now).Err? ==> r.store == s
    ensures FindIndex(s.db.appointments, AppointmentById(id)).Some? ==>
      var i := FindIndex(s.db.appointments, AppointmentById(id)).value;
      var a := PreSave(s.db.appointments[i].(status := Accepted), now);
      var k := FindIndex(s.chats, ForAppointment(a.doctorId, a.patientId, a.id));
      (r.result.Ok? <==> SaveAppointment(s.db, i, s.db.appointments[i].(status := Accepted), now).Ok?
                         && (k.Some? ==> ChatValid(Post(s.chats[k.value], Note(a, now), now))))
    ensures r.result.Err? ==> r.result.error in {NotFound, ValidationFailed, DuplicateKey}
    ensures r.result.Ok? ==>
      var a := r.result.value;
      var i := FindIndex(s.db.appointments, AppointmentById(id)).value;
      var p := ForAppointment(a.doctorId, a.patientId, a.id);
      && a == PreSave(s.db.appointments[i].(status := Accepted), now)
      && a.status == Accepted
      && r.store.db.appointments == s.db.appointments[i := a]
      && r.store.db.users == s.db.users
      && r.store.db.notifications
           == Delivered(s.db.notifications, Find(s.db.users, UserOfPatient(a.patientId)), s.db.nextId,
                        AcceptedBy(a.consultingDoctor, a.date), AppointmentAccepted, PatientLink, now)
      && (match FindIndex(s.chats, p)
          case Some(k) =>
            r.store.chats == s.chats[k := Post(s.chats[k], Note(a, now), now)]
          case None =>
            && |r.store.chats| == |s.chats| + 1
            && r.store.chats[..|s.chats|] == s.chats
            && var c := r.store.chats[|s.chats|];
               p(c) && c.messages == [Note(a, now)] && c.subject == a.reason && c.lastUpdated == now)
    ensures UniqueCodes(s.db.appointments) ==> UniqueCodes(r.store.db.appointments)
  {
    match FindIndex(s.db.appointments, AppointmentById(id))
    case None => Reply(s, Err(NotFound))
    case Some(i) =>
      match SaveAppointment(s.db, i, s.db.appointments[i].(status := Accepted), now)
      case Err(e) => Reply(s, Err(e))
      case Ok(db1) =>
        var a := db1.appointments[i];
        var db2 := Notify(db1, Find(db1.users, UserOfPatient(a.patientId)),
                          AcceptedBy(a.consultingDoctor, a.date), AppointmentAccepted, PatientLink, now);
        match FindIndex(s.chats, ForAppointment(a.doctorId, a.patientId, a.id))
        case Some(k) =>
          var d := Post(s.chats[k], Note(a, now), now);
          if !ChatValid(d) then Reply(LStore(db2, s.chats), Err(ValidationFailed))
          else Reply(LStore(db2, s.chats[k := d]), Ok(a))
        case None =>
          var c := LChat(db2.nextId, a.doctorId, a.patientId, a.id, a.consultingDoctor, a.patientName,
                         a.reason, [Note(a, now)], now, Some(now), Some(now));
          assert (s.chats + [c])[..|s.chats|] == s.chats;
          // A saved appointment has the names and reason the chat requires.
          assert ChatValid(c);
          Reply(LStore(db2.(nextId := db2.nextId + 1), s.chats + [c]), Ok(a))
  }

  /** Whether the e-mail went out never changes the outcome. */
  lemma EmailIrrelevant(s: LStore, id: Id, now: Time)
    ensures Accept(s, id, true, now) == Accept(s, id, false, now)
  {
  }

  /** Accepting a second time adds a second note to the same chat, not a new chat. */
  lemma {:induction false} ReacceptReusesChat(s: LStore, id: Id, now: Time, later: Time)
    requires UniqueCodes(s.db.appointments)
    requires Accept(s, id, false, now).result.Ok?
    requires var a := Accept(s, id, false, now).result.value;
             forall k :: 0 <= k < |s.chats| ==> !ForAppointment(a.doctorId, a.patientId, a.id)(s.chats[k])
    ensures var r1 := Accept(s, id, false, now);
            var r2 := Accept(r1.store, id, false, later);
            var a := r1.result.value;
            && r2.result.Ok?
            && |r2.store.chats| == |r1.store.chats| == |s.chats| + 1
            && |r2.store.chats[|s.chats|].messages| == 2
  {
    var r1 := Accept(s, id, false, now);
    var a := r1.result.value;
    var p := ForAppointment(a.doctorId, a.patientId, a.id);
    var i := FindIndex(s.db.appointments, AppointmentById(id)).value;
    assert FindIndex(s.chats, p).None?;
    var c := r1.store.chats[|s.chats|];
    assert FindIndex(r1.store.db.appointments, AppointmentById(id)) == Some(i) by {
      assert forall j :: 0 <= j < |r1.store.db.appointments| && j != i ==>
        r1.store.db.appointments[j] == s.db.appointments[j];
      assert r1.store.db.appointments[i].id == id;
    }
    // The re-saved appointment is the accepted one, valid and keeping its code.
    PreSaveIdempotent(s.db.appointments[i].(status := Accepted), now, later);
    assert r1.store.db.appointments[i].(status := Accepted) == a;
    assert SaveAppointment(r1.store.db, i, a, later).Ok?;
    assert forall k :: 0 <= k < |s.chats| ==> r1.store.chats[k] == s.chats[k];
    assert FindIndex(r1.store.chats, p) == Some(|s.chats|);
    assert ChatValid(Post(c, Note(a, later), later));
    var r2 := Accept(r1.store, id, false, later);
    assert r2.result.Ok?;
  }
}

=== FILE: legacy_auth.dfy ===
/** Registration and login in the legacy tree: a duplicate is an existing email only, users have
    no mobile number, and login is by email alone. The legacy user schema (`models/User.js`) is not
    part of this model, so a legacy user is saved without validation. */
module LegacyAuth {
  import opened Wrappers
  import opened Time
  import opened Records
  import opened Collection
  import opened Accounts

  function RegisteredUser(db: Db, q: Registration): User {
    NewUser(db.nextId, q.name, q.email, "", q.password, RolePatient)
  }

  /** `POST /register`. */
  function Register(db: Db, q: Registration, now: Time): (r: Reply<Db, Session>)
    ensures Find(db.users, UserWithEmail(q.email)).Some? <==> r.result == Err(UserExists)
    ensures r.result == Err(UserExists) ==> r.store == db
    ensures r.result.Ok? <==>
      Find(db.users, UserWithEmail(q.email)).None?
      && PatientValid(RegisteredPatient(db.nextId + 1, RegisteredUser(db, q), q, now))
    ensures r.result == Err(ValidationFailed) ==>
      r.store == db.(users := db.users + [RegisteredUser(db, q)], nextId := db.nextId + 1)
    ensures r.result.Ok? ==> |r.store.users| == |db.users| + 1 && r.store.users[..|db.users|] == db.users
    ensures r.result.Ok? ==> |r.store.patients| == |db.patients| + 1 && r.store.patients[..|db.patients|] == db.patients
    ensures r.result.Ok? ==>
      var u := r.store.users[|db.users|];
      var p := r.store.patients[|db.patients|];
      && r.result.value == Session(u, Linked(p.id), Unset)
      && u.role == RolePatient && u.email == q.email && u.password == q.password
      && u.patientId == Some(p.id) && p.userId == u.id && p.name == q.name
      && p.age == OrAbsent(q.age) && p.bloodPressure == OrAbsent(q.bloodPressure)
      && p.glucoseLevel == OrAbsent(q.glucoseLevel) && p.heartRate == OrAbsent(q.heartRate)
      && r.store.doctors == db.doctors && r.store.appointments == db.appointments
  {
    if Find(db.users, UserWithEmail(q.email)).Some? then Reply(db, Err(UserExists))
    else
      var u := RegisteredUser(db, q);
      var p := RegisteredPatient(db.nextId + 1, u, q, now);
      if !PatientValid(p) then Reply(db.(users := db.users + [u], nextId := db.nextId + 1), Err(ValidationFailed))
      else
        var u' := u.(patientId := Some(p.id));
        assert (db.users + [u'])[..|db.users|] == db.users;
        assert (db.patients + [p])[..|db.patients|] == db.patients;
        Reply(db.(users := db.users + [u'], patients := db.patients + [p], nextId := db.nextId + 2),
              Ok(Session(u', Linked(p.id), Unset)))
  }

  /** `POST /login`: by email only. */
  function Login(db: Db, email: string, password: string, matches: Matcher): (r: Result<Session, Failure>)
    ensures r.Err? <==> Find(db.users, UserWithEmail(email)).None?
                        || !matches(password, Find(db.users, UserWithEmail(email)).value.password)
    ensures r.Err? ==> r.error == InvalidCredentials
    ensures r.Ok? ==> r.value.user.email == email && r.value.user in db.users
                      && r.value == Resolve(db, r.value.user)
  {
    Authenticate(db, Find(db.users, UserWithEmail(email)), password, matches)
  }

  /** A login answer resolves only the profile matching the user's role. */
  lemma LoginResolvesOwnRole(db: Db, email: string, password: string, matches: Matcher)
    requires Login(db, email, password, matches).Ok?
    ensures var s := Login(db, email, password, matches).value;
            && (s.user.role == RolePatient ==> s.doctorId == Unset && s.patientId != Unset)
            && (s.user.role == RoleDoctor ==> s.patientId == Unset && s.doctorId != Unset)
            && (s.user.role != RolePatient && s.user.role != RoleDoctor ==> s.patientId == Unset && s.doctorId == Unset)
  {
  }
}

=== FILE: legacy_chats.dfy ===
/** Chats of the legacy tree: one document per chat with its messages embedded, tied to one
    appointment, with no uniqueness index and no per-message read flag. Unread messages are
    those newer than the caller's side's read time and not sent under the caller's name. */
module LegacyChats {
  import opened Wrappers
  import opened Time
  import opened Records
  import opened Collection

  datatype LMessage = LMessage(sender: string, body: Body, timestamp: Time)

  datatype LChat = LChat(
    id: Id, doctorId: Id, patientId: Id, appointmentId: Id, doctorName: string, patientName: string,
    subject: string, messages: seq<LMessage>, lastUpdated: Time,
    lastReadByDoctor: Option<Time>, lastReadByPatient: Option<Time>)

  /** The shared collections plus the legacy chat collection. */
  datatype LStore = LStore(db: Db, chats: seq<LChat>)

  /** `sender` and `text` are required in every embedded message. */
  predicate MessageValid(m: LMessage) {
    m.sender != "" && BodyPresent(m.body)
  }

  /** Schema validation of a chat on `save()`. */
  predicate ChatValid(c: LChat) {
    c.doctorName != "" && c.patientName != "" && c.subject != ""
    && forall k :: 0 <= k < |c.messages| ==> MessageValid(c.messages[k])
  }

  function ChatById(id: Id): LChat -> bool {
    (c: LChat) => c.id == id
  }

  /** `Chat.findOne({ doctorId, patientId, appointmentId })`. */
  function ForAppointment(doctorId: Id, patientId: Id, appointmentId: Id): LChat -> bool {
    (c: LChat) => c.doctorId == doctorId && c.patientId == patientId && c.appointmentId == appointmentId
  }

  function OfDoctor(doctorId: Id): LChat -> bool {
    (c: LChat) => c.doctorId == doctorId
  }

  function OfPatient(patientId: Id): LChat -> bool {
    (c: LChat) => c.patientId == patientId
  }

  /** The read time of the caller's side: a doctor reads the doctor's, anyone else the patient's. */
  function LastRead(c: LChat, role: string): Option<Time> {
    if role == RoleDoctor then c.lastReadByDoctor else c.lastReadByPatient
  }

  function NewerFromOthers(since: Time, userName: string): LMessage -> bool {
    (m: LMessage) => m.timestamp > since && m.sender != userName
  }

  /** `enrichChat`'s unread count; `lastRead || new Date(0)` makes an unset read time the epoch. */
  function UnreadCount(c: LChat, role: string, userName: string): (n: nat)
    ensures n <= |c.messages|
    ensures n == 0 <==> forall k :: 0 <= k < |c.messages| ==>
      c.messages[k].timestamp <= LastRead(c, role).GetOr(0) || c.messages[k].sender == userName
  {
    Count(c.messages, NewerFromOthers(LastRead(c, role).GetOr(0), userName))
  }

  /** Messages under the caller's own name never count, whatever their time. */
  lemma OwnMessagesNeverUnread(c: LChat, role: string, userName: string, t: Time)
    ensures UnreadCount(c.(messages := c.messages + [LMessage(userName, Written("x"), t)]), role, userName)
         == UnreadCount(c, role, userName)
  {
    CountAppend(c.messages, [LMessage(userName, Written("x"), t)], NewerFromOthers(LastRead(c, role).GetOr(0), userName));
  }

  /** A chat with its unread count for the caller. */
  datatype LChatView = LChatView(chat: LChat, unread: nat)

  function UpdatedKey(c: LChat): int {
    c.lastUpdated
  }

  /** The chats satisfying `p`, most recently updated first (`sort({ lastUpdated: -1 })`). */
  function Recent(chats: seq<LChat>, p: LChat -> bool): (r: seq<LChat>)
    ensures |r| == Count(chats, p)
    ensures forall i :: 0 <= i < |r| ==> r[i] in chats && p(r[i])
    ensures forall i, j :: 0 <= i < j < |r| ==> r[i].lastUpdated >= r[j].lastUpdated
    ensures forall k :: 0 <= k < |chats| && p(chats[k]) ==> chats[k] in r
  {
    var r := SortDesc(Filter(chats, p), UpdatedKey);
    assert forall i, j :: 0 <= i < j < |r| ==> UpdatedKey(r[i]) >= UpdatedKey(r[j]);
    r
  }

  function Views(cs: seq<LChat>, role: string, userName: string): (r: seq<LChatView>)
    ensures |r| == |cs|
    ensures forall i :: 0 <= i < |r| ==> r[i] == LChatView(cs[i], UnreadCount(cs[i], role, userName))
  {
    seq(|cs|, i requires 0 <= i < |cs| => LChatView(cs[i], UnreadCount(cs[i], role, userName)))
  }

  /** `GET /doctor/:doctorId`: the doctor's chats, most recently updated first, with the unread
      count of the caller (`userName` is the caller's name). */
  function DoctorChats(s: LStore, doctorId: Id, userName: string): (r: seq<LChatView>)
    ensures |r| == Count(s.chats, OfDoctor(doctorId))
    ensures forall i :: 0 <= i < |r| ==>
      r[i].chat in s.chats && r[i].chat.doctorId == doctorId
      && r[i].unread == UnreadCount(r[i].chat, RoleDoctor, userName)
    ensures forall i, j :: 0 <= i < j < |r| ==> r[i].chat.lastUpdated >= r[j].chat.lastUpdated
    ensures forall k :: 0 <= k < |s.chats| && s.chats[k].doctorId == doctorId ==>
      exists i :: 0 <= i < |r| && r[i].chat == s.chats[k]
  {
    var cs := Recent(s.chats, OfDoctor(doctorId));
    var r := Views(cs, RoleDoctor, userName);
    ViewsCover(cs, r);
    r
  }

  /** `GET /patient/:patientId`: the patient's chats, most recently updated first, with the
      unread count of the caller. */
  function PatientChats(s: LStore, patientId: Id, userName: string): (r: seq<LChatView>)
    ensures |r| == Count(s.chats, OfPatient(patientId))
    ensures forall i :: 0 <= i < |r| ==>
      r[i].chat in s.chats && r[i].chat.patientId == patientId
      && r[i].unread == UnreadCount(r[i].chat, RolePatient, userName)
    ensures forall i, j :: 0 <= i < j < |r| ==> r[i].chat.lastUpdated >= r[j].chat.lastUpdated
    ensures forall k :: 0 <= k < |s.chats| && s.chats[k].patientId == patientId ==>
      exists i :: 0 <= i < |r| && r[i].chat == s.chats[k]
  {
    var cs := Recent(s.chats, OfPatient(patientId));
    var r := Views(cs, RolePatient, userName);
    ViewsCover(cs, r);
    r
  }

  /** Every listed chat has a view. */
  lemma ViewsCover(cs: seq<LChat>, r: seq<LChatView>)
    requires |r| == |cs| && forall i :: 0 <= i < |r| ==> r[i].chat == cs[i]
    ensures forall x :: x in cs ==> exists i :: 0 <= i < |r| && r[i].chat == x
  {
    forall x | x in cs ensures exists i :: 0 <= i < |r| && r[i].chat == x {
      var i :| 0 <= i < |cs| && cs[i] == x;
      assert r[i].chat == x;
    }
  }

  /** The body of `POST /`; the three ids are required by the schema. */
  datatype LChatRequest = LChatRequest(
    doctorId: Option<Id>, patientId: Option<Id>, appointmentId: Option<Id>, doctorName: string, patientName: string,
    subject: string, messages: seq<LMessage>)

  /** `POST /`: `new Chat(req.body).save()`, with no lookup for an existing chat. */
  function CreateChat(s: LStore, q: LChatRequest, now: Time): (r: Reply<LStore, LChat>)
    ensures q.doctorId.None? || q.patientId.None? || q.appointmentId.None? ==> r.result == Err(ValidationFailed)
    ensures r.result.Err? ==> r.store == s && r.result.error == ValidationFailed
    ensures r.result.Ok? <==> q.doctorId.Some? && q.patientId.Some? && q.appointmentId.Some? && q.doctorName != "" && q.patientName != ""
                              && q.subject != "" && forall k :: 0 <= k < |q.messages| ==> MessageValid(q.messages[k])
    ensures r.result.Ok? ==>
      var c := r.result.value;
      && r.store.chats == s.chats + [c]
      && c.doctorId == q.doctorId.value && c.patientId == q.patientId.value && c.appointmentId == q.appointmentId.value
      && c.messages == q.messages && c.lastUpdated == now
      && r.store.db == s.db.(nextId := s.db.nextId + 1)
  {
    if q.doctorId.None? || q.patientId.None? || q.appointmentId.None? then Reply(s, Err(ValidationFailed))
    else
      var c := LChat(s.db.nextId, q.doctorId.value, q.patientId.value, q.appointmentId.value, q.doctorName,
                     q.patientName, q.subject, q.messages, now, Some(now), Some(now));
      if !ChatValid(c) then Reply(s, Err(ValidationFailed))
      else Reply(LStore(s.db.(nextId := s.db.nextId + 1), s.chats + [c]), Ok(c))
  }

  /** Posting the same chat twice stores two chats for one appointment. */
  lemma CreateChatDuplicates(s: LStore, q: LChatRequest, now: Time, later: Time)
    requires CreateChat(s, q, now).result.Ok?
    ensures var r1 := CreateChat(s, q, now);
            var r2 := CreateChat(r1.store, q, later);
            r2.result.Ok?
            && Count(r2.store.chats, ForAppointment(q.doctorId.value, q.patientId.value, q.appointmentId.value))
               == Count(s.chats, ForAppointment(q.doctorId.value, q.patientId.value, q.appointmentId.value)) + 2
  {
    var r1 := CreateChat(s, q, now);
    var r2 := CreateChat(r1.store, q, later);
    var p := ForAppointment(q.doctorId.value, q.patientId.value, q.appointmentId.value);
    CountAppend(s.chats, [r1.result.value], p);
    CountAppend(r1.store.chats, [r2.result.value], p);
  }

  /** Push one message and stamp `lastUpdated`; `save()` then validates the whole chat. */
  function Post(c: LChat, m: LMessage, now: Time): (d: LChat)
    ensures d.messages == c.messages + [m] && d.lastUpdated == now
    ensures ChatValid(d) <==> ChatValid(c) && MessageValid(m)
    ensures d == c.(messages := d.messages, lastUpdated := now)
  {
    var d := c.(messages := c.messages + [m], lastUpdated := now);
    assert forall k :: 0 <= k < |c.messages| ==> d.messages[k] == c.messages[k];
    assert d.messages[|c.messages|] == m;
    d
  }

  /** `POST /:id/messages`. */
  function AddMessage(s: LStore, chatId: Id, sender: string, text: string, now: Time): (r: Reply<LStore, LChat>)
    ensures FindIndex(s.chats, ChatById(chatId)).None? <==> r.result == Err(NotFound)
    ensures r.result.Err? ==> r.store == s
    ensures FindIndex(s.chats, ChatById(chatId)).Some? && (sender == "" || text == "")
            ==> r.result == Err(ValidationFailed)
    ensures r.result.Err? ==> r.result == Err(NotFound) || r.result == Err(ValidationFailed)
    ensures FindIndex(s.chats, ChatById(chatId)).Some? ==>
      (r.result.Ok? <==> ChatValid(s.chats[FindIndex(s.chats, ChatById(chatId)).value]) && sender != "" && text != "")
    ensures r.result.Ok? ==>
      var i := FindIndex(s.chats, ChatById(chatId)).value;
      && r.result.value.messages == s.chats[i].messages + [LMessage(sender, Written(text), now)]
      && r.result.value.lastUpdated == now
      && r.store == s.(chats := s.chats[i := r.result.value])
  {
    match FindIndex(s.chats, ChatById(chatId))
    case None => Reply(s, Err(NotFound))
    case Some(i) =>
      var d := Post(s.chats[i], LMessage(sender, Written(text), now), now);
      assert d.messages[|d.messages| - 1] == LMessage(sender, Written(text), now);
      if !ChatValid(d) then Reply(s, Err(ValidationFailed))
      else Reply(s.(chats := s.chats[i := d]), Ok(d))
  }

  /** `PATCH /:id/read`: a doctor stamps the doctor's read time, a patient the patient's;
      any other role is refused without a write. */
  function MarkAsRead(s: LStore, chatId: Id, role: string, now: Time): (r: Reply<LStore, ()>)
    ensures FindIndex(s.chats, ChatById(chatId)).None? <==> r.result == Err(NotFound)
    ensures FindIndex(s.chats, ChatById(chatId)).Some? && role != RoleDoctor && role != RolePatient
            ==> r.result == Err(Forbidden)
    ensures r.result.Err? ==> r.store == s
    ensures FindIndex(s.chats, ChatById(chatId)).Some? && (role == RoleDoctor || role == RolePatient) ==>
      (r.result.Ok? <==> ChatValid(s.chats[FindIndex(s.chats, ChatById(chatId)).value]))
    ensures r.result.Ok? ==>
      var i := FindIndex(s.chats, ChatById(chatId)).value;
      var c := s.chats[i];
      r.store == s.(chats := s.chats[i := if role == RoleDoctor then c.(lastReadByDoctor := Some(now))
                                           else c.(lastReadByPatient := Some(now))])
  {
    match FindIndex(s.chats, ChatById(chatId))
    case None => Reply(s, Err(NotFound))
    case Some(i) =>
      var c := s.chats[i];
      if role != RoleDoctor && role != RolePatient then Reply(s, Err(Forbidden))
      else
        var d := if role == RoleDoctor then c.(lastReadByDoctor := Some(now)) else c.(lastReadByPatient := Some(now));
        if !ChatValid(d) then Reply(s, Err(ValidationFailed))
        else Reply(s.(chats := s.chats[i := d]), Ok(()))
  }

  /** After marking read, nothing posted up to that moment is unread for the caller's side. */
  lemma MarkAsReadClearsUnread(s: LStore, chatId: Id, role: string, userName: string, now: Time)
    requires MarkAsRead(s, chatId, role, now).result.Ok?
    requires var c := s.chats[FindIndex(s.chats, ChatById(chatId)).value];
             forall k :: 0 <= k < |c.messages| ==> c.messages[k].timestamp <= now
    ensures var r := MarkAsRead(s, chatId, role, now);
            UnreadCount(r.store.chats[FindIndex(s.chats, ChatById(chatId)).value], role, userName) == 0
  {
  }

  /** `DELETE /:id` (`findByIdAndDelete`). */
  function DeleteChat(s: LStore, chatId: Id): (r: Reply<LStore, ()>)
    ensures FindIndex(s.chats, ChatById(chatId)).None? <==> r.result == Err(NotFound)
    ensures r.result.Err? ==> r.result == Err(NotFound) && r.store == s
    ensures r.result.Ok? ==> var i := FindIndex(s.chats, ChatById(chatId)).value;
      r.store == s.(chats := s.chats[..i] + s.chats[i + 1..])
    ensures |r.store.chats| == |s.chats| - (if r.result.Ok? then 1 else 0)
  {
    match FindIndex(s.chats, ChatById(chatId))
    case None => Reply(s, Err(NotFound))
    case Some(i) => Reply(s.(chats := s.chats[..i] + s.chats[i + 1..]), Ok(()))
  }

  /** A created chat is listed for its doctor and for its patient. */
  lemma CreateThenListed(s: LStore, q: LChatRequest, now: Time, userName: string)
    requires CreateChat(s, q, now).result.Ok?
    ensures var r := CreateChat(s, q, now);
            && (exists i :: 0 <= i < |DoctorChats(r.store, q.doctorId.value, userName)|
                  && DoctorChats(r.store, q.doctorId.value, userName)[i].chat == r.result.value)
            && (exists i :: 0 <= i < |PatientChats(r.store, q.patientId.value, userName)|
                  && PatientChats(r.store, q.patientId.value, userName)[i].chat == r.result.value)
  {
    var r := CreateChat(s, q, now);
    var k := |s.chats|;
    assert r.store.chats[k] == r.result.value;
    assert r.store.chats[k].doctorId == q.doctorId.value && r.store.chats[k].patientId == q.patientId.value;
    var ds := DoctorChats(r.store, q.doctorId.value, userName);
    var ps := PatientChats(r.store, q.patientId.value, userName);
  }

  /** A posted message adds one to the reader's unread count exactly when it is newer than the
      reader's side's read time and not sent under the reader's name. */
  lemma AddMessageUnread(s: LStore, chatId: Id, sender: string, text: string, now: Time,
                         role: string, userName: string)
    requires AddMessage(s, chatId, sender, text, now).result.Ok?
    ensures var c := s.chats[FindIndex(s.chats, ChatById(chatId)).value];
            var d := AddMessage(s, chatId, sender, text, now).result.value;
            UnreadCount(d, role, userName)
              == UnreadCount(c, role, userName)
                 + (if now > LastRead(c, role).GetOr(0) && sender != userName then 1 else 0)
  {
    var c := s.chats[FindIndex(s.chats, ChatById(chatId)).value];
    CountAppend(c.messages, [LMessage(sender, Written(text), now)], NewerFromOthers(LastRead(c, role).GetOr(0), userName));
  }

  /** Deleting a chat removes exactly one chat with the id; with unique chat ids a second
      delete is NotFound. */
  lemma DeleteChatRemovesOne(s: LStore, chatId: Id)
    requires FindIndex(s.chats, ChatById(chatId)).Some?
    ensures Count(DeleteChat(s, chatId).store.chats, ChatById(chatId)) == Count(s.chats, ChatById(chatId)) - 1
    ensures Count(s.chats, ChatById(chatId)) <= 1 ==>
            DeleteChat(DeleteChat(s, chatId).store, chatId).result == Err(NotFound)
  {
    var i := FindIndex(s.chats, ChatById(chatId)).value;
    CountRemoveAt(s.chats, i, ChatById(chatId));
    if Count(s.chats, ChatById(chatId)) <= 1 {
      RemoveOnlyMatch(s.chats, i, ChatById(chatId));
    }
  }
}

=== FILE: lifecycle.dfy ===
/** The appointment operations whose code is the same in both trees: booking, completing,
    rescheduling, the generic PUT and DELETE. Accepting differs between the trees (it also
    opens a chat) and lives in the per-tree modules, built on `SaveAppointment` here. */
module Lifecycle {
  import opened Wrappers
  import opened Time
  import opened Records
  import opened Collection
  import Text

  /** The body of a booking request. */
  datatype Booking = Booking(
    date: Option<Time>, time: string, reason: string, kind: string, consultingDoctor: string,
    doctorId: Option<Id>, patientId: Option<Id>, patientName: string, patientEmail: string, patientGender: string,
    patientAge: Option<real>, notes: string,
    bloodPressure: Option<real>, glucoseLevel: Option<real>, heartRate: Option<real>)

  /** The appointment document a booking constructs, after the schema setters have run;
      `date`, `age`, `doctorId` and `patientId` are the request's values for the required
      fields, which the booking has found present. */
  function Draft(id: Id, b: Booking, date: Time, age: real, doctorId: Id, patientId: Id, now: Time): (a: Appointment)
    ensures a.patientEmail == Text.Normalise(b.patientEmail)
    ensures a.status == Scheduled && a.code == Code(now) && a.notes == b.notes
    ensures a.patientName == Text.Trim(b.patientName) && Text.Trimmed(a.patientName)
    ensures a.doctorId == doctorId && a.patientId == patientId && a.date == date && a.patientAge == age
  {
    Text.TrimIsTrimmed(b.patientName);
    Appointment(id, Code(now), Text.Trim(b.patientName), Text.Normalise(b.patientEmail),
      b.patientGender, age, date, b.time, Text.Trim(b.reason), b.kind, b.consultingDoctor,
      b.notes, doctorId, patientId, Scheduled)
  }

  /** Every required field of a booking is present in the request. */
  predicate HasRequired(b: Booking) {
    b.date.Some? && b.patientAge.Some? && b.doctorId.Some? && b.patientId.Some?
  }

  /** The drafted appointment of a booking whose required fields are present. */
  function DraftOf(id: Id, b: Booking, now: Time): Appointment
    requires HasRequired(b)
  {
    Draft(id, b, b.date.value, b.patientAge.value, b.doctorId.value, b.patientId.value, now)
  }

  /** The inbox `ns` after notifying `user`, when one was found: one unread notification
      for that user's account, with the given id, notice, kind, link and time, at the end. */
  function Delivered(ns: seq<Notification>, user: Option<User>, id: Id, notice: Notice, kind: NoticeKind,
                     link: string, now: Time): (r: seq<Notification>)
    ensures user.None? ==> r == ns
    ensures user.Some? ==> |r| == |ns| + 1 && r[..|ns|] == ns
    ensures user.Some? ==> r[|ns|].userId == user.value.id && !r[|ns|].read && r[|ns|].id == id
  {
    if user.None? then ns else ns + [Notification(id, user.value.id, notice, kind, false, link, now)]
  }

  /** Add a notification for `user`, when one was found. */
  function Notify(db: Db, user: Option<User>, notice: Notice, kind: NoticeKind, link: string, now: Time): (r: Db)
    ensures user.None? ==> r == db
    ensures user.Some? ==>
      r.notifications == db.notifications + [Notification(db.nextId, user.value.id, notice, kind, false, link, now)]
    ensures r.notifications == Delivered(db.notifications, user, db.nextId, notice, kind, link, now)
    ensures r == db.(notifications := r.notifications, nextId := r.nextId)
  {
    if user.None? then db
    else db.(notifications := db.notifications
               + [Notification(db.nextId, user.value.id, notice, kind, false, link, now)],
             nextId := db.nextId + 1)
  }

  /** The vitals of `p` after a booking: only truthy values are copied; 0 and absent are ignored. */
  function BookedVitals(p: Patient, bp: Option<real>, glucose: Option<real>, heart: Option<real>): (q: Patient)
    ensures q.bloodPressure == if Truthy(bp) then bp else p.bloodPressure
    ensures q.glucoseLevel == if Truthy(glucose) then glucose else p.glucoseLevel
    ensures q.heartRate == if Truthy(heart) then heart else p.heartRate
    ensures q == p.(bloodPressure := q.bloodPressure, glucoseLevel := q.glucoseLevel, heartRate := q.heartRate)
  {
    p.(bloodPressure := if Truthy(bp) then bp else p.bloodPressure,
       glucoseLevel := if Truthy(glucose) then glucose else p.glucoseLevel,
       heartRate := if Truthy(heart) then heart else p.heartRate)
  }

  function VitalsOf(bp: Option<real>, glucose: Option<real>, heart: Option<real>): Patient -> Patient {
    p => BookedVitals(p, bp, glucose, heart)
  }

  /** Book an appointment: validate and insert it, copy truthy vitals to the patient, and
      notify the doctor's user account if there is one. */
  function Book(db: Db, b: Booking, now: Time): (r: Reply<Db, Appointment>)
    ensures r.result.Err? ==> r.store == db
    ensures !HasRequired(b) ==> r.result == Err(ValidationFailed)
    ensures b.patientAge.Some? && b.patientAge.value < 0.0 ==> r.result == Err(ValidationFailed)
    ensures !IsAppointmentGender(b.patientGender) ==> r.result == Err(ValidationFailed)
    ensures Text.Trim(b.patientName) == "" || Text.Trim(b.patientEmail) == "" ==> r.result == Err(ValidationFailed)
    ensures CodeTaken(db.appointments, Code(now), -1) ==> r.result.Err?
    ensures r.result.Err? ==> r.result == Err(ValidationFailed) || r.result == Err(DuplicateKey)
    ensures r.result.Ok? <==>
      && HasRequired(b)
      && AppointmentValid(DraftOf(db.nextId, b, now))
      && !CodeTaken(db.appointments, Code(now), -1)
    ensures r.result.Ok? ==> r.result.value == DraftOf(db.nextId, b, now)
    ensures r.result.Ok? ==>
      var a := r.result.value;
      && AppointmentValid(a) && a.status == Scheduled && a.code == Code(now) && a.notes == b.notes
      && a.patientEmail == Text.Normalise(b.patientEmail) && a.patientAge == b.patientAge.value
      && b.doctorId == Some(a.doctorId) && b.patientId == Some(a.patientId)
      && r.store.appointments == db.appointments + [a]
      && r.store.users == db.users && r.store.doctors == db.doctors && r.store.ratings == db.ratings
      && r.store.patients == (if Truthy(b.bloodPressure) || Truthy(b.glucoseLevel) || Truthy(b.heartRate)
                              then UpdateFirst(db.patients, PatientById(a.patientId),
                                     VitalsOf(b.bloodPressure, b.glucoseLevel, b.heartRate))
                              else db.patients)
      && r.store.notifications
           == Delivered(db.notifications, Find(db.users, UserOfDoctor(a.doctorId)), db.nextId + 1,
                        BookedBy(b.patientName, b.date.value), AppointmentBooked, "/doctor/appointments", now)
    ensures UniqueCodes(db.appointments) ==> UniqueCodes(r.store.appointments)
  {
    if !HasRequired(b) then Reply(db, Err(ValidationFailed))
    else
      var a := DraftOf(db.nextId, b, now);
      if !AppointmentValid(a) then Reply(db, Err(ValidationFailed))
      else if CodeTaken(db.appointments, a.code, -1) then Reply(db, Err(DuplicateKey))
      else
        var db1 := db.(appointments := db.appointments + [a], nextId := db.nextId + 1);
        var db2 := if Truthy(b.bloodPressure) || Truthy(b.glucoseLevel) || Truthy(b.heartRate)
                   then db1.(patients := UpdateFirst(db1.patients, PatientById(a.patientId),
                                           VitalsOf(b.bloodPressure, b.glucoseLevel, b.heartRate)))
                   else db1;
        var db3 := Notify(db2, Find(db2.users, UserOfDoctor(a.doctorId)),
                          BookedBy(b.patientName, b.date.value), AppointmentBooked, "/doctor/appointments", now);
        UniqueAfterAppend(db.appointments, a);
        Reply(db3, Ok(a))
  }

  /** A booking whose vitals are all absent or 0 leaves every patient record as it was. */
  lemma BookWithoutVitals(db: Db, b: Booking, now: Time)
    requires !Truthy(b.bloodPressure) && !Truthy(b.glucoseLevel) && !Truthy(b.heartRate)
    ensures Book(db, b, now).store.patients == db.patients
  {
  }

  /** A booking that gives a vital as 0 leaves that vital of the patient unchanged. */
  lemma BookIgnoresZeroVital(db: Db, b: Booking, now: Time, i: nat)
    requires b.bloodPressure == Some(0.0) && i < |db.patients|
    ensures Book(db, b, now).store.patients[i].bloodPressure == db.patients[i].bloodPressure
  {
  }

  /** A patient name made only of a no-break space is blank to the required validator, so the
      booking is refused. */
  lemma BookRefusesNoBreakSpaceName(db: Db, b: Booking, now: Time)
    requires b.patientName == "\U{00A0}"
    ensures Book(db, b, now).result == Err(ValidationFailed)
  {
    Text.TrimNoBreakSpace();
  }

  /** `save()` of the appointment at index `i` with new contents `a`: validation first, then
      the pre-save hook, then the unique index on the code. */
  function SaveAppointment(db: Db, i: nat, a: Appointment, now: Time): (r: Result<Db, Failure>)
    requires i < |db.appointments|
    ensures !AppointmentValid(a) ==> r == Err(ValidationFailed)
    ensures r.Ok? ==> AppointmentValid(a) && r.value == db.(appointments := db.appointments[i := PreSave(a, now)])
    ensures r.Err? ==> r == Err(ValidationFailed) || r == Err(DuplicateKey)
    ensures r.Ok? && UniqueCodes(db.appointments) ==> UniqueCodes(r.value.appointments)
    ensures AppointmentValid(a) && a.code != "" && a.code == db.appointments[i].code && UniqueCodes(db.appointments) ==> r.Ok?
  {
    if !AppointmentValid(a) then Err(ValidationFailed)
    else
      var a' := PreSave(a, now);
      if CodeTaken(db.appointments, a'.code, i) then Err(DuplicateKey)
      else
        UniqueAfterSet(db.appointments, i, a');
        Ok(db.(appointments := db.appointments[i := a']))
  }

  /** Mark an appointment completed, whatever its status was. */
  function Complete(db: Db, id: Id, now: Time): (r: Reply<Db, Appointment>)
    ensures FindIndex(db.appointments, AppointmentById(id)).None? <==> r.result == Err(NotFound)
    ensures r.result.Err? ==> r.store == db
    ensures r.result.Ok? ==>
      var i := FindIndex(db.appointments, AppointmentById(id)).value;
      && r.result.value.status == Completed
      && r.result.value == PreSave(db.appointments[i].(status := Completed), now)
      && r.store == db.(appointments := db.appointments[i := r.result.value])
    ensures UniqueCodes(db.appointments) ==> UniqueCodes(r.store.appointments)
  {
    match FindIndex(db.appointments, AppointmentById(id))
    case None => Reply(db, Err(NotFound))
    case Some(i) =>
      match SaveAppointment(db, i, db.appointments[i].(status := Completed), now)
      case Err(e) => Reply(db, Err(e))
      case Ok(db1) => Reply(db1, Ok(db1.appointments[i]))
  }

  /** Completing has no prior-state guard: an accepted, cancelled or already completed
      appointment is completed alike, as long as its other fields still validate. */
  lemma CompleteFromAnyStatus(db: Db, id: Id, now: Time)
    requires UniqueCodes(db.appointments)
    requires FindIndex(db.appointments, AppointmentById(id)).Some?
    requires var a := db.appointments[FindIndex(db.appointments, AppointmentById(id)).value];
             AppointmentValid(a.(status := Completed)) && a.code != ""
    ensures Complete(db, id, now).result.Ok?
  {
  }

  /** Move an accepted appointment to a new date and time, and notify the patient. */
  function Reschedule(db: Db, id: Id, date: Option<Time>, time: string, now: Time): (r: Reply<Db, Appointment>)
    ensures FindIndex(db.appointments, AppointmentById(id)).None? <==> r.result == Err(NotFound)
    ensures r.result.Err? ==> r.store == db
    ensures FindIndex(db.appointments, AppointmentById(id)).Some?
            && db.appointments[FindIndex(db.appointments, AppointmentById(id)).value].status != Accepted
            ==> r.result == Err(InvalidState)
    ensures r.result.Err? ==> r.result.error in {NotFound, InvalidState, ValidationFailed, DuplicateKey}
    ensures FindIndex(db.appointments, AppointmentById(id)).Some? ==>
      var i := FindIndex(db.appointments, AppointmentById(id)).value;
      var old_ := db.appointments[i];
      old_.status == Accepted ==>
        (r.result.Ok? <==> date.Some? && SaveAppointment(db, i, old_.(date := date.value, time := time), now).Ok?)
    ensures r.result.Ok? ==>
      var i := FindIndex(db.appointments, AppointmentById(id)).value;
      var old_ := db.appointments[i];
      && old_.status == Accepted && date.Some?
      && r.result.value == PreSave(old_.(date := date.value, time := time), now)
      && r.result.value.status == Accepted
      && r.store.appointments == db.appointments[i := r.result.value]
      && r.store.patients == db.patients && r.store.users == db.users
      && r.store.notifications
           == Delivered(db.notifications, Find(db.users, UserOfPatient(old_.patientId)), db.nextId,
                        RescheduledTo(old_.consultingDoctor, date.value, time), AppointmentRescheduled,
                        "/patient/appointments", now)
    ensures UniqueCodes(db.appointments) ==> UniqueCodes(r.store.appointments)
  {
    match FindIndex(db.appointments, AppointmentById(id))
    case None => Reply(db, Err(NotFound))
    case Some(i) =>
      var a := db.appointments[i];
      if a.status != Accepted then Reply(db, Err(InvalidState))
      else if date.None? then Reply(db, Err(ValidationFailed))
      else
        match SaveAppointment(db, i, a.(date := date.value, time := time), now)
        case Err(e) => Reply(db, Err(e))
        case Ok(db1) =>
          var db2 := Notify(db1, Find(db1.users, UserOfPatient(a.patientId)),
                            RescheduledTo(a.consultingDoctor, date.value, time),
                            AppointmentRescheduled, "/patient/appointments", now);
          Reply(db2, Ok(db1.appointments[i]))
  }

  /** An accepted appointment whose new date and time still validate is moved, and looking it
      up afterwards finds it at the new date and time. */
  lemma RescheduleMoves(db: Db, id: Id, date: Time, time: string, now: Time)
    requires UniqueCodes(db.appointments)
    requires FindIndex(db.appointments, AppointmentById(id)).Some?
    requires var a := db.appointments[FindIndex(db.appointments, AppointmentById(id)).value];
             a.status == Accepted && a.code != "" && AppointmentValid(a.(date := date, time := time))
    ensures var r := Reschedule(db, id, Some(date), time, now);
            && r.result.Ok? && r.result.value.date == date && r.result.value.time == time
            && Find(r.store.appointments, AppointmentById(id)) == Some(r.result.value)
  {
    var i := FindIndex(db.appointments, AppointmentById(id)).value;
    var a := db.appointments[i];
    assert SaveAppointment(db, i, a.(date := date, time := time), now).Ok?;
    var r := Reschedule(db, id, Some(date), time, now);
    FindAfterSet(db.appointments, AppointmentById(id), i, r.result.value);
  }

  /** The generic PUT body: every field may be given. */
  datatype Patch = Patch(
    code: Option<string>, patientName: Option<string>, patientEmail: Option<string>,
    patientGender: Option<string>, patientAge: Option<real>, date: Option<Time>, time: Option<string>,
    reason: Option<string>, kind: Option<string>, consultingDoctor: Option<string>, notes: Option<string>,
    doctorId: Option<Id>, patientId: Option<Id>, status: Option<string>)

  /** `findByIdAndUpdate(id, body)`: the setters run (trim, lowercase), the validators do not. */
  function ApplyPatch(a: Appointment, p: Patch): (r: Appointment)
    ensures r.id == a.id
    ensures r.code == p.code.GetOr(a.code)
    ensures r.patientName == if p.patientName.Some? then Text.Trim(p.patientName.value) else a.patientName
    ensures r.patientEmail == if p.patientEmail.Some? then Text.Normalise(p.patientEmail.value) else a.patientEmail
    ensures r.patientGender == p.patientGender.GetOr(a.patientGender)
    ensures r.patientAge == p.patientAge.GetOr(a.patientAge)
    ensures r.date == p.date.GetOr(a.date) && r.time == p.time.GetOr(a.time)
    ensures r.reason == if p.reason.Some? then Text.Trim(p.reason.value) else a.reason
    ensures r.kind == p.kind.GetOr(a.kind) && r.consultingDoctor == p.consultingDoctor.GetOr(a.consultingDoctor)
    ensures r.notes == p.notes.GetOr(a.notes)
    ensures r.doctorId == p.doctorId.GetOr(a.doctorId) && r.patientId == p.patientId.GetOr(a.patientId)
    ensures r.status == p.status.GetOr(a.status)
    ensures p == Patch(None, None, None, None, None, None, None, None, None, None, None, None, None, None) ==> r == a
  {
    a.(code := p.code.GetOr(a.code),
       patientName := if p.patientName.Some? then Text.Trim(p.patientName.value) else a.patientName,
       patientEmail := if p.patientEmail.Some? then Text.Normalise(p.patientEmail.value) else a.patientEmail,
       patientGender := p.patientGender.GetOr(a.patientGender),
       patientAge := p.patientAge.GetOr(a.patientAge),
       date := p.date.GetOr(a.date),
       time := p.time.GetOr(a.time),
       reason := if p.reason.Some? then Text.Trim(p.reason.value) else a.reason,
       kind := p.kind.GetOr(a.kind),
       consultingDoctor := p.consultingDoctor.GetOr(a.consultingDoctor),
       notes := p.notes.GetOr(a.notes),
       doctorId := p.doctorId.GetOr(a.doctorId),
       patientId := p.patientId.GetOr(a.patientId),
       status := p.status.GetOr(a.status))
  }

  /** The generic PUT. Only the unique index on the code is enforced. */
  function Update(db: Db, id: Id, p: Patch): (r: Reply<Db, Appointment>)
    ensures FindIndex(db.appointments, AppointmentById(id)).None? <==> r.result == Err(NotFound)
    ensures r.result.Err? ==> r.store == db
    ensures r.result.Err? ==> r.result == Err(NotFound) || r.result == Err(DuplicateKey)
    ensures r.result.Ok? <==>
      && FindIndex(db.appointments, AppointmentById(id)).Some?
      && var i := FindIndex(db.appointments, AppointmentById(id)).value;
         !CodeTaken(db.appointments, ApplyPatch(db.appointments[i], p).code, i)
    ensures r.result.Ok? ==>
      var i := FindIndex(db.appointments, AppointmentById(id)).value;
      && r.result.value == ApplyPatch(db.appointments[i], p)
      && r.store == db.(appointments := db.appointments[i := r.result.value])
    ensures UniqueCodes(db.appointments) ==> UniqueCodes(r.store.appointments)
  {
    match FindIndex(db.appointments, AppointmentById(id))
    case None => Reply(db, Err(NotFound))
    case Some(i) =>
      var a := ApplyPatch(db.appointments[i], p);
      if CodeTaken(db.appointments, a.code, i) then Reply(db, Err(DuplicateKey))
      else
        UniqueAfterSet(db.appointments, i, a);
        Reply(db.(appointments := db.appointments[i := a]), Ok(a))
  }

  /** After a successful PUT, looking the appointment up finds the patched one. */
  lemma UpdateThenFind(db: Db, id: Id, p: Patch)
    requires Update(db, id, p).result.Ok?
    ensures var r := Update(db, id, p);
            Find(r.store.appointments, AppointmentById(id)) == Some(r.result.value)
  {
    var i := FindIndex(db.appointments, AppointmentById(id)).value;
    FindAfterSet(db.appointments, AppointmentById(id), i, Update(db, id, p).result.value);
  }

  /** A PUT with an empty body in a store of unique codes answers the appointment as it is
      and changes nothing. */
  lemma UpdateEmptyPatch(db: Db, id: Id)
    requires UniqueCodes(db.appointments)
    requires FindIndex(db.appointments, AppointmentById(id)).Some?
    ensures var empty := Patch(None, None, None, None, None, None, None, None, None, None, None, None, None, None);
            Update(db, id, empty)
              == Reply(db, Ok(db.appointments[FindIndex(db.appointments, AppointmentById(id)).value]))
  {
    var i := FindIndex(db.appointments, AppointmentById(id)).value;
    var empty := Patch(None, None, None, None, None, None, None, None, None, None, None, None, None, None);
    assert ApplyPatch(db.appointments[i], empty) == db.appointments[i];
    assert db.(appointments := db.appointments[i := db.appointments[i]]) == db;
  }

  /** The PUT bypasses the transition rules and even the status enum: any string is stored. */
  lemma UpdateBypassesStatusRules(db: Db, id: Id, status: string)
    requires UniqueCodes(db.appointments)
    requires FindIndex(db.appointments, AppointmentById(id)).Some?
    ensures var r := Update(db, id, Patch(None, None, None, None, None, None, None, None, None, None, None, None, None, Some(status)));
            r.result.Ok? && r.result.value.status == status
  {
    var i := FindIndex(db.appointments, AppointmentById(id)).value;
    var a := db.appointments[i];
    var p := Patch(None, None, None, None, None, None, None, None, None, None, None, None, None, Some(status));
    assert ApplyPatch(a, p).code == a.code;
  }

  /** `findByIdAndDelete`. */
  function Delete(db: Db, id: Id): (r: Reply<Db, Appointment>)
    ensures FindIndex(db.appointments, AppointmentById(id)).None? <==> r.result == Err(NotFound)
    ensures r.result.Err? ==> r.result == Err(NotFound) && r.store == db
    ensures r.result.Ok? ==>
      var i := FindIndex(db.appointments, AppointmentById(id)).value;
      && r.result.value == db.appointments[i]
      && r.store == db.(appointments := db.appointments[..i] + db.appointments[i + 1..])
      && |r.store.appointments| == |db.appointments| - 1
    ensures UniqueCodes(db.appointments) ==> UniqueCodes(r.store.appointments)
  {
    match FindIndex(db.appointments, AppointmentById(id))
    case None => Reply(db, Err(NotFound))
    case Some(i) =>
      var rest := db.appointments[..i] + db.appointments[i + 1..];
      assert forall k :: 0 <= k < |rest| ==> rest[k] == db.appointments[if k < i then k else k + 1];
      Reply(db.(appointments := rest), Ok(db.appointments[i]))
  }

  /** A delete removes exactly one appointment with the id; when ids are unique, a second
      delete of the same id is NotFound. */
  lemma DeleteRemovesOne(db: Db, id: Id)
    requires FindIndex(db.appointments, AppointmentById(id)).Some?
    ensures var r := Delete(db, id);
            Count(r.store.appointments, AppointmentById(id)) == Count(db.appointments, AppointmentById(id)) - 1
    ensures Count(db.appointments, AppointmentById(id)) <= 1 ==>
            Delete(Delete(db, id).store, id).result == Err(NotFound)
  {
    var i := FindIndex(db.appointments, AppointmentById(id)).value;
    CountRemoveAt(db.appointments, i, AppointmentById(id));
    if Count(db.appointments, AppointmentById(id)) <= 1 {
      RemoveOnlyMatch(db.appointments, i, AppointmentById(id));
    }
  }
}

=== FILE: notifications.dfy ===
/** The read state of a user's notifications. Listing, mark-one, mark-all and clear are the same
    in both trees, and each is scoped by the caller's user id. */
module Notifications {
  import opened Wrappers
  import opened Records
  import opened Collection

  function OwnedBy(user: Id): Notification -> bool {
    (n: Notification) => n.userId == user
  }

  function CreatedKey(n: Notification): int {
    n.createdAt
  }

  /** `find({ userId }).sort({ createdAt: -1 })`: exactly the caller's notifications, newest
      first (equal times in an unspecified order). */
  function List(ns: seq<Notification>, user: Id): (r: seq<Notification>)
    ensures |r| == Count(ns, OwnedBy(user))
    ensures forall i :: 0 <= i < |r| ==> r[i] in ns && r[i].userId == user
    ensures forall k :: 0 <= k < |ns| && ns[k].userId == user ==> ns[k] in r
    ensures forall i, j :: 0 <= i < j < |r| ==> r[i].createdAt >= r[j].createdAt
    ensures multiset(r) == multiset(Filter(ns, OwnedBy(user)))
  {
    SortDesc(Filter(ns, OwnedBy(user)), CreatedKey)
  }

  /** The `{ _id, userId }` filter of mark-one. */
  function Mine(id: Id, user: Id): Notification -> bool {
    (n: Notification) => n.id == id && n.userId == user
  }

  function SetRead(n: Notification): Notification {
    n.(read := true)
  }

  /** `PATCH /:id/read`: `findOneAndUpdate({ _id, userId }, { read: true })`. A notification
      that does not exist or belongs to someone else is NotFound and nothing changes. */
  function MarkRead(ns: seq<Notification>, id: Id, user: Id): (r: Reply<seq<Notification>, Notification>)
    ensures FindIndex(ns, Mine(id, user)).None? <==> r.result == Err(NotFound)
    ensures r.result.Err? ==> r.result == Err(NotFound) && r.store == ns
    ensures r.result.Ok? ==>
      var i := FindIndex(ns, Mine(id, user)).value;
      && r.result.value == ns[i].(read := true)
      && ns[i].id == id && ns[i].userId == user
      && r.store == ns[i := r.result.value]
  {
    match FindIndex(ns, Mine(id, user))
    case None => Reply(ns, Err(NotFound))
    case Some(i) => Reply(ns[i := SetRead(ns[i])], Ok(SetRead(ns[i])))
  }

  /** Marking the same notification twice leaves what marking it once left. */
  lemma MarkReadIdempotent(ns: seq<Notification>, id: Id, user: Id)
    ensures var r1 := MarkRead(ns, id, user);
            var r2 := MarkRead(r1.store, id, user);
            r2.store == r1.store && r2.result == r1.result
  {
    var r1 := MarkRead(ns, id, user);
    match FindIndex(ns, Mine(id, user))
    case None =>
    case Some(i) =>
      assert forall j :: 0 <= j < i ==> !Mine(id, user)(r1.store[j]) by {
        assert forall j :: 0 <= j < i ==> r1.store[j] == ns[j];
      }
      assert Mine(id, user)(r1.store[i]);
      assert FindIndex(r1.store, Mine(id, user)) == Some(i);
  }

  /** The `{ userId, read: false }` filter of mark-all. */
  function UnreadOf(user: Id): Notification -> bool {
    (n: Notification) => n.userId == user && !n.read
  }

  /** `PATCH /read-all`: `updateMany({ userId, read: false }, { read: true })`. */
  function MarkAllRead(ns: seq<Notification>, user: Id): (r: seq<Notification>)
    ensures |r| == |ns|
    ensures forall k :: 0 <= k < |ns| ==> r[k] == if ns[k].userId == user then ns[k].(read := true) else ns[k]
    ensures forall k :: 0 <= k < |r| && r[k].userId == user ==> r[k].read
  {
    UpdateAll(ns, UnreadOf(user), SetRead)
  }

  /** The `{ userId, read: true }` filter of clear. */
  function ReadOf(user: Id): Notification -> bool {
    (n: Notification) => n.userId == user && n.read
  }

  /** `DELETE /clear`: `deleteMany({ userId, read: true })`. The caller's unread notifications
      and everybody else's stay, in order. */
  function ClearRead(ns: seq<Notification>, user: Id): (r: seq<Notification>)
    ensures |r| == |ns| - Count(ns, ReadOf(user))
    ensures forall i :: 0 <= i < |r| ==> r[i] in ns && !(r[i].userId == user && r[i].read)
    ensures forall k :: 0 <= k < |ns| && !(ns[k].userId == user && ns[k].read) ==> ns[k] in r
    ensures r == Filter(ns, Not(ReadOf(user)))
  {
    RemoveIsFilter(ns, ReadOf(user));
    Remove(ns, ReadOf(user))
  }

  /** Mark-all then clear leaves the caller with no notifications and removes nobody else's. */
  lemma MarkAllThenClear(ns: seq<Notification>, user: Id)
    ensures var r := ClearRead(MarkAllRead(ns, user), user);
            && Count(r, OwnedBy(user)) == 0
            && |r| == |ns| - Count(ns, OwnedBy(user))
  {
    var m := MarkAllRead(ns, user);
    CountCongruent(m, ReadOf(user), OwnedBy(user));
    CountCongruent(m, OwnedBy(user), OwnedBy(user));
    OwnedCountKept(ns, user);
  }

  /** Marking read never changes whose notifications they are. */
  lemma {:induction false} OwnedCountKept(ns: seq<Notification>, user: Id)
    ensures Count(MarkAllRead(ns, user), OwnedBy(user)) == Count(ns, OwnedBy(user))
    decreases |ns|
  {
    if |ns| > 0 {
      var m := MarkAllRead(ns, user);
      var init := ns[..|ns| - 1];
      assert m[..|m| - 1] == MarkAllRead(init, user);
      OwnedCountKept(init, user);
    }
  }
}

=== FILE: profile.dfy ===
/** The profile endpoints, the same in both trees: the partial update of the caller's own user
    and patient vitals, the password change, and the filter the picture upload applies. The trees
    differ only in the user schema a save applies, which the password change takes as a
    parameter. */
module Profile {
  import opened Wrappers
  import opened Records
  import opened Collection
  import opened Accounts
  import Text

  /** The identity the request's token carries. */
  datatype Caller = Caller(userId: Id, role: string, patientId: Option<Id>)

  /** The body of a profile update; an omitted field is absent. */
  datatype Edit = Edit(
    name: Option<string>, bio: Option<string>, username: Option<string>,
    bloodPressure: Option<real>, glucoseLevel: Option<real>, heartRate: Option<real>)

  /** `User.findOne({ username, _id: { $ne: userId } })`. */
  function OtherWithUsername(name: string, self: Id): User -> bool {
    (u: User) => u.username == Some(name) && u.id != self
  }

  /** The user update: a truthy name, any given bio (even ""), a truthy username. */
  function EditUser(u: User, e: Edit): (r: User)
    ensures r.name == (if Filled(e.name) then e.name.value else u.name)
    ensures r.bio == (if e.bio.Some? then e.bio.value else u.bio)
    ensures r.username == (if Filled(e.username) then e.username else u.username)
    ensures r == u.(name := r.name, bio := r.bio, username := r.username)
  {
    u.(name := if Filled(e.name) then e.name.value else u.name,
       bio := e.bio.GetOr(u.bio),
       username := if Filled(e.username) then e.username else u.username)
  }

  function Editor(e: Edit): User -> User {
    (u: User) => EditUser(u, e)
  }

  /** Some vital is given (`Object.keys(patientUpdate).length > 0`). */
  predicate AnyVital(e: Edit) {
    e.bloodPressure.Some? || e.glucoseLevel.Some? || e.heartRate.Some?
  }

  /** The patient update: every given vital is written, 0 included. */
  function EditVitals(p: Patient, e: Edit): (r: Patient)
    ensures r.bloodPressure == (if e.bloodPressure.Some? then e.bloodPressure else p.bloodPressure)
    ensures r.glucoseLevel == (if e.glucoseLevel.Some? then e.glucoseLevel else p.glucoseLevel)
    ensures r.heartRate == (if e.heartRate.Some? then e.heartRate else p.heartRate)
    ensures r == p.(bloodPressure := r.bloodPressure, glucoseLevel := r.glucoseLevel, heartRate := r.heartRate)
  {
    p.(bloodPressure := if e.bloodPressure.Some? then e.bloodPressure else p.bloodPressure,
       glucoseLevel := if e.glucoseLevel.Some? then e.glucoseLevel else p.glucoseLevel,
       heartRate := if e.heartRate.Some? then e.heartRate else p.heartRate)
  }

  function VitalsEditor(e: Edit): Patient -> Patient {
    (p: Patient) => EditVitals(p, e)
  }

  /** Whether the update writes the caller's vitals. */
  predicate WritesVitals(c: Caller, e: Edit) {
    c.role == RolePatient && c.patientId.Some? && AnyVital(e)
  }

  /** `PUT /profile`: answers with the updated user, or nothing when the caller's user is gone.
      The vitals are written even then. */
  function UpdateProfile(db: Db, c: Caller, e: Edit): (r: Reply<Db, Option<User>>)
    ensures r.result == Err(UsernameTaken) <==>
      Filled(e.username) && exists k :: 0 <= k < |db.users| && OtherWithUsername(e.username.value, c.userId)(db.users[k])
    ensures r.result.Err? ==> r.result == Err(UsernameTaken) && r.store == db
    ensures r.result.Ok? ==>
      && |r.store.users| == |db.users|
      && (forall k :: 0 <= k < |db.users| && db.users[k].id != c.userId ==> r.store.users[k] == db.users[k])
      && (match FindIndex(db.users, UserById(c.userId))
          case None => r.store.users == db.users && r.result.value.None?
          case Some(k) => r.store.users[k] == EditUser(db.users[k], e) && r.result.value == Some(r.store.users[k]))
    ensures r.result.Ok? ==>
      && (!WritesVitals(c, e) ==> r.store.patients == db.patients)
      && (WritesVitals(c, e) ==>
            r.store.patients == UpdateFirst(db.patients, PatientById(c.patientId.value), VitalsEditor(e)))
    ensures r.store.doctors == db.doctors && r.store.appointments == db.appointments
    ensures r.store.ratings == db.ratings && r.store.notifications == db.notifications
  {
    if Filled(e.username) && Find(db.users, OtherWithUsername(e.username.value, c.userId)).Some? then
      Reply(db, Err(UsernameTaken))
    else
      var users := UpdateFirst(db.users, UserById(c.userId), Editor(e));
      var updated := match FindIndex(db.users, UserById(c.userId))
                     case None => None
                     case Some(k) => Some(users[k]);
      var patients := if WritesVitals(c, e)
                      then UpdateFirst(db.patients, PatientById(c.patientId.value), VitalsEditor(e))
                      else db.patients;
      Reply(db.(users := users, patients := patients), Ok(updated))
  }

  /** A vital given as 0 is written, where booking an appointment would ignore it. */
  lemma ZeroVitalIsWritten(db: Db, c: Caller, e: Edit, k: nat)
    requires c.role == RolePatient && c.patientId.Some?
    requires e.bloodPressure == Some(0.0) && !Filled(e.username)
    requires FindIndex(db.patients, PatientById(c.patientId.value)) == Some(k)
    ensures UpdateProfile(db, c, e).store.patients[k].bloodPressure == Some(0.0)
  {
  }

  /** Renaming to one's own username is no conflict. */
  lemma OwnUsernameAccepted(db: Db, c: Caller, e: Edit)
    requires Filled(e.username)
    requires forall k :: 0 <= k < |db.users| && db.users[k].username == e.username ==> db.users[k].id == c.userId
    ensures UpdateProfile(db, c, e).result.Ok?
  {
  }

  /** `POST /profile/change-password` with the user schema `userValid` applied on save. */
  function ChangePassword(users: seq<User>, self: Id, current: string, next: string,
                          matches: Matcher, userValid: User -> bool): (r: Reply<seq<User>, ()>)
    ensures current == "" || next == "" <==> r.result == Err(MissingFields)
    ensures current != "" && next != "" && Text.Utf16Length(next) < 6 <==> r.result == Err(PasswordTooShort)
    ensures r.result.Err? ==> r.store == users
    ensures r.result.Ok? <==>
      && current != "" && Text.Utf16Length(next) >= 6
      && (match FindIndex(users, UserById(self))
          case None => false
          case Some(k) => matches(current, users[k].password) && userValid(users[k].(password := next)))
    ensures r.result.Ok? ==>
      var k := FindIndex(users, UserById(self)).value;
      r.store == users[k := users[k].(password := next)]
    ensures r.result.Err? ==>
      r.result.error in {MissingFields, PasswordTooShort, NotFound, WrongCurrentPassword, ValidationFailed}
  {
    if current == "" || next == "" then Reply(users, Err(MissingFields))
    else if Text.Utf16Length(next) < 6 then Reply(users, Err(PasswordTooShort))
    else match FindIndex(users, UserById(self))
    case None => Reply(users, Err(NotFound))
    case Some(k) =>
      if !matches(current, users[k].password) then Reply(users, Err(WrongCurrentPassword))
      else
        var u := users[k].(password := next);
        if !userValid(u) then Reply(users, Err(ValidationFailed))
        else Reply(users[k := u], Ok(()))
  }

  /** A new password shorter than six characters is refused before the current one is checked,
      so the answer does not depend on it. */
  lemma ShortPasswordBeforeCurrent(users: seq<User>, self: Id, c1: string, c2: string, next: string,
                                   m1: Matcher, m2: Matcher, v: User -> bool)
    requires c1 != "" && c2 != "" && next != "" && Text.Utf16Length(next) < 6
    ensures ChangePassword(users, self, c1, next, m1, v) == ChangePassword(users, self, c2, next, m2, v)
  {
  }

  /** The length rule counts UTF-16 code units: three characters beyond the Basic Multilingual
      Plane make six units, so they pass it. */
  lemma AstralPasswordLongEnough(users: seq<User>, self: Id, current: string, matches: Matcher, v: User -> bool)
    requires current != ""
    ensures ChangePassword(users, self, current, "\U{1D11E}\U{1D11E}\U{1D11E}", matches, v).result != Err(PasswordTooShort)
  {
    Text.Utf16AllAstral("\U{1D11E}\U{1D11E}\U{1D11E}");
  }

  /** A password changes only when every guard passes, and then only the caller's. */
  lemma PasswordChangesOnlyOnSuccess(users: seq<User>, self: Id, current: string, next: string,
                                     matches: Matcher, userValid: User -> bool, k: nat)
    requires k < |users|
    requires ChangePassword(users, self, current, next, matches, userValid).store[k].password != users[k].password
    ensures ChangePassword(users, self, current, next, matches, userValid).result.Ok?
    ensures users[k].id == self
    ensures ChangePassword(users, self, current, next, matches, userValid).store[k].password == next
  {
  }

  /** The last index of `c` in `s`. */
  function LastIndex(s: string, c: char): (r: Option<nat>)
    ensures r.Some? ==> r.value < |s| && s[r.value] == c && forall j :: r.value < j < |s| ==> s[j] != c
    ensures r.None? <==> forall j :: 0 <= j < |s| ==> s[j] != c
  {
    if |s| == 0 then None
    else if s[|s| - 1] == c then Some(|s| - 1)
    else LastIndex(s[..|s| - 1], c)
  }

  /** `s` without its trailing slashes. */
  function TrimSlashes(s: string): (r: string)
    ensures |r| <= |s| && r == s[..|r|]
    ensures |r| > 0 ==> r[|r| - 1] != '/'
    ensures forall j :: |r| <= j < |s| ==> s[j] == '/'
  {
    if |s| > 0 && s[|s| - 1] == '/' then TrimSlashes(s[..|s| - 1]) else s
  }

  /** The last path segment, as `path.basename` takes it. */
  function Basename(s: string): (r: string)
    ensures forall j :: 0 <= j < |r| ==> r[j] != '/'
    ensures |r| <= |s|
  {
    var t := TrimSlashes(s);
    match LastIndex(t, '/')
    case None => t
    case Some(k) => t[k + 1..]
  }

  /** `path.extname` (POSIX): from the last dot of the last segment to its end, or "" when the
      segment has no dot, starts with its only dot, or is `..`. */
  function Extname(s: string): (r: string)
    ensures r != "" ==> r[0] == '.' && forall j :: 1 <= j < |r| ==> r[j] != '.' && r[j] != '/'
    ensures r != "" ==> |r| < |Basename(s)| && r == Basename(s)[|Basename(s)| - |r|..]
    ensures r == "" <==> LastIndex(Basename(s), '.') in {None, Some(0)} || Basename(s) == ".."
  {
    var b := Basename(s);
    match LastIndex(b, '.')
    case None => ""
    case Some(k) => if k == 0 || b == ".." then "" else b[k..]
  }

  /** The pattern `/jpeg|jpg|png|gif/`, unanchored. */
  predicate ImageType(s: string) {
    Text.Contains(s, "jpeg") || Text.Contains(s, "jpg") || Text.Contains(s, "png") || Text.Contains(s, "gif")
  }

  /** The upload `fileFilter`: the lowercased extension and the MIME type as sent both match. */
  predicate AcceptsUpload(originalName: string, mimetype: string) {
    ImageType(Text.Lower(Extname(originalName))) && ImageType(mimetype)
  }

  /** The last `c` of `s` is at `k`. */
  lemma LastIndexAt(s: string, c: char, k: nat)
    requires k < |s| && s[k] == c
    requires forall j :: k < j < |s| ==> s[j] != c
    ensures LastIndex(s, c) == Some(k)
  {
  }

  /** A plain file name `stem.ext` has the extension `.ext`. */
  lemma ExtnameOfFileName(stem: string, ext: string)
    requires |stem| > 0 && |ext| > 0
    requires forall j :: 0 <= j < |stem| ==> stem[j] != '/'
    requires forall j :: 0 <= j < |ext| ==> ext[j] != '/' && ext[j] != '.'
    ensures Extname(stem + "." + ext) == "." + ext
  {
    var name := stem + "." + ext;
    assert name[|name| - 1] == ext[|ext| - 1];
    assert TrimSlashes(name) == name;
    assert forall j :: 0 <= j < |name| ==> name[j] != '/' by {
      assert forall j :: |stem| < j < |name| ==> name[j] == ext[j - |stem| - 1];
    }
    assert Basename(name) == name;
    assert forall j :: |stem| < j < |name| ==> name[j] == ext[j - |stem| - 1];
    LastIndexAt(name, '.', |stem|);
    assert name[|stem|..] == "." + ext;
  }

  /** An extension containing `sub` passes the image test when `sub` is one of the types. */
  lemma ImageTypeAt(s: string, sub: string, k: nat)
    requires sub in {"jpeg", "jpg", "png", "gif"}
    requires Text.OccursAt(s, sub, k)
    ensures ImageType(s)
  {
    Text.ContainsIff(s, sub);
  }

  /** The match is unanchored: an extension that merely contains an image type passes. */
  lemma UnanchoredExtensionAccepted(stem: string)
    requires |stem| > 0 && forall j :: 0 <= j < |stem| ==> stem[j] != '/'
    ensures AcceptsUpload(stem + "." + "jpgx", "image/jpeg")
  {
    PlainExtension("jpgx");
    assert "." + "jpgx" == ".jpgx";
    LoweredJpgxIsImage();
    MimeIsImage("image/jpeg", "jpeg");
    AcceptedWith(stem, "jpgx", "image/jpeg");
  }

  /** `stem.ext` passes the filter when its lowered extension and the MIME type both match. */
  lemma AcceptedWith(stem: string, ext: string, mimetype: string)
    requires |stem| > 0 && |ext| > 0
    requires forall j :: 0 <= j < |stem| ==> stem[j] != '/'
    requires forall j :: 0 <= j < |ext| ==> ext[j] != '/' && ext[j] != '.'
    requires ImageType(Text.Lower("." + ext)) && ImageType(mimetype)
    ensures AcceptsUpload(stem + "." + ext, mimetype)
  {
    ExtnameOfFileName(stem, ext);
  }

  /** A short literal extension holds no slash and no dot. */
  lemma PlainExtension(ext: string)
    requires ext in {"jpgx", "PNG"}
    ensures forall j :: 0 <= j < |ext| ==> ext[j] != '/' && ext[j] != '.'
  {
  }

  /** A MIME type `image/<sub>` passes the image test when `sub` is one of the types. */
  lemma MimeIsImage(m: string, sub: string)
    requires sub in {"jpeg", "jpg", "png", "gif"}
    requires m == "image/" + sub
    ensures ImageType(m)
  {
    assert m[6..6 + |sub|] == sub;
    ImageTypeAt(m, sub, 6);
  }

  lemma LoweredJpgxIsImage()
    ensures ImageType(Text.Lower(".jpgx"))
  {
    var e := Text.Lower(".jpgx");
    assert e[1] == 'j' && e[2] == 'p' && e[3] == 'g';
    assert e[1..4] == "jpg";
    ImageTypeAt(e, "jpg", 1);
  }

  /** The extension is lowercased before the test, so an upper-case extension passes. */
  lemma UpperCaseExtensionAccepted(stem: string)
    requires |stem| > 0 && forall j :: 0 <= j < |stem| ==> stem[j] != '/'
    ensures AcceptsUpload(stem + "." + "PNG", "image/png")
  {
    PlainExtension("PNG");
    assert "." + "PNG" == ".PNG";
    LoweredPngIsImage();
    MimeIsImage("image/png", "png");
    AcceptedWith(stem, "PNG", "image/png");
  }

  lemma LoweredPngIsImage()
    ensures ImageType(Text.Lower(".PNG"))
  {
    var e := Text.Lower(".PNG");
    assert e[1] == 'p' && e[2] == 'n' && e[3] == 'g';
    assert e[1..4] == "png";
    ImageTypeAt(e, "png", 1);
  }

  /** The MIME type is not lowercased: an upper-case one is refused whatever the extension. */
  lemma UpperCaseMimeRejected(name: string)
    ensures !AcceptsUpload(name, "IMAGE/PNG")
  {
    UpperCaseMimeIsNoImage();
  }

  lemma UpperCaseMimeIsNoImage()
    ensures !ImageType("IMAGE/PNG")
  {
    var m := "IMAGE/PNG";
    assert forall j :: 0 <= j < |m| ==> m[j] != 'j' && m[j] != 'p' && m[j] != 'g';
    NotImageType(m);
  }

  /** A string without the first letter of `sub` does not contain `sub`. */
  lemma NoOccurrence(m: string, sub: string)
    requires |sub| > 0
    requires forall j :: 0 <= j < |m| ==> m[j] != sub[0]
    ensures !Text.Contains(m, sub)
  {
    forall k: nat
      ensures !Text.OccursAt(m, sub, k)
    {
      if k + |sub| <= |m| {
        assert m[k..k + |sub|][0] == m[k];
      }
    }
    Text.ContainsIff(m, sub);
  }

  /** A string with no lower-case `j`, `p` or `g` matches no image type. */
  lemma NotImageType(m: string)
    requires forall j :: 0 <= j < |m| ==> m[j] != 'j' && m[j] != 'p' && m[j] != 'g'
    ensures !ImageType(m)
  {
    NoOccurrence(m, "jpeg");
    NoOccurrence(m, "jpg");
    NoOccurrence(m, "png");
    NoOccurrence(m, "gif");
  }

  /** A dot-file such as `.png` has no extension under `path.extname`, so it is refused. */
  lemma DotFileRejected(ext: string, mimetype: string)
    requires |ext| > 0 && forall j :: 0 <= j < |ext| ==> ext[j] != '/' && ext[j] != '.'
    ensures !AcceptsUpload("." + ext, mimetype)
  {
    var name := "." + ext;
    assert name[|name| - 1] == ext[|ext| - 1];
    assert TrimSlashes(name) == name;
    assert forall j :: 1 <= j < |name| ==> name[j] == ext[j - 1];
    assert Basename(name) == name;
    LastIndexAt(name, '.', 0);
    assert Extname(name) == "";
    assert !Text.Contains("", "jpeg") && !Text.Contains("", "jpg");
  }
}

=== FILE: ratings.dfy ===
/** Patients rating doctors, and the aggregate kept on each doctor document. The submission
    handler is the same in both trees: store the rating, then recompute the doctor's
    `averageRating` and `totalRatings` from a full scan of that doctor's ratings. The one-off
    fix-all endpoint does the same for every doctor. */
module Ratings {
  import opened Wrappers
  import opened Time
  import opened Records
  import opened Collection
  import Text

  /** The body of `POST /ratings`; an absent field is `None`. */
  datatype RatingRequest = RatingRequest(
    doctorId: Option<Id>, appointmentId: Option<Id>, score: Option<real>, comment: string)

  /** Schema validation of a rating: `score` between 1 and 5. The ids are required and are
      present by construction. */
  predicate RatingValid(r: Rating) {
    1.0 <= r.score <= 5.0
  }

  ghost predicate AllValid(rs: seq<Rating>) {
    forall k :: 0 <= k < |rs| ==> RatingValid(rs[k])
  }

  function OfDoctor(id: Id): Rating -> bool {
    (r: Rating) => r.doctorId == id
  }

  /** A rating's contribution to the `$sum` of one doctor's scores. */
  function ScoreOf(id: Id): Rating -> real {
    (r: Rating) => if r.doctorId == id then r.score else 0.0
  }

  function ScoreSum(rs: seq<Rating>, id: Id): real {
    SumOf(rs, ScoreOf(id))
  }

  /** The `$group` result for one doctor: `avg` and `count`. */
  datatype Stats = Stats(avg: real, count: nat)

  /** `$match: { doctorId }, $group: { avg: $avg score, count: $sum 1 }`: no group at all when
      the doctor has no rating. */
  function GroupStats(rs: seq<Rating>, id: Id): (s: Option<Stats>)
    ensures s.None? <==> forall i :: 0 <= i < |rs| ==> rs[i].doctorId != id
    ensures s.Some? ==> s.value.count == Count(rs, OfDoctor(id)) && s.value.count > 0
    ensures s.Some? ==> s.value.avg * s.value.count as real == ScoreSum(rs, id)
  {
    var n := Count(rs, OfDoctor(id));
    if n == 0 then None else Some(Stats(ScoreSum(rs, id) / n as real, n))
  }

  /** The doctor with its aggregate fields set from `s`. */
  function WithStats(d: Doctor, s: Stats): Doctor {
    d.(averageRating := s.avg, totalRatings := s.count)
  }

  /** `POST /ratings`. `patientId` is the caller's, from the token. A falsy doctor id,
      appointment id or score (0 included) is refused before anything is written. The rating
      is then validated and stored, and the doctor found by id gets the recomputed aggregate;
      a missing doctor makes that update a no-op. */
  function Submit(db: Db, patientId: Option<Id>, q: RatingRequest, now: Time): (r: Reply<Db, Rating>)
    ensures q.doctorId.None? || q.appointmentId.None? || !Truthy(q.score) <==> r.result == Err(MissingFields)
    ensures r.result.Ok? <==> q.doctorId.Some? && q.appointmentId.Some? && patientId.Some?
                              && q.score.Some? && 1.0 <= q.score.value <= 5.0
    ensures r.result.Err? ==> r.store == db
    ensures r.result.Ok? ==>
      var x := r.result.value;
      var d := q.doctorId.value;
      && x == Rating(db.nextId, d, patientId.value, q.appointmentId.value, q.score.value, Text.Trim(q.comment), now)
      && r.store.ratings == db.ratings + [x]
      && r.store == db.(ratings := r.store.ratings, doctors := r.store.doctors, nextId := db.nextId + 1)
      && |r.store.doctors| == |db.doctors|
      && (FindIndex(db.doctors, DoctorById(d)).None? ==> r.store.doctors == db.doctors)
      && (FindIndex(db.doctors, DoctorById(d)).Some? ==>
            var i := FindIndex(db.doctors, DoctorById(d)).value;
            var g := r.store.doctors[i];
            && (forall k :: 0 <= k < |db.doctors| && k != i ==> r.store.doctors[k] == db.doctors[k])
            && g.(averageRating := db.doctors[i].averageRating, totalRatings := db.doctors[i].totalRatings) == db.doctors[i]
            && g.totalRatings == Count(r.store.ratings, OfDoctor(d))
            && g.averageRating * g.totalRatings as real == ScoreSum(r.store.ratings, d))
    ensures AllValid(db.ratings) ==> AllValid(r.store.ratings)
  {
    if q.doctorId.None? || q.appointmentId.None? || !Truthy(q.score) then Reply(db, Err(MissingFields))
    else if patientId.None? then Reply(db, Err(ValidationFailed))
    else
      var d := q.doctorId.value;
      var x := Rating(db.nextId, d, patientId.value, q.appointmentId.value, q.score.value, Text.Trim(q.comment), now);
      if !RatingValid(x) then Reply(db, Err(ValidationFailed))
      else
        var ratings := db.ratings + [x];
        // The rating just stored matches, so the group always exists.
        assert ratings[|ratings| - 1] == x;
        var s := GroupStats(ratings, d).value;
        var doctors := UpdateFirst(db.doctors, DoctorById(d), (g: Doctor) => WithStats(g, s));
        Reply(db.(ratings := ratings, doctors := doctors, nextId := db.nextId + 1), Ok(x))
  }

  /** A doctor's aggregate depends only on the multiset of stored ratings, not on the order in
      which they were submitted. */
  lemma AggregateOrderFree(rs1: seq<Rating>, rs2: seq<Rating>, id: Id)
    requires multiset(rs1) == multiset(rs2)
    ensures GroupStats(rs1, id) == GroupStats(rs2, id)
  {
    CountPermutation(rs1, rs2, OfDoctor(id));
    SumOfPermutation(rs1, rs2, ScoreOf(id));
  }

  /** Scores between 1 and 5 keep the total between one and five times the count. */
  lemma {:induction false} ScoreSumBounds(rs: seq<Rating>, id: Id)
    requires AllValid(rs)
    ensures Count(rs, OfDoctor(id)) as real <= ScoreSum(rs, id) <= 5.0 * Count(rs, OfDoctor(id)) as real
    decreases |rs|
  {
    if |rs| > 0 {
      ScoreSumBounds(rs[..|rs| - 1], id);
    }
  }

  /** With every stored score between 1 and 5, a doctor's average lies between 1 and 5. */
  lemma AverageInRange(rs: seq<Rating>, id: Id)
    requires AllValid(rs)
    requires GroupStats(rs, id).Some?
    ensures 1.0 <= GroupStats(rs, id).value.avg <= 5.0
  {
    ScoreSumBounds(rs, id);
    MeanBounds(ScoreSum(rs, id), Count(rs, OfDoctor(id)) as real);
  }

  lemma MeanBounds(sum: real, n: real)
    requires n > 0.0 && n <= sum <= 5.0 * n
    ensures 1.0 <= sum / n <= 5.0
  {
  }

  /** After a submission the rated doctor's stored average lies between 1 and 5. */
  lemma SubmittedAverageInRange(db: Db, patientId: Option<Id>, q: RatingRequest, now: Time)
    requires AllValid(db.ratings)
    requires Submit(db, patientId, q, now).result.Ok?
    requires FindIndex(db.doctors, DoctorById(q.doctorId.value)).Some?
    ensures var r := Submit(db, patientId, q, now);
            var i := FindIndex(db.doctors, DoctorById(q.doctorId.value)).value;
            1.0 <= r.store.doctors[i].averageRating <= 5.0
  {
    var r := Submit(db, patientId, q, now);
    var d := q.doctorId.value;
    var x := r.result.value;
    assert r.store.ratings[|r.store.ratings| - 1] == x;
    AverageInRange(r.store.ratings, d);
    var i := FindIndex(db.doctors, DoctorById(d)).value;
    var g := r.store.doctors[i];
    var s := GroupStats(r.store.ratings, d).value;
    assert g.totalRatings == s.count;
    assert g.averageRating * s.count as real == s.avg * s.count as real;
    assert g.averageRating == s.avg;
  }

  /** Nothing stops a second rating of the same appointment: submitting the same request twice
      stores two ratings for it, and the doctor's count includes both. */
  lemma SecondRatingAccepted(db: Db, patientId: Option<Id>, q: RatingRequest, now: Time, later: Time)
    requires Submit(db, patientId, q, now).result.Ok?
    ensures var r1 := Submit(db, patientId, q, now);
            var r2 := Submit(r1.store, patientId, q, later);
            && r2.result.Ok?
            && |r2.store.ratings| == |db.ratings| + 2
            && r2.store.ratings[|db.ratings|].appointmentId == r2.store.ratings[|db.ratings| + 1].appointmentId
            && Count(r2.store.ratings, OfDoctor(q.doctorId.value)) == Count(db.ratings, OfDoctor(q.doctorId.value)) + 2
  {
    var r1 := Submit(db, patientId, q, now);
    var r2 := Submit(r1.store, patientId, q, later);
    var p := OfDoctor(q.doctorId.value);
    CountAppend(db.ratings, [r1.result.value], p);
    CountAppend(r1.store.ratings, [r2.result.value], p);
    assert [r1.result.value][..0] == [] && [r2.result.value][..0] == [];
  }

  // ---------------------------------------------------------------- fix-all

  /** The doctor with its aggregate recomputed: mean and count of its ratings, or 0 / 0 when it
      has none. */
  function Fixed(d: Doctor, rs: seq<Rating>): (f: Doctor)
    ensures f.(averageRating := d.averageRating, totalRatings := d.totalRatings) == d
    ensures f.totalRatings == Count(rs, OfDoctor(d.id))
    ensures f.averageRating * f.totalRatings as real == ScoreSum(rs, d.id)
    ensures f.totalRatings == 0 ==> f.averageRating == 0.0
  {
    match GroupStats(rs, d.id)
    case Some(s) => WithStats(d, s)
    case None =>
      NoRatingsNoSum(rs, d.id);
      d.(averageRating := 0.0, totalRatings := 0)
  }

  /** A doctor nobody rated has a zero score total. */
  lemma {:induction false} NoRatingsNoSum(rs: seq<Rating>, id: Id)
    requires forall i :: 0 <= i < |rs| ==> rs[i].doctorId != id
    ensures ScoreSum(rs, id) == 0.0
    decreases |rs|
  {
    if |rs| > 0 {
      NoRatingsNoSum(rs[..|rs| - 1], id);
    }
  }

  /** Recomputing a recomputed doctor changes nothing. */
  lemma FixedIdempotent(d: Doctor, rs: seq<Rating>)
    ensures Fixed(Fixed(d, rs), rs) == Fixed(d, rs)
  {
  }

  /** The recomputed fields play no part in the schema's validation. */
  lemma FixedKeepsValidity(d: Doctor, rs: seq<Rating>)
    ensures LegacyDoctorValid(Fixed(d, rs)) <==> LegacyDoctorValid(d)
  {
    var f := Fixed(d, rs);
    assert f.fullName == d.fullName && f.email == d.email && f.contactNumber == d.contactNumber
           && f.gender == d.gender by {
      assert f.(averageRating := d.averageRating, totalRatings := d.totalRatings) == d;
    }
  }

  function Invalid(): Doctor -> bool {
    (d: Doctor) => !LegacyDoctorValid(d)
  }

  function Rated(rs: seq<Rating>): Doctor -> bool {
    (d: Doctor) => Count(rs, OfDoctor(d.id)) > 0
  }

  /** The doctors with the first `b` recomputed and the rest as they were. */
  function FixedUpTo(ds: seq<Doctor>, rs: seq<Rating>, b: nat): (r: seq<Doctor>)
    ensures |r| == |ds|
    ensures forall k :: 0 <= k < |ds| ==> r[k] == if k < b then Fixed(ds[k], rs) else ds[k]
  {
    seq(|ds|, k requires 0 <= k < |ds| => if k < b then Fixed(ds[k], rs) else ds[k])
  }

  lemma FixedUpToStep(ds: seq<Doctor>, rs: seq<Rating>, k: nat)
    requires k < |ds|
    ensures FixedUpTo(ds, rs, k)[k := Fixed(ds[k], rs)] == FixedUpTo(ds, rs, k + 1)
  {
  }

  /** `updatedCount`: the doctors with at least one rating. */
  method CountRated(ds: seq<Doctor>, rs: seq<Rating>) returns (n: nat)
    ensures n == Count(ds, Rated(rs))
  {
    n := 0;
    var k := 0;
    while k < |ds|
      invariant 0 <= k <= |ds|
      invariant n == Count(ds[..k], Rated(rs))
    {
      CountPrefixStep(ds, k, Rated(rs));
      if GroupStats(rs, ds[k].id).Some? {
        n := n + 1;
      }
      k := k + 1;
    }
    assert ds[..k] == ds;
  }

  /** `POST /api/fix-all-ratings`: every doctor in store order gets its aggregate recomputed and
      is saved; the answer is the number of doctors with at least one rating. The save
      validates the legacy doctor schema; the first doctor that fails it aborts the loop, and
      the doctors saved before it stay saved. */
  method FixAll(db: Db) returns (r: Reply<Db, nat>)
    ensures r.store == db.(doctors := r.store.doctors)
    ensures |r.store.doctors| == |db.doctors|
    ensures r.result.Ok? <==> FindIndex(db.doctors, Invalid()).None?
    ensures r.result.Ok? ==>
      && r.result.value == Count(db.doctors, Rated(db.ratings))
      && forall k :: 0 <= k < |db.doctors| ==> r.store.doctors[k] == Fixed(db.doctors[k], db.ratings)
    ensures r.result.Err? ==>
      var b := FindIndex(db.doctors, Invalid()).value;
      && r.result.error == ValidationFailed
      && (forall k :: 0 <= k < b ==> r.store.doctors[k] == Fixed(db.doctors[k], db.ratings))
      && (forall k :: b <= k < |db.doctors| ==> r.store.doctors[k] == db.doctors[k])
  {
    var doctors := db.doctors;
    var updated;
    var k := 0;
    assert doctors == FixedUpTo(db.doctors, db.ratings, 0);
    while k < |db.doctors|
      invariant 0 <= k <= |db.doctors|
      invariant doctors == FixedUpTo(db.doctors, db.ratings, k)
      invariant forall j :: 0 <= j < k ==> !Invalid()(db.doctors[j])
    {
      var f := Fixed(db.doctors[k], db.ratings);
      FixedKeepsValidity(db.doctors[k], db.ratings);
      if !LegacyDoctorValid(f) {
        assert Invalid()(db.doctors[k]);
        return Reply(db.(doctors := doctors), Err(ValidationFailed));
      }
      FixedUpToStep(db.doctors, db.ratings, k);
      doctors := doctors[k := f];
      k := k + 1;
    }
    // The count is reported only when every save succeeded, so it is taken once at the end.
    updated := CountRated(db.doctors, db.ratings);
    return Reply(db.(doctors := doctors), Ok(updated));
  }
}

=== FILE: records.dfy ===
/** The documents of the store and the schema rules Mongoose applies to them on `save()`:
    required fields, enums, minimums, setters and the pre-save hook of an appointment.
    A string field that is unset is the empty string; Mongoose's `required` rejects both. */
module Records {
  import opened Wrappers
  import opened Time
  import Text
  import Risk

  /** An ObjectId; fresh ones come from the store's counter. */
  type Id = nat

  const RolePatient: string := "patient"
  const RoleDoctor: string := "doctor"
  const RoleAdmin: string := "admin"

  const Scheduled: string := "Scheduled"
  const Accepted: string := "Accepted"
  const Completed: string := "Completed"
  const Cancelled: string := "Cancelled"

  /** The `status` enum of an appointment. */
  predicate IsStatus(s: string) {
    s == Scheduled || s == Accepted || s == Completed || s == Cancelled
  }

  /** The `patientGender` enum of an appointment. */
  predicate IsAppointmentGender(g: string) {
    g == "Male" || g == "Female" || g == "Other" || g == "Not specified"
  }

  /** The `gender` enum of a patient or doctor. */
  predicate IsPersonGender(g: string) {
    g == "Male" || g == "Female" || g == "Other"
  }

  predicate IsRole(r: string) {
    r == RolePatient || r == RoleDoctor || r == RoleAdmin
  }

  /** JavaScript truthiness of an optional number: absent and 0 are falsy. */
  predicate Truthy(v: Option<real>) {
    v.Some? && v.value != 0.0
  }

  /** JavaScript truthiness of an optional string: absent and "" are falsy. */
  predicate Filled(s: Option<string>) {
    s.Some? && s.value != ""
  }

  /** `x || undefined` on an optional number. */
  function OrAbsent(v: Option<real>): (r: Option<real>)
    ensures r.Some? <==> Truthy(v)
    ensures r.Some? ==> r == v
  {
    if Truthy(v) then v else None
  }

  datatype Patient = Patient(
    id: Id, userId: Id, name: string, email: string, age: Option<real>, gender: string,
    bloodPressure: Option<real>, glucoseLevel: Option<real>, heartRate: Option<real>, createdAt: Time)
  {
    /** The `priority` virtual. */
    function Tier(): Risk.Tier {
      Risk.Priority(bloodPressure, glucoseLevel)
    }

    /** Matched by the critical-patient query. */
    predicate Critical() {
      Risk.Critical(bloodPressure, glucoseLevel)
    }
  }

  /** Schema validation of a patient (both trees): name and email required, gender enum. */
  predicate PatientValid(p: Patient) {
    p.name != "" && p.email != "" && (p.gender == "" || IsPersonGender(p.gender))
  }

  datatype Appointment = Appointment(
    id: Id, code: string, patientName: string, patientEmail: string, patientGender: string,
    patientAge: real, date: Time, time: string, reason: string, kind: string,
    consultingDoctor: string, notes: string, doctorId: Id, patientId: Id, status: string)

  /** Schema validation of an appointment (both trees). `code` is the `appointmentId` field,
      which is not required; `kind` is `appointmentType`. */
  predicate AppointmentValid(a: Appointment) {
    a.patientName != "" && a.patientEmail != "" && IsAppointmentGender(a.patientGender)
    && a.patientAge >= 0.0 && a.time != "" && a.reason != "" && a.kind != ""
    && a.consultingDoctor != "" && IsStatus(a.status)
  }

  /** `String(n)` for an integer `n`. */
  function NumberText(n: int): string {
    if n < 0 then "-" + Text.Digits(-n) else Text.Digits(n)
  }

  /** `"APT-" + Date.now()`. */
  function Code(now: Time): string {
    "APT-" + NumberText(now)
  }

  /** Distinct instants give distinct generated codes. */
  lemma CodeInjective(t1: Time, t2: Time)
    requires Code(t1) == Code(t2)
    ensures t1 == t2
  {
    var s1, s2 := NumberText(t1), NumberText(t2);
    assert s1 == Code(t1)[4..] && s2 == Code(t2)[4..];
    NumberTextSign(t1);
    NumberTextSign(t2);
    if t1 < 0 {
      assert s1[1..] == Text.Digits(-t1) && s2[1..] == Text.Digits(-t2);
      Text.DigitsInjective(-t1, -t2);
    } else {
      Text.DigitsInjective(t1, t2);
    }
  }

  /** The rendering starts with a minus sign exactly for negative numbers. */
  lemma NumberTextSign(n: int)
    ensures |NumberText(n)| > 0
    ensures NumberText(n)[0] == '-' <==> n < 0
  {
    if n >= 0 {
      assert Text.IsDigit(Text.Digits(n)[0]);
    }
  }

  /** The pre-save hook: generate a code only when none is set. */
  function PreSave(a: Appointment, now: Time): (r: Appointment)
    ensures a.code != "" ==> r == a
    ensures a.code == "" ==> r == a.(code := Code(now))
  {
    if a.code == "" then a.(code := Code(now)) else a
  }

  /** The `PreSave` result always has a code, and a second pass changes nothing. */
  lemma PreSaveIdempotent(a: Appointment, now: Time, later: Time)
    ensures PreSave(a, now).code != ""
    ensures PreSave(PreSave(a, now), later) == PreSave(a, now)
  {
  }

  datatype Doctor = Doctor(
    id: Id, userId: Id, fullName: string, email: string, mobileNumber: string, gender: string,
    contactNumber: string, specialist: seq<string>, designation: string,
    averageRating: real, totalRatings: nat)

  /** Schema validation of a doctor in the healthcare tree: mobile number required, gender optional. */
  predicate HcDoctorValid(d: Doctor) {
    d.fullName != "" && d.email != "" && d.mobileNumber != ""
    && (d.gender == "" || IsPersonGender(d.gender))
  }

  /** Schema validation of a doctor in the legacy tree: gender and contact number required. */
  predicate LegacyDoctorValid(d: Doctor) {
    d.fullName != "" && d.email != "" && d.contactNumber != "" && IsPersonGender(d.gender)
  }

  /** A user account. `password` is the stored secret (hashing is outside the model). */
  datatype User = User(
    id: Id, name: string, email: string, mobileNumber: string, password: string, role: string,
    doctorId: Option<Id>, patientId: Option<Id>, profilePicture: string, bio: string,
    username: Option<string>)

  /** Schema validation of a user in the healthcare tree. */
  predicate HcUserValid(u: User) {
    u.name != "" && u.email != "" && u.mobileNumber != "" && u.password != "" && IsRole(u.role)
  }

  /** A new user: no links, empty picture and bio, no username. */
  function NewUser(id: Id, name: string, email: string, mobile: string, password: string, role: string): User {
    User(id, name, email, mobile, password, role, None, None, "", "", None)
  }

  datatype Rating = Rating(
    id: Id, doctorId: Id, patientId: Id, appointmentId: Id, score: real, comment: string, createdAt: Time)

  /** The values a notification message interpolates; the text itself is opaque. */
  datatype Notice =
    | BookedBy(patientName: string, date: Time)
    | AcceptedBy(doctor: string, date: Time)
    | RescheduledTo(doctor: string, date: Time, time: string)

  /** The text of a chat message: typed by a user, or the note an acceptance posts
      (opaque text interpolating the appointment's date and time). */
  datatype Body = Written(text: string) | AcceptedNote(date: Time, time: string)

  /** `text` is required: a typed text must not be empty. */
  predicate BodyPresent(b: Body) {
    b.Written? ==> b.text != ""
  }

  datatype NoticeKind = AppointmentBooked | AppointmentAccepted | AppointmentRescheduled | General

  datatype Notification = Notification(
    id: Id, userId: Id, notice: Notice, kind: NoticeKind, read: bool, link: string, createdAt: Time)

  /** Why a request fails. */
  datatype Failure =
    | NotFound
    | InvalidState
    | MissingFields
    | UserExists
    | EmailExists
    | MobileExists
    | InvalidMobile
    | MobileInUse
    | UsernameTaken
    | CredentialsRequired
    | InvalidCredentials
    | PasswordTooShort
    | WrongCurrentPassword
    | Forbidden
    | ValidationFailed
    | DuplicateKey
    | ReferenceError

  /** What a handler leaves behind: the store after its writes, and its answer. A failed
      request may still have written: the handlers are not transactional. */
  datatype Reply<S, T> = Reply(store: S, result: Result<T, Failure>)

  /** The collections both trees share, in natural (insertion) order. */
  datatype Db = Db(
    users: seq<User>, patients: seq<Patient>, doctors: seq<Doctor>, appointments: seq<Appointment>,
    ratings: seq<Rating>, notifications: seq<Notification>, nextId: Id)

  /** No two appointments share a code (the unique index on `appointmentId`). */
  ghost predicate UniqueCodes(appts: seq<Appointment>) {
    forall i, j :: 0 <= i < j < |appts| ==> appts[i].code != appts[j].code
  }

  /** Some appointment other than the one at index `except` already has `code`. */
  predicate CodeTaken(appts: seq<Appointment>, code: string, except: int) {
    exists j :: 0 <= j < |appts| && j != except && appts[j].code == code
  }

  /** Replacing one appointment by one whose code no other appointment has keeps codes unique. */
  lemma UniqueAfterSet(appts: seq<Appointment>, i: nat, a: Appointment)
    requires i < |appts| && !CodeTaken(appts, a.code, i)
    ensures UniqueCodes(appts) ==> UniqueCodes(appts[i := a])
  {
  }

  /** Appending an appointment whose code is new keeps codes unique. */
  lemma UniqueAfterAppend(appts: seq<Appointment>, a: Appointment)
    requires !CodeTaken(appts, a.code, -1)
    ensures UniqueCodes(appts) ==> UniqueCodes(appts + [a])
  {
  }

  /** `findById` on appointments. */
  function AppointmentById(id: Id): Appointment -> bool {
    (a: Appointment) => a.id == id
  }

  function PatientById(id: Id): Patient -> bool {
    (p: Patient) => p.id == id
  }

  function DoctorById(id: Id): Doctor -> bool {
    (d: Doctor) => d.id == id
  }

  function UserById(id: Id): User -> bool {
    (u: User) => u.id == id
  }

  /** `User.findOne({ doctorId })`. */
  function UserOfDoctor(id: Id): User -> bool {
    (u: User) => u.doctorId == Some(id)
  }

  /** `User.findOne({ patientId })`. */
  function UserOfPatient(id: Id): User -> bool {
    (u: User) => u.patientId == Some(id)
  }

  function UserWithEmail(email: string): User -> bool {
    (u: User) => u.email == email
  }
}

=== FILE: risk.dfy ===
/** The patient risk tier (the `priority` virtual) and the "critical patient" query,
    which the dashboard, the critical counts and the analytics all re-inline. */
module Risk {
  import opened Wrappers

  datatype Tier = Low | Moderate | High

  /** `vital > limit` in JavaScript: an absent (undefined or null) vital never exceeds a
      positive limit. */
  predicate Above(v: Option<real>, limit: real) {
    v.Some? && v.value > limit
  }

  /** The `priority` virtual of a patient with the given blood pressure and glucose level. */
  function Priority(bp: Option<real>, glucose: Option<real>): (t: Tier)
    ensures t == High <==> Above(bp, 140.0) || Above(glucose, 140.0)
    ensures t == Moderate <==> !(Above(bp, 140.0) || Above(glucose, 140.0))
                               && (Above(bp, 120.0) || Above(glucose, 100.0))
    ensures t == Low <==> !Above(bp, 120.0) && !Above(glucose, 100.0)
  {
    if Above(bp, 140.0) || Above(glucose, 140.0) then High
    else if Above(bp, 120.0) || Above(glucose, 100.0) then Moderate
    else Low
  }

  /** The Mongo filter `$or: [{ bloodPressure: { $gt: 140 } }, { glucoseLevel: { $gt: 140 } }]`:
      `$gt` matches only documents where the field is present and greater. */
  predicate Critical(bp: Option<real>, glucose: Option<real>) {
    (bp.Some? && bp.value > 140.0) || (glucose.Some? && glucose.value > 140.0)
  }

  /** The critical-patient query selects exactly the patients whose tier is High. */
  lemma CriticalIffHigh(bp: Option<real>, glucose: Option<real>)
    ensures Critical(bp, glucose) <==> Priority(bp, glucose) == High
  {
  }

  function Rank(t: Tier): nat {
    match t
    case Low => 0
    case Moderate => 1
    case High => 2
  }

  /** `a` is no higher a reading than `b`; an absent reading is below every present one. */
  predicate NoHigher(a: Option<real>, b: Option<real>) {
    a.None? || (b.Some? && a.value <= b.value)
  }

  lemma AboveMonotone(a: Option<real>, b: Option<real>, limit: real)
    requires NoHigher(a, b)
    ensures Above(a, limit) ==> Above(b, limit)
  {
  }

  /** Raising either vital, or recording one that was absent, never lowers the tier. */
  lemma {:induction false} PriorityMonotone(bp1: Option<real>, g1: Option<real>, bp2: Option<real>, g2: Option<real>)
    requires NoHigher(bp1, bp2) && NoHigher(g1, g2)
    ensures Rank(Priority(bp1, g1)) <= Rank(Priority(bp2, g2))
  {
    AboveMonotone(bp1, bp2, 140.0);
    AboveMonotone(g1, g2, 140.0);
    AboveMonotone(bp1, bp2, 120.0);
    AboveMonotone(g1, g2, 100.0);
  }

  /** The thresholds are strict, and a patient with no vitals is Low. */
  lemma PriorityBoundaries()
    ensures Priority(Some(140.0), Some(140.0)) == Moderate
    ensures Priority(Some(140.0), Some(100.0)) == Moderate
    ensures Priority(Some(120.0), Some(100.0)) == Low
    ensures Priority(Some(120.5), None) == Moderate
    ensures Priority(None, Some(100.5)) == Moderate
    ensures Priority(None, Some(140.5)) == High
    ensures Priority(None, Some(140.0)) == Moderate
    ensures Priority(Some(140.5), None) == High
    ensures Priority(None, None) == Low
  {
  }
}

=== FILE: text.dfy ===
/** String rules the schemas and validators apply: `trim`, `lowercase`, the decimal
    rendering of a timestamp, and unanchored substring tests. Only ASCII letters are
    case-mapped; the blanks trimmed are those of JavaScript's `String.prototype.trim`. */
module Text {

  /** The WhiteSpace and LineTerminator code points of ECMA-262: tab, line feed, vertical tab, form feed, carriage return, space,
      no-break space, the Unicode space separators, the line and paragraph separators
      and the byte-order mark. */
  predicate IsBlank(c: char) {
    ('\U{0009}' <= c <= '\U{000D}') || c == ' ' || c == '\U{00A0}' || c == '\U{1680}'
    || ('\U{2000}' <= c <= '\U{200A}') || c == '\U{2028}' || c == '\U{2029}' || c == '\U{202F}'
    || c == '\U{205F}' || c == '\U{3000}' || c == '\U{FEFF}'
  }

  /** `s` with its leading blanks removed. */
  function TrimStart(s: string): (r: string)
    ensures |r| <= |s| && r == s[|s| - |r|..]
    ensures |r| > 0 ==> !IsBlank(r[0])
    ensures forall i :: 0 <= i < |s| - |r| ==> IsBlank(s[i])
    decreases |s|
  {
    if |s| > 0 && IsBlank(s[0]) then TrimStart(s[1..]) else s
  }

  /** `s` with its trailing blanks removed. */
  function TrimEnd(s: string): (r: string)
    ensures |r| <= |s| && r == s[..|r|]
    ensures |r| > 0 ==> !IsBlank(r[|r| - 1])
    ensures forall i :: |r| <= i < |s| ==> IsBlank(s[i])
    decreases |s|
  {
    if |s| > 0 && IsBlank(s[|s| - 1]) then TrimEnd(s[..|s| - 1]) else s
  }

  /** Mongoose `trim: true`. */
  function Trim(s: string): string {
    TrimEnd(TrimStart(s))
  }

  /** A string with no blank at either end. */
  predicate Trimmed(s: string) {
    |s| > 0 ==> !IsBlank(s[0]) && !IsBlank(s[|s| - 1])
  }

  /** The result of `trim` has no blank at either end. */
  lemma TrimIsTrimmed(s: string)
    ensures Trimmed(Trim(s))
  {
    var t := TrimStart(s);
    var r := TrimEnd(t);
    if |r| > 0 {
      assert r[0] == t[0];
    }
  }

  /** `r` is `s[i..j]` and everything outside that slice is blank. */
  predicate BlankFramed(s: string, i: int, j: int, r: string) {
    && 0 <= i <= j <= |s| && r == s[i..j]
    && (forall k :: 0 <= k < i ==> IsBlank(s[k]))
    && (forall k :: j <= k < |s| ==> IsBlank(s[k]))
  }

  /** The result of `trim` is a slice of the input with only blanks cut away on each side. */
  lemma TrimSlice(s: string)
    ensures Trimmed(Trim(s))
    ensures exists i, j :: BlankFramed(s, i, j, Trim(s))
  {
    TrimIsTrimmed(s);
    var t := TrimStart(s);
    var i := |s| - |t|;
    var j := i + |TrimEnd(t)|;
    SliceOfSuffix(s, t, TrimEnd(t));
    assert BlankFramed(s, i, j, Trim(s));
  }

  /** A blank-framed prefix `r` of the blank-framed suffix `t` of `s` is blank-framed in `s`. */
  lemma SliceOfSuffix(s: string, t: string, r: string)
    requires |t| <= |s| && t == s[|s| - |t|..] && forall k :: 0 <= k < |s| - |t| ==> IsBlank(s[k])
    requires |r| <= |t| && r == t[..|r|] && forall k :: |r| <= k < |t| ==> IsBlank(t[k])
    ensures BlankFramed(s, |s| - |t|, |s| - |t| + |r|, r)
  {
    var i := |s| - |t|;
    assert forall k :: i + |r| <= k < |s| ==> s[k] == t[k - i];
  }

  /** Blanks beyond ASCII are cut as well: a lone no-break space trims to nothing. */
  lemma TrimNoBreakSpace()
    ensures Trim("\U{00A0}") == ""
  {
    assert IsBlank("\U{00A0}"[0]);
    assert "\U{00A0}"[1..] == "";
  }

  /** `trim` changes nothing on a string that is already trimmed. */
  lemma TrimOfTrimmed(s: string)
    requires Trimmed(s)
    ensures Trim(s) == s
  {
  }

  function LowerChar(c: char): char {
    if 'A' <= c <= 'Z' then (c as int - 'A' as int + 'a' as int) as char else c
  }

  /** Mongoose `lowercase: true` on ASCII letters. */
  function Lower(s: string): (r: string)
    ensures |r| == |s|
    ensures forall i :: 0 <= i < |s| ==> r[i] == LowerChar(s[i])
  {
    seq(|s|, i requires 0 <= i < |s| => LowerChar(s[i]))
  }

  /** JavaScript's `length`: UTF-16 code units, two for a character beyond the Basic
      Multilingual Plane. */
  function Utf16Length(s: string): (n: nat)
    ensures |s| <= n <= 2 * |s|
    ensures n == |s| <==> forall k :: 0 <= k < |s| ==> s[k] as int <= 0xFFFF
  {
    if |s| == 0 then 0
    else
      var init := s[..|s| - 1];
      assert forall k :: 0 <= k < |init| ==> init[k] == s[k];
      Utf16Length(init) + (if s[|s| - 1] as int > 0xFFFF then 2 else 1)
  }

  /** A string of characters beyond the Basic Multilingual Plane has two units per character. */
  lemma {:induction false} Utf16AllAstral(s: string)
    requires forall k :: 0 <= k < |s| ==> s[k] as int > 0xFFFF
    ensures Utf16Length(s) == 2 * |s|
    decreases |s|
  {
    if |s| > 0 {
      var init := s[..|s| - 1];
      assert forall k :: 0 <= k < |init| ==> init[k] == s[k];
      Utf16AllAstral(init);
    }
  }

  /** The stored form of `patientEmail`: trimmed, then lowercased. */
  function Normalise(s: string): string {
    Lower(Trim(s))
  }

  /** Normalising an already normalised e-mail changes nothing. */
  lemma NormaliseIdempotent(s: string)
    ensures Normalise(Normalise(s)) == Normalise(s)
  {
    var t := Trim(s);
    TrimIsTrimmed(s);
    TrimOfTrimmed(t);
    LowerTrimCommute(t);
    assert Trim(Lower(t)) == Lower(t);
    assert Lower(Lower(t)) == Lower(t);
  }

  /** Lowercasing never creates or removes a blank, so the order of the two setters is irrelevant. */
  lemma {:induction false} LowerTrimCommute(s: string)
    ensures Trim(Lower(s)) == Lower(Trim(s))
  {
    LowerTrimStart(s);
    LowerTrimEnd(TrimStart(s));
  }

  /** No blank is a capital letter, and lowercasing yields a blank only from a blank. */
  lemma LowerBlank(c: char)
    ensures IsBlank(LowerChar(c)) == IsBlank(c)
  {
    if 'A' <= c <= 'Z' {
      assert 'a' <= LowerChar(c) <= 'z';
    }
  }

  lemma {:induction false} LowerTrimStart(s: string)
    ensures TrimStart(Lower(s)) == Lower(TrimStart(s))
    decreases |s|
  {
    if |s| > 0 {
      LowerBlank(s[0]);
      if IsBlank(s[0]) {
        assert Lower(s)[1..] == Lower(s[1..]);
        LowerTrimStart(s[1..]);
      }
    }
  }

  lemma {:induction false} LowerTrimEnd(s: string)
    ensures TrimEnd(Lower(s)) == Lower(TrimEnd(s))
    decreases |s|
  {
    if |s| > 0 {
      LowerBlank(s[|s| - 1]);
      if IsBlank(s[|s| - 1]) {
        assert Lower(s)[..|s| - 1] == Lower(s[..|s| - 1]);
        LowerTrimEnd(s[..|s| - 1]);
      }
    }
  }

  function DigitChar(d: nat): char
    requires d < 10
  {
    "0123456789"[d]
  }

  predicate IsDigit(c: char) {
    '0' <= c <= '9'
  }

  /** The decimal rendering of `n`, without leading zeros (`String(Date.now())`). */
  function Digits(n: nat): (r: string)
    ensures |r| >= 1
    ensures forall i :: 0 <= i < |r| ==> IsDigit(r[i])
  {
    if n < 10 then [DigitChar(n)] else Digits(n / 10) + [DigitChar(n % 10)]
  }

  /** Distinct numbers render differently: the decimal rendering is injective. */
  lemma {:induction false} DigitsInjective(a: nat, b: nat)
    requires Digits(a) == Digits(b)
    ensures a == b
    decreases a
  {
    var s := Digits(a);
    if a < 10 && b < 10 {
      assert "0123456789"[a] == s[0] == "0123456789"[b];
    } else if a >= 10 && b >= 10 {
      assert DigitChar(a % 10) == s[|s| - 1] == DigitChar(b % 10);
      assert a % 10 == b % 10;
      assert Digits(a / 10) == s[..|s| - 1] == Digits(b / 10);
      DigitsInjective(a / 10, b / 10);
    } else {
      assert false;
    }
  }

  /** `sub` occurs somewhere in `s` (an unanchored regular-expression match of a literal). */
  predicate Contains(s: string, sub: string)
    decreases |s|
  {
    |sub| <= |s| && (s[..|sub|] == sub || Contains(s[1..], sub))
  }

  /** `sub` occurs in `s` starting at index `k`. */
  predicate OccursAt(s: string, sub: string, k: nat) {
    k + |sub| <= |s| && s[k..k + |sub|] == sub
  }

  /** The recursive search finds `sub` exactly when it occurs at some index. */
  lemma {:induction false} ContainsIff(s: string, sub: string)
    ensures Contains(s, sub) <==> exists k: nat :: OccursAt(s, sub, k)
    decreases |s|
  {
    if |sub| <= |s| {
      if s[..|sub|] == sub {
        assert OccursAt(s, sub, 0);
      } else {
        ContainsIff(s[1..], sub);
        if Contains(s[1..], sub) {
          var k: nat :| OccursAt(s[1..], sub, k);
          assert s[1..][k..k + |sub|] == s[k + 1..k + 1 + |sub|];
          assert OccursAt(s, sub, k + 1);
        } else {
          forall k: nat | OccursAt(s, sub, k)
            ensures false
          {
            if k > 0 {
              assert s[1..][k - 1..k - 1 + |sub|] == s[k..k + |sub|];
              assert OccursAt(s[1..], sub, k - 1);
            }
          }
        }
      }
    }
  }

  /** Exactly ten ASCII digits: `/^\d{10}$/`. */
  predicate IsTenDigits(s: string) {
    |s| == 10 && forall i :: 0 <= i < |s| ==> IsDigit(s[i])
  }
}

=== FILE: time.dfy ===
/** Instants as integer milliseconds since the Unix epoch, read in UTC.
    The handlers use local-time `setHours` / `getHours`; the model fixes the zone to UTC. */
module Time {

  type Time = int

  const MsPerHour: int := 3_600_000
  const MsPerDay: int := 86_400_000

  /** Midnight of the day holding `t` (`setHours(0, 0, 0, 0)`). */
  function DayStart(t: Time): (r: Time)
    ensures r <= t < r + MsPerDay
    ensures r % MsPerDay == 0
  {
    t - t % MsPerDay
  }

  /** The last millisecond of the day holding `t` (`setHours(23, 59, 59, 999)`). */
  function EndOfDay(t: Time): (r: Time)
    ensures t <= r < t + MsPerDay
    ensures DayStart(r) == DayStart(t)
  {
    DayStart(t) + MsPerDay - 1
  }

  /** The hour of the day, 0 to 23 (`getHours()`). */
  function HourOf(t: Time): (h: nat)
    ensures h < 24
    ensures DayStart(t) + h * MsPerHour <= t < DayStart(t) + (h + 1) * MsPerHour
  {
    (t % MsPerDay) / MsPerHour
  }

  /** The instant `n` whole days after `t` (`setDate(getDate() + n)`). */
  function AddDays(t: Time, n: int): Time {
    t + n * MsPerDay
  }
}

=== FILE: trees.dfy ===
/** Where the healthcare tree and the legacy tree part ways on the same request. */
module Trees {
  import opened Wrappers
  import opened Time
  import opened Records
  import opened Collection
  import opened Accounts
  import HcAuth
  import LegacyAuth
  import LegacyChats
  import LegacyAppointments

  /** A registration whose email is new but whose mobile number an existing user holds is
      refused by the healthcare tree, with nothing written, and accepted by the legacy tree,
      which never looks at mobile numbers. */
  lemma KnownMobileRegistration(db: Db, q: Registration, now: Time, k: nat)
    requires forall j :: 0 <= j < |db.users| ==> db.users[j].email != q.email
    requires k < |db.users| && db.users[k].mobileNumber == q.mobileNumber
    requires q.name != "" && q.email != "" && (q.gender == "" || IsPersonGender(q.gender))
    ensures HcAuth.Register(db, q, now) == Reply(db, Err(MobileExists))
    ensures LegacyAuth.Register(db, q, now).result.Ok?
  {
    assert EmailOrMobile(q.email, q.mobileNumber)(db.users[k]);
    assert Find(db.users, UserWithEmail(q.email)).None?;
  }

  /** Every legacy chat between a doctor and a patient, whatever its appointment. */
  function PairChat(doctorId: Id, patientId: Id): LegacyChats.LChat -> bool {
    (c: LegacyChats.LChat) => c.doctorId == doctorId && c.patientId == patientId
  }

  lemma CountOne<T>(x: T, p: T -> bool)
    requires p(x)
    ensures Count([x], p) == 1
  {
    assert [x][..0] == [];
  }

  /** Accepting an appointment that has no chat of its own adds a chat for its doctor-patient
      pair even when the pair already has one from another appointment; the healthcare tree
      keeps one chat per pair instead (`HcAppointments.AcceptKeepsOneChat`). */
  lemma LegacyAcceptAddsPairChat(s: LegacyChats.LStore, id: Id, now: Time)
    requires LegacyAppointments.Accept(s, id, false, now).result.Ok?
    requires forall k :: 0 <= k < |s.chats| ==> s.chats[k].appointmentId != id
    ensures var r := LegacyAppointments.Accept(s, id, false, now);
            var a := r.result.value;
            Count(r.store.chats, PairChat(a.doctorId, a.patientId))
              == Count(s.chats, PairChat(a.doctorId, a.patientId)) + 1
  {
    var r := LegacyAppointments.Accept(s, id, false, now);
    var a := r.result.value;
    var i := FindIndex(s.db.appointments, AppointmentById(id)).value;
    assert a.id == s.db.appointments[i].id == id;
    var p := LegacyChats.ForAppointment(a.doctorId, a.patientId, a.id);
    assert FindIndex(s.chats, p).None? by {
      assert forall k :: 0 <= k < |s.chats| ==> !p(s.chats[k]);
    }
    var c := r.store.chats[|s.chats|];
    assert r.store.chats == s.chats + [c];
    CountAppend(s.chats, [c], PairChat(a.doctorId, a.patientId));
    CountOne(c, PairChat(a.doctorId, a.patientId));
  }
}

=== FILE: wrappers.dfy ===
/** Optional values and request outcomes shared by every module of the model. */
module Wrappers {

  /** A value that may be absent: an unset document field, an omitted request field. */
  datatype Option<+T> = None | Some(value: T) {

    /** The value, or `default` when absent. */
    function GetOr(default: T): T {
      match this
      case Some(v) => v
      case None => default
    }
  }

  /** The outcome of a request: a value, or the error the handler answers with. */
  datatype Result<+T, +E> = Ok(value: T) | Err(error: E) {

    predicate IsFailure() {
      Err?
    }
  }
}
